=== FILE: README.md ===
# PyPI banner generator: a Dafny model of its core

`banner_generator_v1.py` draws a 1200×630 social-preview banner for a PyPI
package. It takes the package's metadata, picks a theme (or several) from a
catalog of twelve, and paints the banner with Pillow. The banner has a
background chosen by the theme's type:

- a vertical gradient,
- glassmorphism circles,
- a neon grid,
- or a plain fill.

Down the left column it draws:

- the package name;
- a version pill;
- the wrapped summary;
- a Python-requirement badge;
- a `pip install` card;
- the project link.

It also draws an optional logo in the top-right corner and an accent bar across the top.

The model covers the following, one module per concept:

- `Strings`: Python's `str.split()`, `str.split(c)`, `strip`, `join` and `replace` on `seq<char>`, with Python's whitespace set.
- `Numbers`: `str(int)`, `int(s, base)` (sign, surrounding whitespace other than the information separators U+001C..U+001F, `0x` prefix, single underscores) and `int(x)` of a quotient (truncation toward zero).
- `Colour`:
  - the `#rrggbb` decoding by slices at offsets 1, 3 and 5, with Python's clamped slicing and `int(piece, 16)`;
  - the gradient rows with truncating interpolation;
  - the neon grid coordinates.
- `Shapes`: `_draw_rounded_rect` as the primitives it draws.
- `Wrap`: `_wrap_text`, the greedy line breaker, with the text measure abstract.
- `Themes`:
  - the `ALL_THEMES` catalog;
  - the three category tables;
  - the `--theme` choices;
  - the single-theme, all-themes and category menus as pure functions of the entered choice.
- `Selection`: the body of the multiple-theme prompt. It parses `1,3,5-8` into a sorted list of distinct keys, or reports why the prompt asks again.
- `Layout`: `generate_banner` as a pure function. It returns either the first `KeyError`, or the `ValueError` of the program's own hex decoding, or the background and the list of drawing calls in order.

Text measurement (`draw.textlength`, `font.getbbox(...)[3]`) enters the model as
the functions of `Layout.Metrics`. Whether the logo file exists and opens enters
as the `LogoFile` parameter. The catalog, its categories and the choices are
the program's own constants.

## Model

| member | source | states |
|---|---|---|
| Strings.TrimEnd | banner_generator_v1.py:276 | `rstrip` keeps a prefix that ends in a non-space, and drops only whitespace |
| Strings.Strip | banner_generator_v1.py:558 | a stripped part starts and ends with a non-space character unless it is empty |
| Strings.StripIsSlice | banner_generator_v1.py:558 | `strip` removes only whitespace at both ends and keeps a contiguous piece of the input |
| Strings.WordsEmptyIff | banner_generator_v1.py:271 | `split()` yields no words exactly when the text is whitespace only |
| Strings.WordsOfJoin | banner_generator_v1.py:271 | splitting words joined by single spaces gives the words back |
| Strings.Words | banner_generator_v1.py:271 | every piece `split()` yields is a non-empty run without whitespace |
| Strings.WordsCharacterised | banner_generator_v1.py:271 | `split()` yields exactly the words of a text laid out as whitespace gaps between non-empty whitespace-free words, inner gaps non-empty (both directions) |
| Strings.WordsLayout | banner_generator_v1.py:271 | every text is its `split()` words placed between whitespace gaps |
| Strings.WordsOfLayout | banner_generator_v1.py:271 | words placed between whitespace gaps are what `split()` gives back |
| Strings.ReplaceAll | banner_generator_v1.py:385 | `replace` keeps the length when the replacement is as long as the pattern, shrinks or grows it with a shorter or longer one, and changes nothing when both are equal |
| Strings.SplitOn | banner_generator_v1.py:556 | `split(c)` always yields at least one piece and no piece contains `c` |
| Strings.SplitOnCount | banner_generator_v1.py:561 | `split(c)` yields one more piece than there are occurrences of `c`, so `a-b` unpacks only with exactly one dash |
| Strings.JoinSplitOn | banner_generator_v1.py:556 | joining the pieces of `split(c)` with `c` restores the string |
| Strings.SplitOnJoin | banner_generator_v1.py:556 | splitting `c`-free pieces joined by `c` gives the pieces back |
| Strings.ReplaceAbsent | banner_generator_v1.py:385 | `replace` of a pattern that does not occur changes nothing |
| Strings.ReplaceAfterPlain | banner_generator_v1.py:385 | text without the pattern's first character passes through `replace` unchanged |
| Numbers.NatToString | banner_generator_v1.py:563 | `str(n)` is a non-empty run of decimal digits with no leading zero |
| Numbers.IntToString | banner_generator_v1.py:563 | `str(i)` is non-empty and has no whitespace at either end |
| Numbers.ParseInt | banner_generator_v1.py:562 | `int(s)` fails on a blank string and on any string holding an information separator U+001C..U+001F; a success ends in a digit and a negative value is spelled with a leading minus |
| Numbers.ParseSigned | banner_generator_v1.py:198 | after stripping, a parse succeeds only on text with no whitespace that ends in a digit of the base |
| Numbers.ParseIntPadded | banner_generator_v1.py:558-562 | `int()` ignores the whitespace it skips (all of `str.isspace` but U+001C..U+001F) around the number, as in the ends of a range typed "1 - 4" |
| Numbers.ParseIntSeparator | banner_generator_v1.py:558-562 | an information separator beside the number is not skipped: `int("1\x1c")` fails although `strip()` would remove the `\x1c`, as for a range end typed `1\x1c` |
| Numbers.ParseIntLeadingZeros | banner_generator_v1.py:562 | leading zeros do not change the value: `int("004") == 4` |
| Numbers.ParseIntPlus | banner_generator_v1.py:562 | a leading `+` is accepted: `int("+4") == 4` |
| Numbers.ParseIntUnderscore | banner_generator_v1.py:562 | one underscore between digit runs is accepted and ignored: `int("1_0") == int("10")` |
| Numbers.ParseIntToString | banner_generator_v1.py:572 | `int(str(i)) == i` for every integer |
| Numbers.IntToStringInjective | banner_generator_v1.py:563 | distinct integers have distinct decimal spellings |
| Numbers.TruncDiv | banner_generator_v1.py:204 | `int()` of a quotient truncates toward zero, for negative numerators too |
| Colour.Slice | banner_generator_v1.py:198 | Python's slice clamps its bounds: in range it is the substring, otherwise it is shorter |
| Colour.ShortHex | banner_generator_v1.py:198 | a decoded piece of at most two characters lies in -15..255 |
| Colour.DecodeSeparator | banner_generator_v1.py:198 | a colour whose red piece holds an information separator, such as `#\x1cf0000`, does not decode |
| Colour.ShortHexIsParseInt | banner_generator_v1.py:198 | the case analysis of short pieces agrees with the general `int(piece, 16)` |
| Colour.DecodeHex | banner_generator_v1.py:198-199 | every channel of a decoded colour lies in -15..255 |
| Colour.DecodeWellFormed | banner_generator_v1.py:198-199 | a `#` and six hex digits decode to the three bytes the digit pairs denote |
| Colour.GradientChannel | banner_generator_v1.py:201-206 | a row's channel lies between the start and end channel |
| Colour.GradientRows | banner_generator_v1.py:201-208 | one colour per row, for every row of the canvas |
| Colour.GradientBounds | banner_generator_v1.py:201-208 | the top row is exactly the start colour, and every row is channel-wise between the two colours |
| Colour.GradientChannelMonotone | banner_generator_v1.py:201-206 | a rising channel never decreases down the rows and a falling one never increases |
| Colour.GradientLastRow | banner_generator_v1.py:201-206 | on a canvas taller than 255 rows the bottom row is the end colour or one below it: the end colour need not be reached |
| Colour.TruncDivMonotone | banner_generator_v1.py:204 | truncating division by a positive divisor is monotone |
| Colour.PyRange | banner_generator_v1.py:243 | `range(start, stop, step)` is strictly increasing and stays in `[start, stop)` |
| Colour.PyRangeMembers | banner_generator_v1.py:243-247 | a value is in `range(start, stop, step)` exactly when it is in `[start, stop)` a whole number of steps past `start` |
| Colour.NeonGrid | banner_generator_v1.py:240-247 | the grid lines sit exactly at the multiples of 50 inside the canvas, in both directions |
| Shapes.RoundedRectParts | banner_generator_v1.py:251-267 | a radius of zero or less draws the plain rectangle; otherwise two rectangles and then four pie slices starting at 180, 270, 90 and 0 degrees, all with the caller's fill and outline |
| Shapes.RoundedRectCoverage | banner_generator_v1.py:259-261 | the two rectangles cover exactly the box less its four corner squares |
| Shapes.RoundedRectWithinBox | banner_generator_v1.py:255-267 | every part stays inside the box, and every point of the box is covered by some part |
| Shapes.RoundedRectCornersFaceOutward | banner_generator_v1.py:259-267 | for any positive radius, each pie slice spans 90 degrees and its box is the diameter square in the corner its start angle faces; the four start angles cover all four corners |
| Wrap.WrapText | banner_generator_v1.py:269-287 | no lines exactly when the text is whitespace only |
| Wrap.WrapTextIsGrouping | banner_generator_v1.py:269-287 | the string loop produces the lines of the loop over word groups |
| Wrap.WrapStep | banner_generator_v1.py:276-282 | one word either joins the pending line or commits the stripped pending line and starts a new one with the word; earlier lines never change |
| Wrap.WrapLoop | banner_generator_v1.py:275-282 | the pending line is empty exactly when there were no words, and then no line is committed |
| Wrap.WrapLoopLines | banner_generator_v1.py:275-285 | the loop commits fewer lines than it read words, so the final flush adds at most one |
| Wrap.WrapLoopPending | banner_generator_v1.py:275-282 | after the loop the pending line ends with the last word and a space |
| Wrap.WrapLoopSimulates | banner_generator_v1.py:275-282 | the string loop and the group loop run in lock step |
| Wrap.WrapStepSimulates | banner_generator_v1.py:276-282 | one step of each loop keeps them in lock step |
| Wrap.WrapTextLines | banner_generator_v1.py:269-287 | every line is its words single-spaced; the lines' words are the text's words in order and form a valid greedy grouping; a line too wide holds one word |
| Wrap.GroupLoopValid | banner_generator_v1.py:275-285 | the group loop keeps its invariant: a valid grouping, with the pending group empty only before the first word |
| Wrap.GreedyGroupingUnique | banner_generator_v1.py:269-287 | the valid grouping is unique: wrapping is fully determined by the measured widths |
| Wrap.WideGroupSingle | banner_generator_v1.py:277-282 | a line that measured too wide holds a single word |
| Wrap.OneWordPerLine | banner_generator_v1.py:269-287 | when no two words fit together, every word gets its own line, in order |
| Themes.Lookup | banner_generator_v1.py:312-313 | `theme[key]` succeeds exactly when the key is present and otherwise raises the missing key |
| Themes.CatalogKeys | banner_generator_v1.py:28-166 | the catalog's keys are "1" to "12" |
| Themes.CatalogRenderable | banner_generator_v1.py:28-166 | every catalog theme has a type, a name, a description, and every colour its type needs as `#` and six hex digits |
| Themes.GradientCategory | banner_generator_v1.py:510-515 | the Gradient category holds exactly the themes of type gradient; the synthwave theme is under Modern |
| Themes.ProfessionalThemes | banner_generator_v1.py:511 | the Professional themes are renderable and not of type gradient |
| Themes.MinimalThemes | banner_generator_v1.py:512 | the Minimal themes are renderable and not of type gradient |
| Themes.GradientThemes | banner_generator_v1.py:513 | the Gradient themes are renderable and of type gradient |
| Themes.ModernThemes | banner_generator_v1.py:514 | the Modern themes are renderable and not of type gradient |
| Themes.CatalogEntry1 | banner_generator_v1.py:29-39 | theme 1 is a renderable professional theme |
| Themes.CatalogEntry2 | banner_generator_v1.py:40-50 | theme 2 is a renderable professional theme |
| Themes.CatalogEntry3 | banner_generator_v1.py:51-61 | theme 3 is a renderable minimal theme |
| Themes.CatalogEntry4 | banner_generator_v1.py:62-72 | theme 4 is a renderable minimal theme |
| Themes.CatalogEntry5 | banner_generator_v1.py:73-84 | theme 5 is a renderable gradient theme |
| Themes.CatalogEntry6 | banner_generator_v1.py:85-96 | theme 6 is a renderable gradient theme |
| Themes.CatalogEntry7 | banner_generator_v1.py:97-108 | theme 7 is a renderable gradient theme |
| Themes.CatalogEntry8 | banner_generator_v1.py:109-120 | theme 8 is a renderable gradient theme |
| Themes.CatalogEntry9 | banner_generator_v1.py:121-131 | theme 9 is a renderable glassmorphism theme |
| Themes.CatalogEntry10 | banner_generator_v1.py:132-142 | theme 10 is a renderable neon theme |
| Themes.CatalogEntry11 | banner_generator_v1.py:143-153 | theme 11 is a renderable material theme |
| Themes.CatalogEntry12 | banner_generator_v1.py:154-165 | theme 12 is a renderable synthwave theme, drawn as a gradient |
| Themes.SolidRenderable | banner_generator_v1.py:28-166 | a theme with a plain background and well-formed colours is renderable |
| Themes.GradientRenderable | banner_generator_v1.py:28-166 | a gradient theme with well-formed end colours and well-formed colours is renderable |
| Themes.CategoryTablesAgree | banner_generator_v1.py:510-515 | the three category tables list the same categories with the same keys in the same order; the category menu is keyed "1" to "4" |
| Themes.CategoriesPartitionCatalog | banner_generator_v1.py:592-613 | the categories, read in order, list every catalog key exactly once, and so do the `--theme` choices |
| Themes.CategoryOfTheme | banner_generator_v1.py:829-834 | each catalog theme is in exactly one category |
| Themes.CategoriesDisjoint | banner_generator_v1.py:510-515 | no key is in two categories |
| Themes.TableKeys | banner_generator_v1.py:517-519 | a key is listed exactly when some category holds it |
| Selection.SelectAllInOrder | banner_generator_v1.py:496-497 | the all-themes mode yields the twelve keys in order, "1" to "12" |
| Themes.SelectAll | banner_generator_v1.py:496-497 | the all-themes mode selects every catalog key once |
| Themes.SelectSingle | banner_generator_v1.py:526-533 | a choice is accepted exactly when it is a catalog key, and selects only that key |
| Themes.SelectCategory | banner_generator_v1.py:620-629 | a choice is accepted exactly when it keys a category, and then selects that category's own `themes` list, a non-empty list of catalog keys |
| Selection.KeyValueIsInt | banner_generator_v1.py:572 | the model's sort key agrees with `int(key)` on canonical keys |
| Selection.CanonicalOfInt | banner_generator_v1.py:563 | `str(i)` is a canonical key whose value is `i` |
| Selection.CanonicalInjective | banner_generator_v1.py:571-572 | two canonical keys with the same value are the same key |
| Selection.RangeKeys | banner_generator_v1.py:562-564 | a range contributes only catalog keys |
| Selection.RangeKeysMembers | banner_generator_v1.py:562-564 | a key is in a range's contribution exactly when it is a catalog key whose value is between the ends |
| Selection.RangeKeysIncreasing | banner_generator_v1.py:562-564 | a range contributes its keys in increasing order of value |
| Selection.RangeEnds | banner_generator_v1.py:561-562 | a range has two ends only when the part has exactly one dash |
| Selection.ParsePart | banner_generator_v1.py:558-568 | a part fails exactly when it has a dash and is not two integers around it; a part without a dash contributes itself if it is a key and nothing otherwise |
| Selection.Gather | banner_generator_v1.py:552-584 | a failure is the first failing part's, with every earlier part succeeding |
| Selection.ParseParts | banner_generator_v1.py:556-568 | the parts contribute only catalog keys, and a failure is always a malformed part |
| Selection.PartsFailMalformed | banner_generator_v1.py:583-584 | the only error the parts raise is a malformed range |
| Selection.GatherFails | banner_generator_v1.py:552-584 | the loop fails exactly when some part fails |
| Selection.GatherMembers | banner_generator_v1.py:557-568 | a successful loop holds exactly the elements its parts contribute |
| Selection.GatherEmpty | banner_generator_v1.py:570-581 | the loop succeeds with nothing exactly when every part succeeds with nothing |
| Selection.ParsePartsAllOrNothing | banner_generator_v1.py:552-584 | the whole line is refused exactly when one part is malformed; otherwise its keys are exactly the parts' contributions |
| Selection.InsertValue | banner_generator_v1.py:571-572 | inserting keeps a strictly increasing sequence and adds exactly the value |
| Selection.SortValues | banner_generator_v1.py:571-572 | the distinct values, each once, in increasing order |
| Selection.SortKeys | banner_generator_v1.py:571-572 | `list(set(ks))` sorted by `int`: the same keys, without repeats, in increasing order of value |
| Selection.SpellMember | banner_generator_v1.py:571-572 | spelling the sorted values gives back exactly the original keys |
| Selection.SpellIncreasing | banner_generator_v1.py:572 | spelling strictly increasing values gives keys in increasing order |
| Selection.Finish | banner_generator_v1.py:570-581 | nothing selected asks again; otherwise exactly the selected keys, in increasing order without repeats |
| Selection.ParseSelection | banner_generator_v1.py:552-584 | an accepted line yields a non-empty, increasing list of catalog keys |
| Selection.SelectionStages | banner_generator_v1.py:552-584 | a malformed part aborts the line; otherwise the selected keys are deduplicated and sorted |
| Selection.SelectionContents | banner_generator_v1.py:556-579 | an accepted line holds exactly the keys its parts contribute |
| Selection.SelectionMalformed | banner_generator_v1.py:559-562 | the line is refused as malformed exactly when one of its parts is a malformed range |
| Selection.PartsMalformed | banner_generator_v1.py:559-562 | the parts are refused exactly when one of them is a malformed range |
| Selection.SelectionNothing | banner_generator_v1.py:570-581 | the line is refused as empty exactly when every part is well formed and none contributes a key |
| Selection.PartsEmpty | banner_generator_v1.py:557-570 | well-formed parts contribute nothing exactly when each contributes nothing |
| Selection.RangePart | banner_generator_v1.py:559-564 | a range `a-b` contributes exactly the catalog keys with value from `a` to `b`, so nothing when `a > b` |
| Selection.CatalogKeysCanonical | banner_generator_v1.py:28-166 | the catalog keys are canonical decimal spellings, so sorting them by `int` cannot fail |
| Selection.OrderKeySpelling | banner_generator_v1.py:28-166 | the catalog's n-th key is `str(n + 1)` |
| Layout.FirstFailure | banner_generator_v1.py:292-413 | no failure exactly when every lookup and decode the renderer makes succeeds |
| Layout.GenerateBanner | banner_generator_v1.py:289-415 | the renderer fails only with a key the theme lacks or a theme colour that does not decode |
| Layout.GenuineFailure | banner_generator_v1.py:292-413 | the first error is one the theme really has |
| Layout.GeneratesIffRenders | banner_generator_v1.py:289-415 | a banner is drawn exactly when the theme has every field and colour this package needs |
| Layout.RenderableRenders | banner_generator_v1.py:289-415 | a theme whose needed colours are all well-formed draws a banner for every package |
| Layout.CatalogRenders | banner_generator_v1.py:28-166 | every catalog theme draws a banner for every package, with or without a logo |
| Layout.BackgroundFailsFirst | banner_generator_v1.py:292-301 | the background is drawn first: when its lookups fail, their first failure is the error |
| Layout.GradientWithoutStart | banner_generator_v1.py:293-295 | a gradient theme without a start colour fails on exactly that key |
| Layout.BackgroundDrawn | banner_generator_v1.py:292-301 | the painter the theme's type selects, given the colours the source passes it; the colours it decodes do decode |
| Layout.GradientPainted | banner_generator_v1.py:193-210 | a gradient background paints 630 rows, the first exactly the start colour |
| Layout.HasColours | banner_generator_v1.py:309-413 | a drawn banner's theme has the colours every drawn section used |
| Layout.TitleFirst | banner_generator_v1.py:309-316 | the package name is drawn first, at (80, 100), in the title font and primary colour |
| Layout.VersionPill | banner_generator_v1.py:318-331 | the version pill is an accent box 16 wider than `v<version>` and 28 high, radius 14, with the text in white at (88, y+4) |
| Layout.SummaryLines | banner_generator_v1.py:333-342 | the summary is drawn as the wrapped lines, each at the left edge in the secondary colour; a whitespace summary draws no line |
| Layout.PythonBadge | banner_generator_v1.py:344-358 | the badge reads `Python <req>+` in white on a box 12 wider and 24 high, filled with the border colour or else the accent |
| Layout.InstallCard | banner_generator_v1.py:360-380 | the card spans the column (1040, or 900 with a logo file) and is 50 high; it is outlined in the border colour unless the background is a gradient; the command is written in the primary colour |
| Layout.UrlLine | banner_generator_v1.py:382-388 | the link is written at the left edge without its scheme, in the secondary colour |
| Layout.CleanUrlDropsScheme | banner_generator_v1.py:385 | a link with one leading `https://` or `http://` loses it and keeps the rest |
| Layout.CleanUrlEveryScheme | banner_generator_v1.py:385 | every occurrence of the scheme is removed, not only a leading one |
| Layout.LogoPlacement | banner_generator_v1.py:390-410 | the logo is drawn exactly when the file opens: a card-coloured square at (1005, 85)-(1135, 215), right of the column, then the paste at (1020, 100) |
| Layout.AccentBarLast | banner_generator_v1.py:412-413 | the last drawing call is the accent bar (0, 0)-(1200, 4) |
| Layout.CursorFlow | banner_generator_v1.py:309-388 | the cursor starts at row 100; each section lies between its own start row and the next section's, which is lower |
| Layout.SectionsPresent | banner_generator_v1.py:309-388 | the sections are, in order: title, version if any, summary if any, badge if any, install card, link if any |
| Layout.RenderedBlocks | banner_generator_v1.py:309-316 | the sections after the title start just below the title, at 100 plus the name's bottom plus 25 |
| Layout.LineTexts | banner_generator_v1.py:338-341 | one text per wrapped line, in order, at the left edge, in the given colour; each line's y is the cursor plus the heights (bottom + 6) of the lines before it |
| Layout.LinesEnd | banner_generator_v1.py:338-342 | the cursor after the lines has moved by the sum of their heights |
| Layout.VersionStage | banner_generator_v1.py:318-331 | the version section is drawn exactly when a version is given, and then moves the cursor by 28 + 30 |
| Layout.SummaryStage | banner_generator_v1.py:333-342 | the summary section is drawn exactly when a summary is given; its texts are the wrapped lines, and it moves the cursor by their heights + 25 |
| Layout.PythonStage | banner_generator_v1.py:344-358 | the Python section is drawn exactly when a requirement is given, and then moves the cursor by 24 + 35 |
| Layout.InstallStage | banner_generator_v1.py:360-380 | the install section is always drawn, at the cursor, and moves it by 50 + 30 |
| Layout.UrlStage | banner_generator_v1.py:382-388 | the link section is drawn exactly when a link is given, at the cursor, and does not move it |
| Layout.CleanUrl | banner_generator_v1.py:385 | removing the schemes never lengthens the link, and leaves a link with no `h` unchanged |
| Layout.CursorSteps | banner_generator_v1.py:309-388 | the first section starts at y = 100 and each next section starts where the previous one's step leaves the cursor: title bottom + 25, 58, summary heights + 25, 59, 80 |
| Layout.SummaryShape | banner_generator_v1.py:333-342 | a drawn summary section is one text per wrapped line |
| Layout.InstallShape | banner_generator_v1.py:365-379 | the install section is the filled card, the optional outline, then the command |
| Layout.UrlShape | banner_generator_v1.py:383-388 | the link section is the one cleaned text |
| Layout.LineTextsFlow | banner_generator_v1.py:338-342 | wrapped lines are placed downwards from the cursor, above the cursor after them |

## Left out

- Text measurement: `draw.textlength` and `getbbox` are abstract integer functions of the font and the text. Pillow's font metrics, and the float widths `textlength` returns, are not modelled.
- Image work: Pillow's colour-name parsing, pixels, alpha compositing, the resize, the LANCZOS filter and the paste's mask are not modelled. Colours stay strings, except where the source decodes them itself.
- Glassmorphism circles: their positions (`int(width * (0.2 + i * 0.15))`), sizes and 30-alpha overlay are float and alpha-blending work. The model keeps only that the accent colour is decoded and that the base is the `bg` colour.
- Colour.GradientChannel: the ratio `y / height` is computed in exact rational arithmetic. The source rounds it to a float first, so the model can differ by one on rows where the float product lands just below an integer.
- Logo file: `os.path.exists` and whether `Image.open` succeeds are the `LogoFile` parameter. An unreadable file keeps the 140-pixel logo room but draws nothing, because the exception is caught and printed.
- Font loading (lines 168-191), the welcome screen, the menus' printing and title-casing of names, and the retry loops around `input()` are I/O. The menus are modelled as functions of one entered choice.
- PyPI fetch (lines 632-647): HTTP is left out. The package is a record whose absent fields are empty strings, as the `get(..., '')` defaults make them.
- `save_banner` and `generate_multiple_banners` are left out: they do file output, timestamps and sleeps.
- The argument parser's behaviour is left out, and so is `setup.py`. Only the `--theme` choices are modelled.
- Exception messages: errors are modelled by their kind (missing key, undecodable colour, malformed range, nothing selected), not by their text.
- `int()` on non-ASCII Unicode digits: the model accepts ASCII digits and letters only.
- The project link: lines 382-385 replace every occurrence of `https://` and then of `http://` anywhere in the link, not only a leading scheme, and the model does the same (`Layout.CleanUrlEveryScheme`).
- Layout.GradientPainted: states the row count and the exact first row only. The bounds and the monotonicity of the other rows are stated once, about `Colour.GradientRows`, in `Colour.GradientBounds` and `Colour.GradientChannelMonotone`.

=== FILE: colour.dfy ===
/** Colour arithmetic of the background renderers: decoding `#rrggbb`
    strings, the vertical gradient and the neon grid coordinates. */
module Colour {
  import opened Results
  import opened Strings
  import opened Numbers

  datatype Rgb = Rgb(r: int, g: int, b: int)

  /** Python's `s[i:j]` for `i <= j`: both bounds are clamped to the
      string, so a short string yields a short (possibly empty) slice. */
  function Slice(s: string, i: nat, j: nat): (r: string)
    requires i <= j
    ensures |r| <= j - i
    ensures j <= |s| ==> r == s[i..j]
  {
    var hi := if j <= |s| then j else |s|;
    var lo := if i <= hi then i else hi;
    s[lo..hi]
  }

  /** `int(colour[offset:offset+2], 16)`. */
  function HexChannel(colour: string, offset: nat): Option<int> {
    ShortHex(Slice(colour, offset, offset + 2))
  }

  /** `int(piece, 16)` for a piece of at most two characters, case by case:
      two hex digits; one hex digit, alone or with whitespace `int()` skips
      on either side; a sign and one hex digit. Anything else, the empty
      piece and an information separator included, is the `ValueError`. */
  function ShortHex(p: string): (r: Option<int>)
    requires |p| <= 2
    ensures r.Some? ==> -15 <= r.value <= 255
  {
    if |p| == 1 then
      if IsDigit(p[0], 16) then Some(DigitValue(p[0]) as int) else None
    else if |p| == 2 then
      if IsDigit(p[0], 16) && IsDigit(p[1], 16) then Some(HexPair(p[0], p[1]))
      else if IsIntSpace(p[0]) && IsDigit(p[1], 16) then Some(DigitValue(p[1]) as int)
      else if IsDigit(p[0], 16) && IsIntSpace(p[1]) then Some(DigitValue(p[0]) as int)
      else if p[0] == '+' && IsDigit(p[1], 16) then Some(DigitValue(p[1]) as int)
      else if p[0] == '-' && IsDigit(p[1], 16) then Some(-(DigitValue(p[1]) as int))
      else None
    else None
  }

  /** The case analysis agrees with the general `int(piece, 16)`. */
  lemma ShortHexIsParseInt(p: string)
    requires |p| <= 2
    ensures ShortHex(p) == ParseInt(p, 16)
  {
    if HasInfoSeparator(p) {
      var k :| 0 <= k < |p| && IsInfoSeparator(p[k]);
      NotHexDigit(p[k]);
    } else if |p| == 1 {
      ShortHexOne(p);
    } else if |p| == 2 {
      if IsSpace(p[0]) {
        LeadingSpace(p);
      } else if IsSpace(p[1]) {
        TrailingSpace(p);
      } else {
        StripOfTrimmed(p);
        ParseTwo(p);
      }
    }
  }

  lemma ShortHexOne(p: string)
    requires |p| == 1 && !HasInfoSeparator(p)
    ensures ShortHex(p) == ParseInt(p, 16)
  {
    if IsSpace(p[0]) {
      assert TrimStart(p) == [];
      NotHexDigit(p[0]);
    } else {
      StripOfTrimmed(p);
      ParseOne(p[0]);
      assert p == [p[0]];
    }
  }

  lemma LeadingSpace(p: string)
    requires |p| == 2 && IsSpace(p[0]) && !HasInfoSeparator(p)
    ensures ShortHex(p) == ParseInt(p, 16)
  {
    var q := [p[1]];
    NotHexDigit(p[0]);
    assert p[1..] == q;
    assert TrimStart(p) == TrimStart(q);
    assert Strip(p) == Strip(q);
    assert p[0] != '+' && p[0] != '-';
    assert ShortHex(p) == ShortHex(q);
    ShortHexOne(q);
  }

  lemma TrailingSpace(p: string)
    requires |p| == 2 && !IsSpace(p[0]) && IsSpace(p[1]) && !HasInfoSeparator(p)
    ensures ShortHex(p) == ParseInt(p, 16)
  {
    NotHexDigit(p[1]);
    assert TrimStart(p) == p;
    assert p[..1] == [p[0]];
    assert TrimEnd(p) == TrimEnd([p[0]]) == [p[0]];
    ParseOne(p[0]);
  }

  lemma NotHexDigit(c: char)
    requires IsSpace(c) || c == '+' || c == '-' || c == '_' || c == 'x' || c == 'X'
    ensures !IsDigit(c, 16)
  {
  }

  /** `int(c, 16)` for one non-space character. */
  lemma ParseOne(c: char)
    ensures ParseSigned([c], 16) == if IsDigit(c, 16) then Some(DigitValue(c) as int) else None
  {
    if IsDigit(c, 16) {
      HexDigitIsPlain(c);
      assert IsDigitRun([c], 16);
      RunValueShort([c], 16);
    } else if c == '+' || c == '-' {
      assert !IsDigitRun([], 16);
    }
  }

  /** `int(p, 16)` for two non-space characters. */
  lemma ParseTwo(p: string)
    requires |p| == 2 && !IsSpace(p[0]) && !IsSpace(p[1])
    ensures ParseSigned(p, 16) == ShortHex(p)
  {
    if IsDigit(p[0], 16) && IsDigit(p[1], 16) {
      HexPairSigned(p);
    } else if p[0] == '+' || p[0] == '-' {
      assert p[1..] == [p[1]];
      ParseOne(p[1]);
      if IsDigit(p[1], 16) {
        HexDigitIsPlain(p[1]);
        assert IsDigitRun([p[1]], 16);
        RunValueShort([p[1]], 16);
      }
    } else if p[0] == '0' && (p[1] == 'x' || p[1] == 'X') {
      assert AfterPrefix(p, 16) == [];
    } else {
      assert AfterPrefix(p, 16) == p;
      assert !IsDigitRun(p, 16);
    }
  }

  /** The two-character hex pieces at offsets 1, 3 and 5 (the first
      character is never examined). `None` is the `ValueError` of a piece
      that is not a base-16 integer. Python's `int` also accepts a sign or
      surrounding whitespace, so a decoded channel may be as low as -15. */
  function DecodeHex(colour: string): (r: Option<Rgb>)
    ensures r.Some? ==> InDecodedRange(r.value)
  {
    var red :- HexChannel(colour, 1);
    var green :- HexChannel(colour, 3);
    var blue :- HexChannel(colour, 5);
    Some(Rgb(red, green, blue))
  }

  /** A piece beginning with an information separator is refused, as
      `int("\x1cf", 16)` is, although `strip()` would remove it. */
  lemma DecodeSeparator()
    ensures DecodeHex("#\U{1C}f0000") == None
    ensures DecodeHex("#f\U{1F}0000") == None
  {
    assert Slice("#\U{1C}f0000", 1, 3) == ['\U{1C}', 'f'];
    assert Slice("#f\U{1F}0000", 1, 3) == ['f', '\U{1F}'];
  }

  predicate InDecodedRange(c: Rgb) {
    -15 <= c.r <= 255 && -15 <= c.g <= 255 && -15 <= c.b <= 255
  }

  predicate IsByte(c: Rgb) {
    0 <= c.r <= 255 && 0 <= c.g <= 255 && 0 <= c.b <= 255
  }

  /** `#` followed by six hex digits. */
  predicate WellFormedHex(colour: string) {
    |colour| == 7 && colour[0] == '#' && forall i :: 1 <= i < 7 ==> IsDigit(colour[i], 16)
  }

  function HexPair(hi: char, lo: char): int {
    16 * DigitValue(hi) + DigitValue(lo)
  }

  lemma RunValueShort(s: string, base: nat)
    requires base == 16 && IsDigitRun(s, base) && |s| <= 2
    ensures |s| == 1 ==> RunValue(s, base) == DigitValue(s[0])
    ensures |s| == 2 ==> RunValue(s, base) == 16 * DigitValue(s[0]) + DigitValue(s[1])
    ensures RunValue(s, base) <= 255
  {
    assert IsDigit(s[0], 16);
    if |s| == 2 {
      assert s[..1] == [s[0]];
      assert IsDigit(s[1], 16);
    }
  }

  lemma HexDigitIsPlain(c: char)
    requires IsDigit(c, 16)
    ensures !IsSpace(c) && c != '_' && c != '+' && c != '-' && c != 'x' && c != 'X'
  {
  }

  lemma HexPairParses(s: string)
    requires |s| == 2 && IsDigit(s[0], 16) && IsDigit(s[1], 16)
    ensures ParseInt(s, 16) == Some(HexPair(s[0], s[1]))
  {
    HexDigitIsPlain(s[0]);
    HexDigitIsPlain(s[1]);
    StripOfTrimmed(s);
    HexPairSigned(s);
    SignedPlain(s, 16);
  }

  lemma HexPairSigned(s: string)
    requires |s| == 2 && IsDigit(s[0], 16) && IsDigit(s[1], 16)
    ensures ParseSigned(s, 16) == Some(HexPair(s[0], s[1]))
  {
    HexDigitIsPlain(s[0]);
    HexDigitIsPlain(s[1]);
    assert AfterPrefix(s, 16) == s;
    assert IsDigitRun(s, 16);
    RunValueShort(s, 16);
  }

  /** A well-formed colour decodes to the bytes its digit pairs denote. */
  lemma DecodeWellFormed(colour: string)
    requires WellFormedHex(colour)
    ensures DecodeHex(colour) == Some(Rgb(HexPair(colour[1], colour[2]),
                                          HexPair(colour[3], colour[4]),
                                          HexPair(colour[5], colour[6])))
    ensures IsByte(DecodeHex(colour).value)
  {
    DecodePair(colour, 1);
    DecodePair(colour, 3);
    DecodePair(colour, 5);
  }

  lemma DecodePair(colour: string, offset: nat)
    requires WellFormedHex(colour) && 1 <= offset <= 5
    ensures HexChannel(colour, offset) == Some(HexPair(colour[offset], colour[offset + 1]))
  {
    var s := Slice(colour, offset, offset + 2);
    assert s == colour[offset..offset + 2];
    assert s[0] == colour[offset] && s[1] == colour[offset + 1];
    HexPairParses(s);
  }

  /** `int(start * (1 - y/h) + end * (y/h))` for one channel of row `y` of a
      gradient `h` rows tall, in exact arithmetic: the channel stays between
      the two end colours. */
  function GradientChannel(start: int, end: int, y: nat, h: nat): (c: int)
    requires y < h
    ensures Min(start, end) <= c <= Max(start, end)
  {
    var n := start * (h - y) + end * y;
    MulBounds(start, end, y, h);
    TruncDivBetween(n, h, Min(start, end), Max(start, end));
    TruncDiv(n, h)
  }

  function Min(a: int, b: int): int { if a <= b then a else b }
  function Max(a: int, b: int): int { if a <= b then b else a }

  lemma MulBounds(start: int, end: int, y: nat, h: nat)
    requires y < h
    ensures Min(start, end) * h <= start * (h - y) + end * y <= Max(start, end) * h
  {
    var lo, hi := Min(start, end), Max(start, end);
    MulMono(lo, start, h - y);
    MulMono(lo, end, y);
    MulMono(start, hi, h - y);
    MulMono(end, hi, y);
    SplitProduct(lo, y, h);
    SplitProduct(hi, y, h);
  }

  lemma SplitProduct(a: int, y: int, h: int)
    ensures a * (h - y) + a * y == a * h
  {
  }

  lemma MulMono(a: int, b: int, k: nat)
    requires a <= b
    ensures a * k <= b * k
  {
    assert b * k - a * k == (b - a) * k;
  }

  /** Consecutive multiples of `h` are `h` apart. */
  lemma MulStep(p: int, q: int, h: nat)
    requires p < q
    ensures p * h + h <= q * h
  {
    MulMono(p + 1, q, h);
    assert (p + 1) * h == p * h + h;
  }

  lemma TruncDivBetween(n: int, h: int, lo: int, hi: int)
    requires h > 0 && lo * h <= n <= hi * h
    ensures lo <= TruncDiv(n, h) <= hi
  {
    var q := TruncDiv(n, h);
    if q > hi {
      MulStep(hi, q, h);
      assert false;
    }
    if q < lo {
      MulStep(q, lo, h);
      assert false;
    }
  }

  lemma TruncDivExact(n: int, h: int, q: int)
    requires h > 0 && 0 <= n && q * h <= n < q * h + h
    ensures TruncDiv(n, h) == q
  {
    var d := TruncDiv(n, h);
    if d > q {
      MulStep(q, d, h);
      assert false;
    }
    if d < q {
      MulStep(d, q, h);
      assert false;
    }
  }

  /** Row `y`'s colour: each channel interpolated separately. */
  function GradientRow(start: Rgb, end: Rgb, y: nat, h: nat): Rgb
    requires y < h
  {
    Rgb(GradientChannel(start.r, end.r, y, h),
        GradientChannel(start.g, end.g, y, h),
        GradientChannel(start.b, end.b, y, h))
  }

  /** The gradient background: one colour per row, drawn as a line across
      the full width, for rows `0 .. h-1`. */
  function GradientRows(start: Rgb, end: Rgb, h: nat): (rows: seq<Rgb>)
    ensures |rows| == h
    ensures forall y :: 0 <= y < h ==> rows[y] == GradientRow(start, end, y, h)
  {
    seq(h, (y: int) requires 0 <= y < h => GradientRow(start, end, y, h))
  }

  /** The top row is the start colour exactly, and every row lies
      channel-wise between the start and the end colour. */
  lemma GradientBounds(start: Rgb, end: Rgb, h: nat)
    requires h > 0
    ensures GradientRows(start, end, h)[0] == start
    ensures forall y :: 0 <= y < h ==>
      var c := GradientRows(start, end, h)[y];
      && Min(start.r, end.r) <= c.r <= Max(start.r, end.r)
      && Min(start.g, end.g) <= c.g <= Max(start.g, end.g)
      && Min(start.b, end.b) <= c.b <= Max(start.b, end.b)
  {
    var rows := GradientRows(start, end, h);
    assert rows[0] == GradientRow(start, end, 0, h);
    FirstRowChannel(start.r, end.r, h);
    FirstRowChannel(start.g, end.g, h);
    FirstRowChannel(start.b, end.b, h);
  }

  lemma FirstRowChannel(start: int, end: int, h: nat)
    requires h > 0
    ensures GradientChannel(start, end, 0, h) == start
  {
    assert start * (h - 0) + end * 0 == start * h;
    TruncDivBetween(start * h, h, start, start);
  }

  lemma TruncDivMonotone(a: int, b: int, h: int)
    requires h > 0 && a <= b
    ensures TruncDiv(a, h) <= TruncDiv(b, h)
  {
    var qa, qb := TruncDiv(a, h), TruncDiv(b, h);
    if a < 0 <= b {
    } else if qa > qb {
      MulStep(qb, qa, h);
      assert false;
    }
  }

  /** A channel that rises from start to end never decreases down the
      rows, and a falling one never increases. */
  lemma GradientChannelMonotone(start: int, end: int, y1: nat, y2: nat, h: nat)
    requires y1 <= y2 < h
    ensures start <= end ==> GradientChannel(start, end, y1, h) <= GradientChannel(start, end, y2, h)
    ensures end <= start ==> GradientChannel(start, end, y2, h) <= GradientChannel(start, end, y1, h)
  {
    var n1 := start * (h - y1) + end * y1;
    var n2 := start * (h - y2) + end * y2;
    Numerator(start, end, y1, h);
    Numerator(start, end, y2, h);
    MulLeftMono(end - start, y1, y2);
    if start <= end {
      TruncDivMonotone(n1, n2, h);
    }
    if end <= start {
      TruncDivMonotone(n2, n1, h);
    }
  }

  /** The interpolation numerator as the start colour plus a share of the
      difference. */
  lemma Numerator(start: int, end: int, y: int, h: int)
    ensures start * (h - y) + end * y == start * h + (end - start) * y
  {
  }

  lemma MulLeftMono(k: int, a: int, b: int)
    requires a <= b
    ensures k >= 0 ==> k * a <= k * b
    ensures k <= 0 ==> k * b <= k * a
  {
    assert k * b - k * a == k * (b - a);
  }

  /** For byte channels on a canvas taller than 255 rows, the bottom row is
      the end colour or one below it: the gradient approaches but need not
      reach the end colour. */
  lemma GradientLastRow(start: int, end: int, h: nat)
    requires 0 <= start <= 255 && 0 <= end <= 255 && h > 255
    ensures end - 1 <= GradientChannel(start, end, h - 1, h) <= end
  {
    var n := start * (h - (h - 1)) + end * (h - 1);
    LastNumerator(start, end, h);
    MulMono(0, end, h - 1);
    if start >= end {
      TruncDivExact(n, h, end);
    } else {
      TruncDivExact(n, h, end - 1);
    }
  }

  lemma LastNumerator(start: int, end: int, h: int)
    ensures start * (h - (h - 1)) + end * (h - 1) == start + end * (h - 1)
    ensures start + end * (h - 1) == end * h + (start - end)
    ensures (end - 1) * h == end * h - h
  {
  }

  /** Python's `range(start, stop, step)` for a positive step. */
  function PyRange(start: int, stop: int, step: int): (r: seq<int>)
    requires step > 0
    ensures forall i :: 0 <= i < |r| ==> start <= r[i] < stop
    ensures forall i, j :: 0 <= i < j < |r| ==> r[i] < r[j]
    decreases stop - start
  {
    if start >= stop then [] else [start] + PyRange(start + step, stop, step)
  }

  /** A value is in `range(start, stop, step)` exactly when it lies in
      `[start, stop)` a whole number of steps after `start`. */
  lemma {:induction false} PyRangeMembers(start: int, stop: int, step: int, x: int)
    requires step > 0
    ensures x in PyRange(start, stop, step) <==> start <= x < stop && (x - start) % step == 0
    decreases stop - start
  {
    if start < stop {
      var rest := PyRange(start + step, stop, step);
      assert PyRange(start, stop, step) == [start] + rest;
      PyRangeMembers(start + step, stop, step, x);
      FirstStep(start, step, x);
    }
  }

  /** Being `start` or a whole number of steps past `start + step` is being
      a whole number of steps past `start`. */
  lemma FirstStep(start: int, step: int, x: int)
    requires step > 0
    ensures (x == start || (start + step <= x && (x - (start + step)) % step == 0))
            <==> (start <= x && (x - start) % step == 0)
  {
    if x >= start + step {
      ModShift(x - (start + step), step);
    } else if x > start {
      ModSmall(x - start, step);
    }
  }

  lemma ModShift(d: int, step: int)
    requires step > 0
    ensures (d + step) % step == d % step
  {
    var q, r := d / step, d % step;
    assert d + step == (q + 1) * step + r;
    ModUnique(d + step, step, q + 1, r);
  }

  lemma ModUnique(n: int, step: int, q: int, r: int)
    requires step > 0 && 0 <= r < step && n == q * step + r
    ensures n % step == r
  {
    var q', r' := n / step, n % step;
    if q' > q {
      MulMono(q + 1, q', step);
    } else if q' < q {
      MulMono(q' + 1, q, step);
    }
  }

  lemma ModSmall(d: int, step: int)
    requires 0 < d < step
    ensures d % step != 0
  {
  }

  /** The neon grid spacing in pixels. */
  const GridSpacing := 50

  /** The vertical and horizontal grid lines of the neon background: one
      line at every multiple of the spacing below the canvas size. */
  datatype Grid = Grid(xs: seq<int>, ys: seq<int>)

  function NeonGrid(width: int, height: int): (g: Grid)
    ensures forall x :: x in g.xs <==> 0 <= x < width && x % GridSpacing == 0
    ensures forall y :: y in g.ys <==> 0 <= y < height && y % GridSpacing == 0
  {
    var g := Grid(PyRange(0, width, GridSpacing), PyRange(0, height, GridSpacing));
    forall x ensures x in g.xs <==> 0 <= x < width && x % GridSpacing == 0 {
      PyRangeMembers(0, width, GridSpacing, x);
    }
    forall y ensures y in g.ys <==> 0 <= y < height && y % GridSpacing == 0 {
      PyRangeMembers(0, height, GridSpacing, y);
    }
    g
  }
}

=== FILE: layout.dfy ===
/** The banner layout: a theme and a package's metadata become a background
    and a list of drawing commands. Text measurement is a parameter, and so
    is the presence of the logo file; the drawing library itself is not
    modelled, only the calls made to it. */
module Layout {
  import opened Results
  import opened Strings
  import opened Colour
  import opened Shapes
  import opened Wrap
  import opened Themes

  const ImgWidth := 1200
  const ImgHeight := 630
  const Padding := 80
  /** The horizontal room kept free for the logo when the logo file exists. */
  const LogoSpace := 140
  const LogoSize := 100

  /** The six fonts of the banner. */
  datatype Font = TitleFont | VersionFont | DescFont | BadgeFont | CmdFont | UrlFont

  /** What the renderer asks the fonts: the advance width of a text
      (`draw.textlength`) and the bottom edge of its bounding box
      (`font.getbbox(text)[3]`), both in whole pixels. */
  datatype Metrics = Metrics(width: Font -> string -> int, bottom: Font -> string -> int)

  /** The package fields the banner shows; an empty string is a field that
      is missing or empty, which the renderer skips alike. */
  datatype Package = Package(name: string, version: string, summary: string,
                             requiresPython: string, projectUrl: string)

  /** The logo file: absent; present and readable; or present but failing
      to open, in which case the error is reported and nothing is drawn. */
  datatype LogoFile = NoLogo | ReadableLogo | UnreadableLogo

  /** The four background styles, with the theme colours each painter is
      given: a vertical gradient between two colours (painted as
      `GradientRows` describes), a plain fill, the glassmorphism base with
      circles tinted in the accent colour, and the neon base with grid lines
      (at the `NeonGrid` coordinates) in the primary colour. */
  datatype Background =
    | Solid(colour: string)
    | Gradient(start: string, end: string)
    | Glass(base: string, tint: string)
    | Neon(base: string, line: string)

  /** One drawing call: a plain rectangle, a rounded rectangle (drawn as
      `RoundedRectParts` describes), a text at its top-left anchor, or the
      logo pasted as a square. */
  datatype Cmd =
    | Rect(box: Box, paint: Paint)
    | RoundedRect(box: Box, radius: int, paint: Paint)
    | Text(x: int, y: int, text: string, font: Font, colour: string)
    | Paste(x: int, y: int, size: int)

  /** The sections drawn down the left column, in order. */
  datatype BlockKind = TitleBlock | VersionBlock | SummaryBlock | PythonBlock | InstallBlock | UrlBlock

  /** A section: its kind, the cursor row where it starts, and its calls. */
  datatype Block = Block(kind: BlockKind, top: int, cmds: seq<Cmd>)

  /** The rendered banner: the background, the left-column sections, the
      logo calls and the accent bar drawn last across the top. */
  datatype Banner = Banner(background: Background, blocks: seq<Block>, logo: seq<Cmd>, accentBar: Cmd)

  /** The result of one section: the blocks it adds (none or one) and the
      cursor after it. */
  datatype Stage = Stage(blocks: seq<Block>, y: int)

  function Fill(colour: string): Paint {
    Paint(Some(colour), None)
  }

  // ---------------------------------------------------------------------
  // What the renderer looks up, in order, and the first failure.

  /** One step at which the renderer can fail: `theme[key]`, or decoding
      `theme[key]` as `#rrggbb`. */
  datatype Requirement = Has(key: string) | Decodes(key: string)

  predicate Met(theme: Theme, q: Requirement) {
    match q
    case Has(k) => k in theme.fields
    case Decodes(k) => k in theme.fields && DecodeHex(theme.fields[k]).Some?
  }

  /** The error an unmet requirement raises. */
  function Failure(theme: Theme, q: Requirement): BannerError {
    if q.key !in theme.fields then MissingKey(q.key) else BadColour(theme.fields[q.key])
  }

  /** The lookups the background of type `kind` makes. */
  function BackgroundRequirements(kind: string): seq<Requirement> {
    if IsGradientType(kind) then [Has("bg_start"), Has("bg_end"), Decodes("bg_start"), Decodes("bg_end")]
    else if kind == "glassmorphism" then [Has("bg"), Has("accent"), Decodes("accent")]
    else if kind == "neon" then [Has("bg"), Has("primary"), Decodes("primary")]
    else [Has("bg")]
  }

  function When(c: bool, qs: seq<Requirement>): seq<Requirement> {
    if c then qs else []
  }

  /** Every lookup after the theme's type, in the order the renderer makes
      them: the background's, the title colour, then one or two per section
      shown (the badge looks the accent up even when it uses the border),
      and the accent bar's. */
  function Requirements(pkg: Package, kind: string): seq<Requirement> {
    BackgroundRequirements(kind) + SectionRequirements(pkg, kind)
  }

  /** The lookups after the background's. */
  function SectionRequirements(pkg: Package, kind: string): seq<Requirement> {
    TextRequirements(pkg) + CardRequirements(pkg, kind)
  }

  /** The title's, the version pill's, the summary's and the badge's. */
  function TextRequirements(pkg: Package): seq<Requirement> {
    [Has("primary")]
    + When(pkg.version != "", [Has("accent")])
    + When(pkg.summary != "", [Has("secondary")])
    + When(pkg.requiresPython != "", [Has("accent")])
  }

  /** The install card's, the link's and the accent bar's. */
  function CardRequirements(pkg: Package, kind: string): seq<Requirement> {
    [Has("card")]
    + When(!IsGradientType(kind), [Has("border")])
    + When(pkg.projectUrl != "", [Has("secondary")])
    + [Has("accent")]
  }

  /** The failure of the first unmet requirement, if any. */
  function FirstFailure(theme: Theme, qs: seq<Requirement>): (r: Option<BannerError>)
    ensures r.None? <==> forall i :: 0 <= i < |qs| ==> Met(theme, qs[i])
  {
    if qs == [] then None
    else if !Met(theme, qs[0]) then Some(Failure(theme, qs[0]))
    else
      var r := FirstFailure(theme, qs[1..]);
      assert forall i :: 1 <= i < |qs| ==> qs[i] == qs[1..][i - 1];
      r
  }

  /** The first error the renderer raises on this theme and package, if
      any: the theme's type is looked up before anything else. */
  function FirstError(pkg: Package, theme: Theme): Option<BannerError> {
    if "type" !in theme.fields then Some(MissingKey("type"))
    else FirstFailure(theme, Requirements(pkg, theme.fields["type"]))
  }

  /** An error the renderer really raises on this theme: a key the theme
      lacks, or a colour of the theme that does not decode. */
  predicate Genuine(theme: Theme, e: BannerError) {
    match e
    case MissingKey(k) => k !in theme.fields
    case BadColour(c) => DecodeHex(c).None? && exists f :: f in theme.fields && theme.fields[f] == c
  }

  // ---------------------------------------------------------------------
  // The drawing, for a theme that has everything it needs.

  /** `theme[key]` for a key known to be present (the empty string
      otherwise, which a successful render never uses). */
  function Field(theme: Theme, key: string): string {
    if key in theme.fields then theme.fields[key] else ""
  }

  /** The background for a theme of type `kind`. */
  function BackgroundOf(theme: Theme, kind: string): Background {
    if IsGradientType(kind) then Gradient(Field(theme, "bg_start"), Field(theme, "bg_end"))
    else if kind == "glassmorphism" then Glass(Field(theme, "bg"), Field(theme, "accent"))
    else if kind == "neon" then Neon(Field(theme, "bg"), Field(theme, "primary"))
    else Solid(Field(theme, "bg"))
  }

  /** The width of the left column: the canvas less both paddings and, when
      the logo file exists (readable or not), the logo's room. */
  function ContentWidth(logo: LogoFile): int {
    ImgWidth - 2 * Padding - (if logo == NoLogo then 0 else LogoSpace)
  }

  /** The version pill: accent fill, radius 14, 28 high, 16 wider than
      the text; the cursor then moves 58 down. */
  function VersionStage(version: string, accent: string, y: int, m: Metrics): (st: Stage)
    ensures st.blocks == [] <==> version == ""
    ensures StageSteps(st, y, VersionBlock, m)
  {
    if version == "" then Stage([], y)
    else
      var text := "v" + version;
      var w := m.width(VersionFont)(text) + 16;
      Stage([Block(VersionBlock, y, [
        RoundedRect(Box(Padding, y, Padding + w, y + 28), 14, Fill(accent)),
        Text(Padding + 8, y + 4, text, VersionFont, "white")])], y + 58)
  }

  /** The summary wrapped to the column width, one text per line, each line
      moving the cursor down by its own height plus 6, and 25 more after
      the last. */
  function SummaryStage(summary: string, secondary: string, y: int, width: int, m: Metrics): (st: Stage)
    ensures st.blocks == [] <==> summary == ""
    ensures st.blocks != [] ==> TextsOf(st.blocks[0].cmds) == WrapText(summary, m.width(DescFont), width)
    ensures StageSteps(st, y, SummaryBlock, m)
  {
    if summary == "" then Stage([], y)
    else
      var lines := WrapText(summary, m.width(DescFont), width);
      SummaryBlockSteps(lines, secondary, y, m);
      Stage([Block(SummaryBlock, y, LineTexts(lines, secondary, y, m))], LinesEnd(lines, y, m) + 25)
  }

  /** The summary section draws exactly its lines, and moves the cursor by
      their height plus 25. */
  lemma {:induction false} SummaryBlockSteps(lines: seq<string>, secondary: string, y: int, m: Metrics)
    ensures var st := Stage([Block(SummaryBlock, y, LineTexts(lines, secondary, y, m))], LinesEnd(lines, y, m) + 25);
      TextsOf(st.blocks[0].cmds) == lines && StageSteps(st, y, SummaryBlock, m)
  {
  }

  /** How far one wrapped line moves the cursor: its bottom edge plus 6. */
  function LineAdvance(line: string, m: Metrics): int {
    m.bottom(DescFont)(line) + 6
  }

  /** How far a run of wrapped lines moves the cursor in all. */
  function LinesHeight(lines: seq<string>, m: Metrics): int {
    if lines == [] then 0 else LineAdvance(lines[0], m) + LinesHeight(lines[1..], m)
  }

  /** The strings a section's text calls draw, in order. */
  function TextsOf(cmds: seq<Cmd>): seq<string> {
    if cmds == [] then []
    else (if cmds[0].Text? then [cmds[0].text] else []) + TextsOf(cmds[1..])
  }

  /** The texts of wrapped lines starting at row `y`: line `i` in the
      description font at the left padding, on the row the lines before it
      have advanced the cursor to. */
  function LineTexts(lines: seq<string>, colour: string, y: int, m: Metrics): (texts: seq<Cmd>)
    ensures |texts| == |lines|
    ensures forall i :: 0 <= i < |lines| ==> texts[i].Text? && texts[i] == Text(Padding, texts[i].y, lines[i], DescFont, colour)
    ensures forall i :: 0 <= i < |lines| ==> texts[i].y == y + LinesHeight(lines[..i], m)
    ensures TextsOf(texts) == lines
  {
    if lines == [] then []
    else
      var rest := LineTexts(lines[1..], colour, y + LineAdvance(lines[0], m), m);
      LineTextsCons(lines, colour, y, m, rest);
      [Text(Padding, y, lines[0], DescFont, colour)] + rest
  }

  /** The first line goes at `y` in front of the texts of the others, which
      start one line advance further down. */
  lemma {:induction false} LineTextsCons(lines: seq<string>, colour: string, y: int, m: Metrics, rest: seq<Cmd>)
    requires lines != []
    requires |rest| == |lines| - 1
    requires forall i :: 0 <= i < |rest| ==> rest[i].Text? && rest[i] == Text(Padding, rest[i].y, lines[1..][i], DescFont, colour)
    requires forall i :: 0 <= i < |rest| ==> rest[i].y == y + LineAdvance(lines[0], m) + LinesHeight(lines[1..][..i], m)
    requires TextsOf(rest) == lines[1..]
    ensures var texts := [Text(Padding, y, lines[0], DescFont, colour)] + rest;
      && (forall i :: 0 <= i < |lines| ==> texts[i].Text? && texts[i] == Text(Padding, texts[i].y, lines[i], DescFont, colour))
      && (forall i :: 0 <= i < |lines| ==> texts[i].y == y + LinesHeight(lines[..i], m))
      && TextsOf(texts) == lines
  {
    var texts := [Text(Padding, y, lines[0], DescFont, colour)] + rest;
    LinesHeightPrefixes(lines, m);
    assert lines[..0] == [];
    assert texts[1..] == rest;
    assert lines == [lines[0]] + lines[1..];
    forall i | 0 < i < |lines| ensures texts[i] == rest[i - 1] {
    }
  }

  /** The height of the first `i` lines, for `i > 0`: the first line's
      advance plus the height of the next `i - 1`. */
  lemma {:induction false} LinesHeightPrefixes(lines: seq<string>, m: Metrics)
    requires lines != []
    ensures forall i :: 0 < i <= |lines| ==>
      LinesHeight(lines[..i], m) == LineAdvance(lines[0], m) + LinesHeight(lines[1..][..i - 1], m)
  {
    forall i | 0 < i <= |lines|
      ensures LinesHeight(lines[..i], m) == LineAdvance(lines[0], m) + LinesHeight(lines[1..][..i - 1], m)
    {
      assert lines[..i][1..] == lines[1..][..i - 1];
    }
  }

  /** The cursor after the lines starting at row `y`: `y` plus their
      height. */
  function LinesEnd(lines: seq<string>, y: int, m: Metrics): (r: int)
    ensures r == y + LinesHeight(lines, m)
  {
    if lines == [] then y
    else LinesEnd(lines[1..], y + LineAdvance(lines[0], m), m)
  }

  /** The Python-version badge's fill: the border colour when the theme has
      one, the accent colour otherwise. */
  function BadgeColour(theme: Theme): string {
    if "border" in theme.fields then theme.fields["border"] else Field(theme, "accent")
  }

  /** The Python-version badge: 24 high, radius 4, 12 wider than the text;
      the cursor then moves 59 down. */
  function PythonStage(requiresPython: string, badge: string, y: int, m: Metrics): (st: Stage)
    ensures st.blocks == [] <==> requiresPython == ""
    ensures StageSteps(st, y, PythonBlock, m)
  {
    if requiresPython == "" then Stage([], y)
    else
      var text := "Python " + requiresPython + "+";
      var w := m.width(BadgeFont)(text) + 12;
      Stage([Block(PythonBlock, y, [
        RoundedRect(Box(Padding, y, Padding + w, y + 24), 4, Fill(badge)),
        Text(Padding + 6, y + 3, text, BadgeFont, "white")])], y + 59)
  }

  /** The install card: a card-coloured rounded box across the column, 50
      high, outlined when an outline colour is given, with the `pip install`
      command inside; the cursor moves 80 down. */
  function InstallStage(name: string, card: string, outline: Option<string>, primary: string,
                        y: int, width: int): (st: Stage)
    ensures |st.blocks| == 1 && st.blocks[0].kind == InstallBlock && st.blocks[0].top == y
    ensures st.y == y + 80
  {
    var box := Box(Padding, y, Padding + width, y + 50);
    var border := if outline.Some? then [RoundedRect(box, 8, Paint(None, outline))] else [];
    Stage([Block(InstallBlock, y,
      [RoundedRect(box, 8, Fill(card))] + border
      + [Text(Padding + 20, y + 12, "$ pip install " + name, CmdFont, primary)])], y + 80)
  }

  /** The install card's outline: the border colour, except on gradient
      backgrounds. */
  function Outline(theme: Theme, kind: string): Option<string> {
    if IsGradientType(kind) then None else Some(Field(theme, "border"))
  }

  /** The project link with every `https://` and then every `http://`
      removed. */
  function CleanUrl(url: string): (r: string)
    ensures |r| <= |url|
    ensures (forall i :: 0 <= i < |url| ==> url[i] != 'h') ==> r == url
  {
    var r := ReplaceAll(ReplaceAll(url, "https://", ""), "http://", "");
    if forall i :: 0 <= i < |url| ==> url[i] != 'h' then
      ReplaceAfterPlain(url, "", "https://", "");
      ReplaceAfterPlain(url, "", "http://", "");
      assert url + "" == url;
      r
    else r
  }

  /** The project link, drawn at the cursor without moving it. */
  function UrlStage(url: string, secondary: string, y: int): (st: Stage)
    ensures st.blocks == [] <==> url == ""
    ensures |st.blocks| <= 1 && st.y == y
    ensures st.blocks != [] ==> st.blocks[0].kind == UrlBlock && st.blocks[0].top == y
  {
    if url == "" then Stage([], y)
    else Stage([Block(UrlBlock, y, [Text(Padding, y, CleanUrl(url), UrlFont, secondary)])], y)
  }

  /** The logo on a card-coloured rounded square in the top-right corner.
      Any failure inside (an unreadable file, even a missing card colour) is
      reported and leaves the banner without a logo. */
  function LogoCmds(theme: Theme, logo: LogoFile): seq<Cmd> {
    var x := ImgWidth - LogoSize - Padding;
    var y := Padding + 20;
    if logo == ReadableLogo && "card" in theme.fields then
      [ RoundedRect(Box(x - 15, y - 15, x + LogoSize + 15, y + LogoSize + 15), 8, Fill(theme.fields["card"])),
        Paste(x, y, LogoSize) ]
    else []
  }

  /** The title, at the top of the left column. */
  function TitleOf(pkg: Package, theme: Theme): Block {
    Block(TitleBlock, Padding + 20, [Text(Padding, Padding + 20, pkg.name, TitleFont, Field(theme, "primary"))])
  }

  /** The cursor below the title: its bottom edge plus 25. */
  function TitleEnd(pkg: Package, m: Metrics): int {
    Padding + 20 + m.bottom(TitleFont)(pkg.name) + 25
  }

  /** The left-column sections after the title, from the cursor `y`. */
  function Sections(pkg: Package, theme: Theme, width: int, y: int, m: Metrics): seq<Block> {
    var kind := Field(theme, "type");
    var v := VersionStage(pkg.version, Field(theme, "accent"), y, m);
    var sm := SummaryStage(pkg.summary, Field(theme, "secondary"), v.y, width, m);
    var p := PythonStage(pkg.requiresPython, BadgeColour(theme), sm.y, m);
    var ins := InstallStage(pkg.name, Field(theme, "card"), Outline(theme, kind), Field(theme, "primary"), p.y, width);
    var u := UrlStage(pkg.projectUrl, Field(theme, "secondary"), ins.y);
    v.blocks + sm.blocks + p.blocks + ins.blocks + u.blocks
  }

  /** The banner of a theme that has every field it needs. */
  function Render(pkg: Package, theme: Theme, logo: LogoFile, m: Metrics): Banner {
    Banner(BackgroundOf(theme, Field(theme, "type")),
           [TitleOf(pkg, theme)] + Sections(pkg, theme, ContentWidth(logo), TitleEnd(pkg, m), m),
           LogoCmds(theme, logo),
           Rect(Box(0, 0, ImgWidth, 4), Fill(Field(theme, "accent"))))
  }

  /** `generate_banner`: the first missing field or undecodable colour, in
      the order the renderer meets them, or the drawn banner. */
  function GenerateBanner(pkg: Package, theme: Theme, logo: LogoFile, m: Metrics): (r: Result<Banner, BannerError>)
    ensures r.Err? ==> Genuine(theme, r.error)
  {
    match FirstError(pkg, theme)
    case Some(e) =>
      GenuineFailure(pkg, theme);
      Err(e)
    case None => Ok(Render(pkg, theme, logo, m))
  }

  /** Every drawing call in the order made. */
  function Commands(b: Banner): seq<Cmd> {
    BlockCmds(b.blocks) + b.logo + [b.accentBar]
  }

  function BlockCmds(blocks: seq<Block>): seq<Cmd> {
    if blocks == [] then [] else blocks[0].cmds + BlockCmds(blocks[1..])
  }

  /** The error reported is one the theme really has. */
  lemma GenuineFailure(pkg: Package, theme: Theme)
    requires FirstError(pkg, theme).Some?
    ensures Genuine(theme, FirstError(pkg, theme).value)
  {
    if "type" in theme.fields {
      FailureGenuine(theme, Requirements(pkg, theme.fields["type"]));
    }
  }

  lemma {:induction false} FailureGenuine(theme: Theme, qs: seq<Requirement>)
    requires FirstFailure(theme, qs).Some?
    ensures Genuine(theme, FirstFailure(theme, qs).value)
  {
    if Met(theme, qs[0]) {
      FailureGenuine(theme, qs[1..]);
    } else if qs[0].key in theme.fields {
      var c := theme.fields[qs[0].key];
      assert theme.fields[qs[0].key] == c;
    }
  }

  // ---------------------------------------------------------------------
  // The cursor: sections follow one another down the left column.

  /** The row a call is placed at: a box's top edge, a text's anchor. */
  function Anchor(c: Cmd): int {
    match c
    case Rect(box, _) => box.y1
    case RoundedRect(box, _, _) => box.y1
    case Text(_, y, _, _, _) => y
    case Paste(_, y, _) => y
  }

  /** The lowest row a call is placed at: a box's bottom edge, a text's
      anchor, the pasted square's bottom edge. */
  function Lowest(c: Cmd): int {
    match c
    case Rect(box, _) => box.y2
    case RoundedRect(box, _, _) => box.y2
    case Text(_, y, _, _, _) => y
    case Paste(_, y, size) => y + size
  }

  /** A section placed between its cursor row and the cursor row `next`
      of the section that follows it. */
  predicate Within(b: Block, next: int) {
    b.top < next && forall c :: c in b.cmds ==> b.top <= Anchor(c) && Lowest(c) < next
  }

  /** Fonts whose glyphs never reach above their anchor. */
  ghost predicate NonNegativeBottoms(m: Metrics) {
    forall f, s :: m.bottom(f)(s) >= 0
  }

  /** Each section lies between its own cursor row and the next one's, the
      last before `end`. */
  predicate Flows(blocks: seq<Block>, end: int) {
    forall i :: 0 <= i < |blocks| ==> Within(blocks[i], NextTop(blocks, i, end))
  }

  /** Where the section after section `i` starts, or `end` after the last. */
  function NextTop(blocks: seq<Block>, i: nat, end: int): int {
    if i + 1 < |blocks| then blocks[i + 1].top else end
  }

  /** A stage that starts at the cursor `y`: it adds nothing and leaves the
      cursor, or adds one section of the given kind starting at `y` and
      placed before the new cursor. */
  predicate StageFlows(st: Stage, y: int, kind: BlockKind) {
    || (st.blocks == [] && st.y == y)
    || (|st.blocks| == 1 && st.blocks[0].kind == kind && st.blocks[0].top == y && Within(st.blocks[0], st.y))
  }

  lemma FlowsStage(blocks: seq<Block>, y: int, st: Stage, kind: BlockKind)
    requires Flows(blocks, y) && StageFlows(st, y, kind)
    ensures Flows(blocks + st.blocks, st.y)
  {
    var all := blocks + st.blocks;
    forall i | 0 <= i < |all|
      ensures Within(all[i], NextTop(all, i, st.y))
    {
      if i < |blocks| {
        assert all[i] == blocks[i];
        assert Within(blocks[i], NextTop(blocks, i, y));
        if i + 1 < |blocks| {
          assert all[i + 1] == blocks[i + 1];
        } else if st.blocks != [] {
          assert all[i + 1] == st.blocks[0];
        }
      } else {
        assert all[i] == st.blocks[0] && i + 1 == |all|;
      }
    }
  }

  /** The wrapped lines are placed from `y` on, each anchored above the
      cursor after them. */
  lemma {:induction false} LineTextsFlow(lines: seq<string>, colour: string, y: int, m: Metrics)
    requires NonNegativeBottoms(m)
    ensures y <= LinesEnd(lines, y, m)
    ensures forall c :: c in LineTexts(lines, colour, y, m) ==> y <= Anchor(c) && Lowest(c) < LinesEnd(lines, y, m) + 25
  {
    if lines != [] {
      var y' := y + LineAdvance(lines[0], m);
      var rest := LineTexts(lines[1..], colour, y', m);
      LineTextsFlow(lines[1..], colour, y', m);
      assert LineTexts(lines, colour, y, m) == [Text(Padding, y, lines[0], DescFont, colour)] + rest;
      assert LinesEnd(lines, y, m) == LinesEnd(lines[1..], y', m);
    }
  }

  lemma VersionFlows(version: string, accent: string, y: int, m: Metrics)
    ensures StageFlows(VersionStage(version, accent, y, m), y, VersionBlock)
  {
  }

  lemma SummaryFlows(summary: string, secondary: string, y: int, width: int, m: Metrics)
    requires NonNegativeBottoms(m)
    ensures StageFlows(SummaryStage(summary, secondary, y, width, m), y, SummaryBlock)
  {
    if summary != "" {
      LineTextsFlow(WrapText(summary, m.width(DescFont), width), secondary, y, m);
    }
  }

  lemma PythonFlows(requiresPython: string, badge: string, y: int, m: Metrics)
    ensures StageFlows(PythonStage(requiresPython, badge, y, m), y, PythonBlock)
  {
  }

  lemma InstallFlows(name: string, card: string, outline: Option<string>, primary: string, y: int, width: int)
    ensures StageFlows(InstallStage(name, card, outline, primary, y, width), y, InstallBlock)
  {
  }

  /** The column closes with the link, if any, anchored at the cursor the
      sections before it leave. */
  lemma FlowsFinish(pre: seq<Block>, end: int, url: seq<Block>)
    requires pre != [] && Flows(pre, end)
    requires url == [] || (|url| == 1 && url[0].top == end && forall c :: c in url[0].cmds ==> end <= Anchor(c))
    ensures var blocks := pre + url;
      && (forall i :: 0 <= i < |blocks| - 1 ==> Within(blocks[i], blocks[i + 1].top))
      && (forall i, c :: 0 <= i < |blocks| && c in blocks[i].cmds ==> blocks[i].top <= Anchor(c))
  {
    var blocks := pre + url;
    forall i | 0 <= i < |blocks| - 1 ensures Within(blocks[i], blocks[i + 1].top) {
      assert blocks[i] == pre[i];
      assert Within(pre[i], NextTop(pre, i, end));
      if i + 1 < |pre| {
        assert blocks[i + 1] == pre[i + 1];
      } else {
        assert blocks[i + 1] == url[0];
      }
    }
    forall i, c | 0 <= i < |blocks| && c in blocks[i].cmds ensures blocks[i].top <= Anchor(c) {
      if i < |pre| {
        assert blocks[i] == pre[i];
        assert Within(pre[i], NextTop(pre, i, end));
      }
    }
  }

  /** Stages chained from `y`, each starting at the cursor the previous
      leaves, appended after a column that flows down to `y`. */
  lemma ColumnFlow(head: seq<Block>, y: int, v: Stage, sm: Stage, p: Stage, ins: Stage, u: Stage)
    requires head != [] && Flows(head, y)
    requires StageFlows(v, y, VersionBlock) && StageFlows(sm, v.y, SummaryBlock)
    requires StageFlows(p, sm.y, PythonBlock) && StageFlows(ins, p.y, InstallBlock)
    requires u.blocks == [] || (|u.blocks| == 1 && u.blocks[0].top == ins.y && forall c :: c in u.blocks[0].cmds ==> ins.y <= Anchor(c))
    ensures var blocks := head + v.blocks + sm.blocks + p.blocks + ins.blocks + u.blocks;
      && (forall i :: 0 <= i < |blocks| - 1 ==> Within(blocks[i], blocks[i + 1].top))
      && (forall i, c :: 0 <= i < |blocks| && c in blocks[i].cmds ==> blocks[i].top <= Anchor(c))
  {
    ColumnStages(head, y, v, sm, p, ins);
    FlowsFinish(head + v.blocks + sm.blocks + p.blocks + ins.blocks, ins.y, u.blocks);
  }

  lemma AppendFive<T>(h: seq<T>, a: seq<T>, b: seq<T>, c: seq<T>, d: seq<T>, e: seq<T>)
    ensures h + (a + b + c + d + e) == h + a + b + c + d + e
  {
  }

  lemma ColumnStages(head: seq<Block>, y: int, v: Stage, sm: Stage, p: Stage, ins: Stage)
    requires Flows(head, y)
    requires StageFlows(v, y, VersionBlock) && StageFlows(sm, v.y, SummaryBlock)
    requires StageFlows(p, sm.y, PythonBlock) && StageFlows(ins, p.y, InstallBlock)
    ensures Flows(head + v.blocks + sm.blocks + p.blocks + ins.blocks, ins.y)
  {
    FlowsStage(head, y, v, VersionBlock);
    FlowsStage(head + v.blocks, v.y, sm, SummaryBlock);
    FlowsStage(head + v.blocks + sm.blocks, sm.y, p, PythonBlock);
    FlowsStage(head + v.blocks + sm.blocks + p.blocks, p.y, ins, InstallBlock);
  }

  /** Sections appended after a column that flows down to `y` keep it
      flowing, the link anchored where the install card leaves the cursor. */
  lemma SectionsFlow(head: seq<Block>, pkg: Package, theme: Theme, width: int, y: int, m: Metrics)
    requires NonNegativeBottoms(m)
    requires head != [] && Flows(head, y)
    ensures var blocks := head + Sections(pkg, theme, width, y, m);
      && (forall i :: 0 <= i < |blocks| - 1 ==> Within(blocks[i], blocks[i + 1].top))
      && (forall i, c :: 0 <= i < |blocks| && c in blocks[i].cmds ==> blocks[i].top <= Anchor(c))
  {
    var kind := Field(theme, "type");
    var v := VersionStage(pkg.version, Field(theme, "accent"), y, m);
    var sm := SummaryStage(pkg.summary, Field(theme, "secondary"), v.y, width, m);
    var p := PythonStage(pkg.requiresPython, BadgeColour(theme), sm.y, m);
    var ins := InstallStage(pkg.name, Field(theme, "card"), Outline(theme, kind), Field(theme, "primary"), p.y, width);
    var u := UrlStage(pkg.projectUrl, Field(theme, "secondary"), ins.y);
    VersionFlows(pkg.version, Field(theme, "accent"), y, m);
    SummaryFlows(pkg.summary, Field(theme, "secondary"), v.y, width, m);
    PythonFlows(pkg.requiresPython, BadgeColour(theme), sm.y, m);
    InstallFlows(pkg.name, Field(theme, "card"), Outline(theme, kind), Field(theme, "primary"), p.y, width);
    ColumnFlow(head, y, v, sm, p, ins, u);
    AppendFive(head, v.blocks, sm.blocks, p.blocks, ins.blocks, u.blocks);
  }

  /** The cursor starts 100 rows down; every section lies below the row
      where it starts and above the row where the next one starts, which
      is further down. */
  lemma CursorFlow(pkg: Package, theme: Theme, logo: LogoFile, m: Metrics)
    requires NonNegativeBottoms(m)
    requires GenerateBanner(pkg, theme, logo, m).Ok?
    ensures var blocks := GenerateBanner(pkg, theme, logo, m).value.blocks;
      && blocks != [] && blocks[0].top == 100
      && (forall i :: 0 <= i < |blocks| - 1 ==> Within(blocks[i], blocks[i + 1].top))
      && (forall i, c :: 0 <= i < |blocks| && c in blocks[i].cmds ==> blocks[i].top <= Anchor(c))
  {
    var y := RenderedBlocks(pkg, theme, logo, m);
    ColumnFrom(pkg, theme, ContentWidth(logo), y, m);
  }

  /** The title followed by the sections below it flows down the column. */
  lemma ColumnFrom(pkg: Package, theme: Theme, width: int, y: int, m: Metrics)
    requires NonNegativeBottoms(m)
    requires y > 100
    ensures var blocks := [TitleOf(pkg, theme)] + Sections(pkg, theme, width, y, m);
      && blocks != [] && blocks[0].top == 100
      && (forall i :: 0 <= i < |blocks| - 1 ==> Within(blocks[i], blocks[i + 1].top))
      && (forall i, c :: 0 <= i < |blocks| && c in blocks[i].cmds ==> blocks[i].top <= Anchor(c))
  {
    var title := TitleOf(pkg, theme);
    assert Flows([title], y);
    SectionsFlow([title], pkg, theme, width, y, m);
  }

  // ---------------------------------------------------------------------
  // How far each section moves the cursor.

  /** How far a section moves the cursor: the title by its bottom edge plus
      25, the version pill by its height 28 plus 30, the summary by the
      height of its lines plus 25, the Python badge by its height 24 plus
      35, the install card by its height 50 plus 30, the link not at all. */
  function Advance(b: Block, m: Metrics): int {
    match b.kind
    case TitleBlock => (if b.cmds != [] && b.cmds[0].Text? then m.bottom(TitleFont)(b.cmds[0].text) else 0) + 25
    case VersionBlock => 28 + 30
    case SummaryBlock => LinesHeight(TextsOf(b.cmds), m) + 25
    case PythonBlock => 24 + 35
    case InstallBlock => 50 + 30
    case UrlBlock => 0
  }

  /** A stage that starts at the cursor `y` adds nothing and leaves the
      cursor, or adds one section of the given kind at `y` and moves the
      cursor down by that section's advance. */
  predicate StageSteps(st: Stage, y: int, kind: BlockKind, m: Metrics) {
    || (st.blocks == [] && st.y == y)
    || (|st.blocks| == 1 && st.blocks[0].kind == kind && st.blocks[0].top == y
        && st.y == y + Advance(st.blocks[0], m))
  }

  /** Every section starts where the one before it left the cursor, and the
      last leaves it at `end`. */
  predicate Stepped(blocks: seq<Block>, m: Metrics, end: int) {
    forall i :: 0 <= i < |blocks| ==> NextTop(blocks, i, end) == blocks[i].top + Advance(blocks[i], m)
  }

  lemma {:induction false} SteppedStage(blocks: seq<Block>, y: int, st: Stage, kind: BlockKind, m: Metrics)
    requires Stepped(blocks, m, y) && StageSteps(st, y, kind, m)
    ensures Stepped(blocks + st.blocks, m, st.y)
  {
    var all := blocks + st.blocks;
    forall i | 0 <= i < |all|
      ensures NextTop(all, i, st.y) == all[i].top + Advance(all[i], m)
    {
      if i < |blocks| {
        assert all[i] == blocks[i];
        assert NextTop(blocks, i, y) == blocks[i].top + Advance(blocks[i], m);
        if i + 1 < |blocks| {
          assert all[i + 1] == blocks[i + 1];
        } else if st.blocks != [] {
          assert all[i + 1] == st.blocks[0];
        }
      } else {
        assert all[i] == st.blocks[0] && i + 1 == |all|;
      }
    }
  }

  /** The sections after a column stepped down to `y` keep it stepped. */
  lemma {:induction false} SectionsSteps(head: seq<Block>, pkg: Package, theme: Theme, width: int, y: int, m: Metrics)
    requires Stepped(head, m, y)
    ensures var blocks := head + Sections(pkg, theme, width, y, m);
      forall i :: 0 <= i < |blocks| - 1 ==> blocks[i + 1].top == blocks[i].top + Advance(blocks[i], m)
  {
    var kind := Field(theme, "type");
    var v := VersionStage(pkg.version, Field(theme, "accent"), y, m);
    var sm := SummaryStage(pkg.summary, Field(theme, "secondary"), v.y, width, m);
    var p := PythonStage(pkg.requiresPython, BadgeColour(theme), sm.y, m);
    var ins := InstallStage(pkg.name, Field(theme, "card"), Outline(theme, kind), Field(theme, "primary"), p.y, width);
    var u := UrlStage(pkg.projectUrl, Field(theme, "secondary"), ins.y);
    SteppedStage(head, y, v, VersionBlock, m);
    SteppedStage(head + v.blocks, v.y, sm, SummaryBlock, m);
    SteppedStage(head + v.blocks + sm.blocks, sm.y, p, PythonBlock, m);
    SteppedStage(head + v.blocks + sm.blocks + p.blocks, p.y, ins, InstallBlock, m);
    SteppedStage(head + v.blocks + sm.blocks + p.blocks + ins.blocks, ins.y, u, UrlBlock, m);
    AppendFive(head, v.blocks, sm.blocks, p.blocks, ins.blocks, u.blocks);
    SteppedAdjacent(head + v.blocks + sm.blocks + p.blocks + ins.blocks + u.blocks, m, u.y);
  }

  lemma {:induction false} SteppedAdjacent(blocks: seq<Block>, m: Metrics, end: int)
    requires Stepped(blocks, m, end)
    ensures forall i :: 0 <= i < |blocks| - 1 ==> blocks[i + 1].top == blocks[i].top + Advance(blocks[i], m)
  {
    forall i | 0 <= i < |blocks| - 1 ensures blocks[i + 1].top == blocks[i].top + Advance(blocks[i], m) {
      assert NextTop(blocks, i, end) == blocks[i].top + Advance(blocks[i], m);
    }
  }

  /** The cursor starts at row 100 with the title, and every later section
      starts exactly where the one before it moved the cursor: below the
      title by its height plus 25, then 58 after the version pill, the
      summary's line heights (each line's bottom edge plus 6) plus 25,
      59 after the Python badge and 80 after the install card. */
  lemma {:induction false} CursorSteps(pkg: Package, theme: Theme, logo: LogoFile, m: Metrics)
    requires GenerateBanner(pkg, theme, logo, m).Ok?
    ensures var blocks := GenerateBanner(pkg, theme, logo, m).value.blocks;
      && blocks != [] && blocks[0].top == 100
      && (forall i :: 0 <= i < |blocks| - 1 ==> blocks[i + 1].top == blocks[i].top + Advance(blocks[i], m))
  {
    var y := RenderedBlocks(pkg, theme, logo, m);
    ColumnSteps(pkg, theme, ContentWidth(logo), m);
  }

  /** The title followed by the sections below it steps down the column. */
  lemma {:induction false} ColumnSteps(pkg: Package, theme: Theme, width: int, m: Metrics)
    ensures var blocks := [TitleOf(pkg, theme)] + Sections(pkg, theme, width, TitleEnd(pkg, m), m);
      forall i :: 0 <= i < |blocks| - 1 ==> blocks[i + 1].top == blocks[i].top + Advance(blocks[i], m)
  {
    var y := TitleEnd(pkg, m);
    var title := TitleOf(pkg, theme);
    assert Stepped([title], m, y) by {
      assert NextTop([title], 0, y) == y;
    }
    SectionsSteps([title], pkg, theme, width, y, m);
  }

  // ---------------------------------------------------------------------
  // Which sections are drawn, and how.

  /** The kinds of the sections, in order. */
  function Kinds(blocks: seq<Block>): seq<BlockKind> {
    if blocks == [] then [] else [blocks[0].kind] + Kinds(blocks[1..])
  }

  function Present(c: bool, k: BlockKind): seq<BlockKind> {
    if c then [k] else []
  }

  /** The sections a package gets: the title and the install card always,
      each other section exactly when its field is non-empty. */
  function ExpectedKinds(pkg: Package): seq<BlockKind> {
    [TitleBlock] + Present(pkg.version != "", VersionBlock) + Present(pkg.summary != "", SummaryBlock)
    + Present(pkg.requiresPython != "", PythonBlock) + [InstallBlock] + Present(pkg.projectUrl != "", UrlBlock)
  }

  lemma {:induction false} KindsAppend(a: seq<Block>, b: seq<Block>)
    ensures Kinds(a + b) == Kinds(a) + Kinds(b)
  {
    if a != [] {
      assert (a + b)[1..] == a[1..] + b;
      KindsAppend(a[1..], b);
    } else {
      assert a + b == b;
    }
  }

  /** Kinds of two runs of sections, each already known. */
  lemma KindsJoin(a: seq<Block>, b: seq<Block>, ka: seq<BlockKind>, kb: seq<BlockKind>)
    requires Kinds(a) == ka && Kinds(b) == kb
    ensures Kinds(a + b) == ka + kb
  {
    KindsAppend(a, b);
  }

  lemma ColumnKinds(pkg: Package, title: Block, v: seq<Block>, sm: seq<Block>, p: seq<Block>, ins: seq<Block>, u: seq<Block>)
    requires title.kind == TitleBlock
    requires Kinds(v) == Present(pkg.version != "", VersionBlock)
    requires Kinds(sm) == Present(pkg.summary != "", SummaryBlock)
    requires Kinds(p) == Present(pkg.requiresPython != "", PythonBlock)
    requires Kinds(ins) == [InstallBlock]
    requires Kinds(u) == Present(pkg.projectUrl != "", UrlBlock)
    ensures Kinds([title] + v + sm + p + ins + u) == ExpectedKinds(pkg)
  {
    var e1 := [TitleBlock] + Present(pkg.version != "", VersionBlock);
    var e2 := e1 + Present(pkg.summary != "", SummaryBlock);
    var e3 := e2 + Present(pkg.requiresPython != "", PythonBlock);
    var e4 := e3 + [InstallBlock];
    KindsJoin([title], v, [TitleBlock], Present(pkg.version != "", VersionBlock));
    KindsJoin([title] + v, sm, e1, Present(pkg.summary != "", SummaryBlock));
    KindsJoin([title] + v + sm, p, e2, Present(pkg.requiresPython != "", PythonBlock));
    KindsJoin([title] + v + sm + p, ins, e3, [InstallBlock]);
    KindsJoin([title] + v + sm + p + ins, u, e4, Present(pkg.projectUrl != "", UrlBlock));
  }

  /** A stage adds one section of kind `k` when `c` holds, none otherwise. */
  lemma StageKinds(st: Stage, c: bool, k: BlockKind)
    requires c ==> |st.blocks| == 1 && st.blocks[0].kind == k
    requires !c ==> st.blocks == []
    ensures Kinds(st.blocks) == Present(c, k)
  {
  }

  /** The kinds of stages that each add their section exactly when their
      field is set. */
  lemma StagesKinds(pkg: Package, title: Block, v: Stage, sm: Stage, p: Stage, ins: Stage, u: Stage)
    requires title.kind == TitleBlock
    requires pkg.version != "" ==> |v.blocks| == 1 && v.blocks[0].kind == VersionBlock
    requires pkg.version == "" ==> v.blocks == []
    requires pkg.summary != "" ==> |sm.blocks| == 1 && sm.blocks[0].kind == SummaryBlock
    requires pkg.summary == "" ==> sm.blocks == []
    requires pkg.requiresPython != "" ==> |p.blocks| == 1 && p.blocks[0].kind == PythonBlock
    requires pkg.requiresPython == "" ==> p.blocks == []
    requires |ins.blocks| == 1 && ins.blocks[0].kind == InstallBlock
    requires pkg.projectUrl != "" ==> |u.blocks| == 1 && u.blocks[0].kind == UrlBlock
    requires pkg.projectUrl == "" ==> u.blocks == []
    ensures Kinds([title] + (v.blocks + sm.blocks + p.blocks + ins.blocks + u.blocks)) == ExpectedKinds(pkg)
  {
    StageKinds(v, pkg.version != "", VersionBlock);
    StageKinds(sm, pkg.summary != "", SummaryBlock);
    StageKinds(p, pkg.requiresPython != "", PythonBlock);
    StageKinds(ins, true, InstallBlock);
    StageKinds(u, pkg.projectUrl != "", UrlBlock);
    ColumnKinds(pkg, title, v.blocks, sm.blocks, p.blocks, ins.blocks, u.blocks);
    AppendFive([title], v.blocks, sm.blocks, p.blocks, ins.blocks, u.blocks);
  }

  lemma SectionsKinds(pkg: Package, theme: Theme, width: int, y: int, m: Metrics)
    ensures Kinds([TitleOf(pkg, theme)] + Sections(pkg, theme, width, y, m)) == ExpectedKinds(pkg)
  {
    var kind := Field(theme, "type");
    var v := VersionStage(pkg.version, Field(theme, "accent"), y, m);
    var sm := SummaryStage(pkg.summary, Field(theme, "secondary"), v.y, width, m);
    var p := PythonStage(pkg.requiresPython, BadgeColour(theme), sm.y, m);
    var ins := InstallStage(pkg.name, Field(theme, "card"), Outline(theme, kind), Field(theme, "primary"), p.y, width);
    var u := UrlStage(pkg.projectUrl, Field(theme, "secondary"), ins.y);
    StagesKinds(pkg, TitleOf(pkg, theme), v, sm, p, ins, u);
  }

  /** The sections drawn are, in order, the title, the version pill if
      there is a version, the summary if there is one, the Python badge if
      there is a requirement, the install card, and the link if there is
      one. */
  lemma SectionsPresent(pkg: Package, theme: Theme, logo: LogoFile, m: Metrics)
    requires GenerateBanner(pkg, theme, logo, m).Ok?
    ensures Kinds(GenerateBanner(pkg, theme, logo, m).value.blocks) == ExpectedKinds(pkg)
  {
    var y := RenderedBlocks(pkg, theme, logo, m);
    SectionsKinds(pkg, theme, ContentWidth(logo), y, m);
  }

  /** A successful banner's sections: the title, then the sections from
      the cursor row `y` just below it. */
  lemma RenderedBlocks(pkg: Package, theme: Theme, logo: LogoFile, m: Metrics) returns (y: int)
    requires GenerateBanner(pkg, theme, logo, m).Ok?
    ensures y == 100 + m.bottom(TitleFont)(pkg.name) + 25
    ensures GenerateBanner(pkg, theme, logo, m).value.blocks
         == [TitleOf(pkg, theme)] + Sections(pkg, theme, ContentWidth(logo), y, m)
  {
    y := TitleEnd(pkg, m);
  }

  // ---------------------------------------------------------------------
  // When a banner is drawn at all.

  /** The fields a theme needs for this package, stated directly: its type;
      the background's fields, with the colours that are decoded being
      `#rrggbb`; the title, card and accent colours; the secondary colour
      when there is a summary or a link; the border when the background is
      not a gradient. */
  predicate Renders(pkg: Package, theme: Theme) {
    var f := theme.fields;
    && "type" in f
    && (IsGradientType(f["type"]) ==>
          && "bg_start" in f && DecodeHex(f["bg_start"]).Some?
          && "bg_end" in f && DecodeHex(f["bg_end"]).Some?)
    && (f["type"] == "glassmorphism" ==> "bg" in f && "accent" in f && DecodeHex(f["accent"]).Some?)
    && (f["type"] == "neon" ==> "bg" in f && "primary" in f && DecodeHex(f["primary"]).Some?)
    && (!IsGradientType(f["type"]) ==> "bg" in f)
    && "primary" in f && "card" in f && "accent" in f
    && (pkg.summary != "" || pkg.projectUrl != "" ==> "secondary" in f)
    && (!IsGradientType(f["type"]) ==> "border" in f)
  }

  /** Every requirement in `qs` is met. */
  predicate AllMet(theme: Theme, qs: seq<Requirement>) {
    forall q :: q in qs ==> Met(theme, q)
  }

  lemma AllMetIndexed(theme: Theme, qs: seq<Requirement>)
    ensures AllMet(theme, qs) <==> forall i :: 0 <= i < |qs| ==> Met(theme, qs[i])
  {
  }

  lemma AllMetAppend(theme: Theme, a: seq<Requirement>, b: seq<Requirement>)
    ensures AllMet(theme, a + b) <==> AllMet(theme, a) && AllMet(theme, b)
  {
  }

  lemma AllMetWhen(theme: Theme, c: bool, q: Requirement)
    ensures AllMet(theme, When(c, [q])) <==> (c ==> Met(theme, q))
  {
    if c {
      assert q in When(c, [q]);
    }
  }

  /** The background's lookups succeed exactly when its fields are there
      and decode. */
  lemma BackgroundMet(theme: Theme)
    requires "type" in theme.fields
    ensures var f := theme.fields;
      AllMet(theme, BackgroundRequirements(f["type"])) <==>
        && (IsGradientType(f["type"]) ==>
              && "bg_start" in f && DecodeHex(f["bg_start"]).Some?
              && "bg_end" in f && DecodeHex(f["bg_end"]).Some?)
        && (f["type"] == "glassmorphism" ==> "bg" in f && "accent" in f && DecodeHex(f["accent"]).Some?)
        && (f["type"] == "neon" ==> "bg" in f && "primary" in f && DecodeHex(f["primary"]).Some?)
        && (!IsGradientType(f["type"]) ==> "bg" in f)
  {
    var kind := theme.fields["type"];
    if IsGradientType(kind) {
      AllMetFour(theme, Has("bg_start"), Has("bg_end"), Decodes("bg_start"), Decodes("bg_end"));
    } else if kind == "glassmorphism" {
      AllMetThree(theme, Has("bg"), Has("accent"), Decodes("accent"));
    } else if kind == "neon" {
      AllMetThree(theme, Has("bg"), Has("primary"), Decodes("primary"));
    } else {
      assert Has("bg") in BackgroundRequirements(kind);
    }
  }

  lemma AllMetThree(theme: Theme, a: Requirement, b: Requirement, c: Requirement)
    ensures AllMet(theme, [a, b, c]) <==> Met(theme, a) && Met(theme, b) && Met(theme, c)
  {
    assert a in [a, b, c] && b in [a, b, c] && c in [a, b, c];
  }

  lemma AllMetFour(theme: Theme, a: Requirement, b: Requirement, c: Requirement, d: Requirement)
    ensures AllMet(theme, [a, b, c, d]) <==> Met(theme, a) && Met(theme, b) && Met(theme, c) && Met(theme, d)
  {
    assert a in [a, b, c, d] && b in [a, b, c, d] && c in [a, b, c, d] && d in [a, b, c, d];
  }

  /** The sections' lookups succeed exactly when the colours they use are
      there. */
  lemma SectionsMet(pkg: Package, theme: Theme)
    requires "type" in theme.fields
    ensures var f := theme.fields;
      AllMet(theme, SectionRequirements(pkg, f["type"])) <==>
        && "primary" in f && "card" in f && "accent" in f
        && (pkg.summary != "" || pkg.projectUrl != "" ==> "secondary" in f)
        && (!IsGradientType(f["type"]) ==> "border" in f)
  {
    TextMet(pkg, theme);
    CardMet(pkg, theme, theme.fields["type"]);
    AllMetAppend(theme, TextRequirements(pkg), CardRequirements(pkg, theme.fields["type"]));
  }

  lemma TextMet(pkg: Package, theme: Theme)
    ensures var f := theme.fields;
      AllMet(theme, TextRequirements(pkg)) <==>
        && "primary" in f
        && (pkg.version != "" ==> "accent" in f)
        && (pkg.summary != "" ==> "secondary" in f)
        && (pkg.requiresPython != "" ==> "accent" in f)
  {
    var r1 := [Has("primary")] + When(pkg.version != "", [Has("accent")]);
    var r2 := r1 + When(pkg.summary != "", [Has("secondary")]);
    assert Has("primary") in [Has("primary")];
    AllMetWhen(theme, pkg.version != "", Has("accent"));
    AllMetWhen(theme, pkg.summary != "", Has("secondary"));
    AllMetWhen(theme, pkg.requiresPython != "", Has("accent"));
    AllMetAppend(theme, [Has("primary")], When(pkg.version != "", [Has("accent")]));
    AllMetAppend(theme, r1, When(pkg.summary != "", [Has("secondary")]));
    AllMetAppend(theme, r2, When(pkg.requiresPython != "", [Has("accent")]));
  }

  lemma CardMet(pkg: Package, theme: Theme, kind: string)
    ensures var f := theme.fields;
      AllMet(theme, CardRequirements(pkg, kind)) <==>
        && "card" in f && "accent" in f
        && (!IsGradientType(kind) ==> "border" in f)
        && (pkg.projectUrl != "" ==> "secondary" in f)
  {
    var r1 := [Has("card")] + When(!IsGradientType(kind), [Has("border")]);
    var r2 := r1 + When(pkg.projectUrl != "", [Has("secondary")]);
    assert Has("card") in [Has("card")] && Has("accent") in [Has("accent")];
    AllMetWhen(theme, !IsGradientType(kind), Has("border"));
    AllMetWhen(theme, pkg.projectUrl != "", Has("secondary"));
    AllMetAppend(theme, [Has("card")], When(!IsGradientType(kind), [Has("border")]));
    AllMetAppend(theme, r1, When(pkg.projectUrl != "", [Has("secondary")]));
    AllMetAppend(theme, r2, [Has("accent")]);
  }

  /** A banner is drawn exactly when the theme has every field this package
      needs. */
  lemma GeneratesIffRenders(pkg: Package, theme: Theme, logo: LogoFile, m: Metrics)
    ensures GenerateBanner(pkg, theme, logo, m).Ok? <==> Renders(pkg, theme)
  {
    if "type" in theme.fields {
      var kind := theme.fields["type"];
      AllMetIndexed(theme, Requirements(pkg, kind));
      BackgroundMet(theme);
      SectionsMet(pkg, theme);
      assert AllMet(theme, Requirements(pkg, kind))
        <==> AllMet(theme, BackgroundRequirements(kind)) && AllMet(theme, SectionRequirements(pkg, kind));
    }
  }

  /** A renderable theme (every colour `#` and six hex digits) draws a
      banner for every package. */
  lemma RenderableRenders(pkg: Package, theme: Theme)
    requires RenderableTheme(theme)
    ensures Renders(pkg, theme)
  {
    var f := theme.fields;
    assert "primary" in ColourFields && "accent" in ColourFields;
    assert "card" in ColourFields && "secondary" in ColourFields && "border" in ColourFields;
    if IsGradientType(f["type"]) {
      DecodeWellFormed(f["bg_start"]);
      DecodeWellFormed(f["bg_end"]);
    }
    DecodeWellFormed(f["accent"]);
    DecodeWellFormed(f["primary"]);
  }

  /** Every theme of the catalog draws a banner for every package. */
  lemma CatalogRenders(k: string, pkg: Package, logo: LogoFile, m: Metrics)
    requires k in AllThemes
    ensures GenerateBanner(pkg, AllThemes[k], logo, m).Ok?
  {
    CatalogRenderable(k);
    RenderableRenders(pkg, AllThemes[k]);
    GeneratesIffRenders(pkg, AllThemes[k], logo, m);
  }

  // ---------------------------------------------------------------------
  // What each section draws.

  /** The colours a successful banner draws with are all in its theme. */
  lemma HasColours(pkg: Package, theme: Theme, logo: LogoFile, m: Metrics)
    requires GenerateBanner(pkg, theme, logo, m).Ok?
    ensures var f := theme.fields;
      && "type" in f && "primary" in f && "card" in f && "accent" in f
      && (pkg.summary != "" || pkg.projectUrl != "" ==> "secondary" in f)
      && (!IsGradientType(f["type"]) ==> "border" in f)
  {
    GeneratesIffRenders(pkg, theme, logo, m);
  }

  lemma {:induction false} HasAccent(pkg: Package, theme: Theme, logo: LogoFile, m: Metrics)
    requires GenerateBanner(pkg, theme, logo, m).Ok?
    ensures "accent" in theme.fields
  {
    HasColours(pkg, theme, logo, m);
  }

  /** The package name comes first, at the top of the column, in the
      primary colour. */
  lemma TitleFirst(pkg: Package, theme: Theme, logo: LogoFile, m: Metrics)
    requires GenerateBanner(pkg, theme, logo, m).Ok?
    ensures "primary" in theme.fields
    ensures var blocks := GenerateBanner(pkg, theme, logo, m).value.blocks;
      && blocks != [] && blocks[0].kind == TitleBlock && blocks[0].top == 100
      && blocks[0].cmds == [Text(80, 100, pkg.name, TitleFont, theme.fields["primary"])]
  {
    HasColours(pkg, theme, logo, m);
    var y := RenderedBlocks(pkg, theme, logo, m);
  }

  /** The stages of the column after the title, each adding only
      sections of its own kind. */
  predicate OnlyKind(st: Stage, k: BlockKind) {
    forall b :: b in st.blocks ==> b.kind == k
  }

  /** A section of the column after the title comes from the stage of its
      kind. */
  lemma LocateSection(v: Stage, sm: Stage, p: Stage, ins: Stage, u: Stage, b: Block)
    requires OnlyKind(v, VersionBlock) && OnlyKind(sm, SummaryBlock) && OnlyKind(p, PythonBlock)
    requires OnlyKind(ins, InstallBlock) && OnlyKind(u, UrlBlock)
    requires b in v.blocks + sm.blocks + p.blocks + ins.blocks + u.blocks
    ensures b.kind == VersionBlock ==> b in v.blocks
    ensures b.kind == SummaryBlock ==> b in sm.blocks
    ensures b.kind == PythonBlock ==> b in p.blocks
    ensures b.kind == InstallBlock ==> b in ins.blocks
    ensures b.kind == UrlBlock ==> b in u.blocks
  {
  }

  /** The stages of `Sections`, and the kind of section each adds. */
  lemma SectionStages(pkg: Package, theme: Theme, width: int, y: int, m: Metrics)
    returns (v: Stage, sm: Stage, p: Stage, ins: Stage, u: Stage)
    ensures v == VersionStage(pkg.version, Field(theme, "accent"), y, m)
    ensures sm == SummaryStage(pkg.summary, Field(theme, "secondary"), v.y, width, m)
    ensures p == PythonStage(pkg.requiresPython, BadgeColour(theme), sm.y, m)
    ensures ins == InstallStage(pkg.name, Field(theme, "card"), Outline(theme, Field(theme, "type")), Field(theme, "primary"), p.y, width)
    ensures u == UrlStage(pkg.projectUrl, Field(theme, "secondary"), ins.y)
    ensures Sections(pkg, theme, width, y, m) == v.blocks + sm.blocks + p.blocks + ins.blocks + u.blocks
    ensures OnlyKind(v, VersionBlock) && OnlyKind(sm, SummaryBlock) && OnlyKind(p, PythonBlock)
    ensures OnlyKind(ins, InstallBlock) && OnlyKind(u, UrlBlock)
  {
    v := VersionStage(pkg.version, Field(theme, "accent"), y, m);
    sm := SummaryStage(pkg.summary, Field(theme, "secondary"), v.y, width, m);
    p := PythonStage(pkg.requiresPython, BadgeColour(theme), sm.y, m);
    ins := InstallStage(pkg.name, Field(theme, "card"), Outline(theme, Field(theme, "type")), Field(theme, "primary"), p.y, width);
    u := UrlStage(pkg.projectUrl, Field(theme, "secondary"), ins.y);
  }

  /** The version section of a successful banner comes from the version
      stage at the cursor below the title. */
  lemma VersionBlocks(pkg: Package, theme: Theme, logo: LogoFile, m: Metrics)
    requires GenerateBanner(pkg, theme, logo, m).Ok?
    ensures forall b :: b in GenerateBanner(pkg, theme, logo, m).value.blocks && b.kind == VersionBlock ==>
      b in VersionStage(pkg.version, Field(theme, "accent"), TitleEnd(pkg, m), m).blocks
  {
    var y := RenderedBlocks(pkg, theme, logo, m);
    var v, sm, p, ins, u := SectionStages(pkg, theme, ContentWidth(logo), y, m);
    forall b | b in GenerateBanner(pkg, theme, logo, m).value.blocks && b.kind == VersionBlock
      ensures b in v.blocks
    {
      LocateSection(v, sm, p, ins, u, b);
    }
  }

  lemma VersionBlockAt(pkg: Package, theme: Theme, logo: LogoFile, m: Metrics, b: Block)
    requires GenerateBanner(pkg, theme, logo, m).Ok?
    requires b in GenerateBanner(pkg, theme, logo, m).value.blocks && b.kind == VersionBlock
    ensures VersionStage(pkg.version, Field(theme, "accent"), TitleEnd(pkg, m), m).blocks == [b]
  {
    VersionBlocks(pkg, theme, logo, m);
  }

  lemma VersionFromStage(version: string, accent: string, y: int, m: Metrics, b: Block)
    requires VersionStage(version, accent, y, m).blocks == [b]
    ensures version != ""
    ensures |b.cmds| == 2
    ensures b.cmds[0] == RoundedRect(Box(80, b.top, 80 + m.width(VersionFont)("v" + version) + 16, b.top + 28), 14, Fill(accent))
    ensures b.cmds[1] == Text(88, b.top + 4, "v" + version, VersionFont, "white")
  {
  }

  /** The version pill is an accent-coloured rounded box, 16 wider than
      `v<version>` and 28 high, with that text in white inside. */
  lemma VersionPill(pkg: Package, theme: Theme, logo: LogoFile, m: Metrics, b: Block)
    requires GenerateBanner(pkg, theme, logo, m).Ok?
    requires b in GenerateBanner(pkg, theme, logo, m).value.blocks && b.kind == VersionBlock
    ensures "accent" in theme.fields
    ensures pkg.version != ""
    ensures |b.cmds| == 2
    ensures b.cmds[0] == RoundedRect(Box(80, b.top, 80 + m.width(VersionFont)("v" + pkg.version) + 16, b.top + 28), 14,
                                     Fill(theme.fields["accent"]))
    ensures b.cmds[1] == Text(88, b.top + 4, "v" + pkg.version, VersionFont, "white")
  {
    HasAccent(pkg, theme, logo, m);
    VersionBlockAt(pkg, theme, logo, m, b);
    VersionFromStage(pkg.version, Field(theme, "accent"), TitleEnd(pkg, m), m, b);
  }

  lemma SummaryShape(summary: string, secondary: string, y: int, width: int, m: Metrics)
    ensures forall b :: b in SummaryStage(summary, secondary, y, width, m).blocks ==>
      var lines := WrapText(summary, m.width(DescFont), width);
      && summary != ""
      && |b.cmds| == |lines|
      && forall i :: 0 <= i < |lines| ==>
           && b.cmds[i].Text? && b.cmds[i].x == 80 && b.cmds[i].text == lines[i]
           && b.cmds[i].font == DescFont && b.cmds[i].colour == secondary
  {
  }

  /** The summary section of a successful banner comes from the summary
      stage at some cursor row. */
  lemma SummaryBlocks(pkg: Package, theme: Theme, logo: LogoFile, m: Metrics) returns (y': int)
    requires GenerateBanner(pkg, theme, logo, m).Ok?
    ensures forall b :: b in GenerateBanner(pkg, theme, logo, m).value.blocks && b.kind == SummaryBlock ==>
      b in SummaryStage(pkg.summary, Field(theme, "secondary"), y', ContentWidth(logo), m).blocks
  {
    var y := RenderedBlocks(pkg, theme, logo, m);
    var v, sm, p, ins, u := SectionStages(pkg, theme, ContentWidth(logo), y, m);
    y' := v.y;
    forall b | b in GenerateBanner(pkg, theme, logo, m).value.blocks && b.kind == SummaryBlock
      ensures b in sm.blocks
    {
      LocateSection(v, sm, p, ins, u, b);
    }
  }

  /** The summary is drawn as the lines `WrapText` breaks it into for the
      column's width, at the left edge, in the secondary colour; a summary
      of whitespace only draws no line. */
  lemma SummaryLines(pkg: Package, theme: Theme, logo: LogoFile, m: Metrics)
    requires GenerateBanner(pkg, theme, logo, m).Ok?
    ensures pkg.summary != "" ==> "secondary" in theme.fields
    ensures forall b :: b in GenerateBanner(pkg, theme, logo, m).value.blocks && b.kind == SummaryBlock ==>
      var lines := WrapText(pkg.summary, m.width(DescFont), ContentWidth(logo));
      && pkg.summary != ""
      && (b.cmds == [] <==> AllSpace(pkg.summary))
      && |b.cmds| == |lines|
      && forall i :: 0 <= i < |lines| ==>
           && b.cmds[i].Text? && b.cmds[i].x == 80 && b.cmds[i].text == lines[i]
           && b.cmds[i].font == DescFont && b.cmds[i].colour == theme.fields["secondary"]
  {
    HasColours(pkg, theme, logo, m);
    var y' := SummaryBlocks(pkg, theme, logo, m);
    SummaryShape(pkg.summary, Field(theme, "secondary"), y', ContentWidth(logo), m);
  }

  /** The Python section of a successful banner comes from the Python
      stage at some cursor row. */
  lemma PythonBlocks(pkg: Package, theme: Theme, logo: LogoFile, m: Metrics) returns (y': int)
    requires GenerateBanner(pkg, theme, logo, m).Ok?
    ensures forall b :: b in GenerateBanner(pkg, theme, logo, m).value.blocks && b.kind == PythonBlock ==>
      b in PythonStage(pkg.requiresPython, BadgeColour(theme), y', m).blocks
  {
    var y := RenderedBlocks(pkg, theme, logo, m);
    var v, sm, p, ins, u := SectionStages(pkg, theme, ContentWidth(logo), y, m);
    y' := sm.y;
    forall b | b in GenerateBanner(pkg, theme, logo, m).value.blocks && b.kind == PythonBlock
      ensures b in p.blocks
    {
      LocateSection(v, sm, p, ins, u, b);
    }
  }

  /** The Python badge reads `Python <requirement>+` in white on a box 12
      wider than the text and 24 high, filled with the border colour when
      the theme has one and with the accent colour otherwise. */
  lemma PythonBadge(pkg: Package, theme: Theme, logo: LogoFile, m: Metrics, b: Block)
    requires GenerateBanner(pkg, theme, logo, m).Ok?
    requires b in GenerateBanner(pkg, theme, logo, m).value.blocks && b.kind == PythonBlock
    ensures "accent" in theme.fields
    ensures pkg.requiresPython != ""
    ensures |b.cmds| == 2
    ensures b.cmds[0] == RoundedRect(Box(80, b.top, 80 + m.width(BadgeFont)("Python " + pkg.requiresPython + "+") + 12, b.top + 24), 4,
                                     Fill(if "border" in theme.fields then theme.fields["border"] else theme.fields["accent"]))
    ensures b.cmds[1] == Text(86, b.top + 3, "Python " + pkg.requiresPython + "+", BadgeFont, "white")
  {
    var y' := PythonBlockAt(pkg, theme, logo, m, b);
    PythonBadgeOf(pkg.requiresPython, theme, y', m, b);
  }

  lemma {:induction false} PythonBadgeOf(requiresPython: string, theme: Theme, y: int, m: Metrics, b: Block)
    requires PythonStage(requiresPython, BadgeColour(theme), y, m).blocks == [b]
    requires "accent" in theme.fields
    ensures requiresPython != ""
    ensures |b.cmds| == 2
    ensures b.cmds[0] == RoundedRect(Box(80, b.top, 80 + m.width(BadgeFont)("Python " + requiresPython + "+") + 12, b.top + 24), 4,
                                     Fill(if "border" in theme.fields then theme.fields["border"] else theme.fields["accent"]))
    ensures b.cmds[1] == Text(86, b.top + 3, "Python " + requiresPython + "+", BadgeFont, "white")
  {
    PythonFromStage(requiresPython, BadgeColour(theme), y, m, b);
  }

  lemma PythonFromStage(requiresPython: string, badge: string, y: int, m: Metrics, b: Block)
    requires PythonStage(requiresPython, badge, y, m).blocks == [b]
    ensures requiresPython != ""
    ensures |b.cmds| == 2
    ensures b.cmds[0] == RoundedRect(Box(80, b.top, 80 + m.width(BadgeFont)("Python " + requiresPython + "+") + 12, b.top + 24), 4, Fill(badge))
    ensures b.cmds[1] == Text(86, b.top + 3, "Python " + requiresPython + "+", BadgeFont, "white")
  {
  }

  lemma {:induction false} PythonBlockAt(pkg: Package, theme: Theme, logo: LogoFile, m: Metrics, b: Block) returns (y': int)
    requires GenerateBanner(pkg, theme, logo, m).Ok?
    requires b in GenerateBanner(pkg, theme, logo, m).value.blocks && b.kind == PythonBlock
    ensures PythonStage(pkg.requiresPython, BadgeColour(theme), y', m).blocks == [b]
    ensures "accent" in theme.fields
  {
    HasAccent(pkg, theme, logo, m);
    y' := PythonBlocks(pkg, theme, logo, m);
  }

  lemma InstallShape(name: string, card: string, outline: Option<string>, primary: string, y: int, width: int)
    ensures forall b :: b in InstallStage(name, card, outline, primary, y, width).blocks ==>
      var box := Box(80, b.top, 80 + width, b.top + 50);
      && |b.cmds| == (if outline.Some? then 3 else 2)
      && b.cmds[0] == RoundedRect(box, 8, Fill(card))
      && (outline.Some? ==> b.cmds[1] == RoundedRect(box, 8, Paint(None, outline)))
      && b.cmds[|b.cmds| - 1] == Text(100, b.top + 12, "$ pip install " + name, CmdFont, primary)
  {
  }

  /** The install section of a successful banner comes from the install
      stage at some cursor row. */
  lemma InstallBlocks(pkg: Package, theme: Theme, logo: LogoFile, m: Metrics) returns (y': int)
    requires GenerateBanner(pkg, theme, logo, m).Ok?
    ensures forall b :: b in GenerateBanner(pkg, theme, logo, m).value.blocks && b.kind == InstallBlock ==>
      b in InstallStage(pkg.name, Field(theme, "card"), Outline(theme, Field(theme, "type")),
                        Field(theme, "primary"), y', ContentWidth(logo)).blocks
  {
    var y := RenderedBlocks(pkg, theme, logo, m);
    var v, sm, p, ins, u := SectionStages(pkg, theme, ContentWidth(logo), y, m);
    y' := p.y;
    forall b | b in GenerateBanner(pkg, theme, logo, m).value.blocks && b.kind == InstallBlock
      ensures b in ins.blocks
    {
      LocateSection(v, sm, p, ins, u, b);
    }
  }

  /** The install card is a card-coloured rounded box across the column,
      1040 wide, or 900 when the logo file exists, and 50 high; it is
      outlined in the border colour unless the background is a gradient;
      the `pip install` command is written inside in the primary colour. */
  lemma InstallCard(pkg: Package, theme: Theme, logo: LogoFile, m: Metrics)
    requires GenerateBanner(pkg, theme, logo, m).Ok?
    ensures "type" in theme.fields && "card" in theme.fields && "primary" in theme.fields
    ensures !IsGradientType(theme.fields["type"]) ==> "border" in theme.fields
    ensures var f := theme.fields;
      forall b :: b in GenerateBanner(pkg, theme, logo, m).value.blocks && b.kind == InstallBlock ==>
        var box := Box(80, b.top, 80 + (if logo == NoLogo then 1040 else 900), b.top + 50);
        && |b.cmds| == (if IsGradientType(f["type"]) then 2 else 3)
        && b.cmds[0] == RoundedRect(box, 8, Paint(Some(f["card"]), None))
        && (|b.cmds| == 3 ==> b.cmds[1] == RoundedRect(box, 8, Paint(None, Some(f["border"]))))
        && b.cmds[|b.cmds| - 1] == Text(100, b.top + 12, "$ pip install " + pkg.name, CmdFont, f["primary"])
  {
    HasColours(pkg, theme, logo, m);
    var y' := InstallBlocks(pkg, theme, logo, m);
    InstallShape(pkg.name, Field(theme, "card"), Outline(theme, Field(theme, "type")),
                 Field(theme, "primary"), y', ContentWidth(logo));
  }

  lemma UrlShape(url: string, secondary: string, y: int)
    ensures forall b :: b in UrlStage(url, secondary, y).blocks ==>
      && url != ""
      && |b.cmds| == 1
      && b.cmds[0] == Text(80, b.top, CleanUrl(url), UrlFont, secondary)
  {
  }

  /** The link section of a successful banner comes from the link stage
      at some cursor row. */
  lemma UrlBlocks(pkg: Package, theme: Theme, logo: LogoFile, m: Metrics) returns (y': int)
    requires GenerateBanner(pkg, theme, logo, m).Ok?
    ensures forall b :: b in GenerateBanner(pkg, theme, logo, m).value.blocks && b.kind == UrlBlock ==>
      b in UrlStage(pkg.projectUrl, Field(theme, "secondary"), y').blocks
  {
    var y := RenderedBlocks(pkg, theme, logo, m);
    var v, sm, p, ins, u := SectionStages(pkg, theme, ContentWidth(logo), y, m);
    y' := ins.y;
    forall b | b in GenerateBanner(pkg, theme, logo, m).value.blocks && b.kind == UrlBlock
      ensures b in u.blocks
    {
      LocateSection(v, sm, p, ins, u, b);
    }
  }

  /** The link is written at the column's left edge, without its
      `https://` or `http://`, in the secondary colour. */
  lemma UrlLine(pkg: Package, theme: Theme, logo: LogoFile, m: Metrics)
    requires GenerateBanner(pkg, theme, logo, m).Ok?
    ensures pkg.projectUrl != "" ==> "secondary" in theme.fields
    ensures forall b :: b in GenerateBanner(pkg, theme, logo, m).value.blocks && b.kind == UrlBlock ==>
      && pkg.projectUrl != ""
      && |b.cmds| == 1
      && b.cmds[0] == Text(80, b.top, CleanUrl(pkg.projectUrl), UrlFont, theme.fields["secondary"])
  {
    HasColours(pkg, theme, logo, m);
    var y' := UrlBlocks(pkg, theme, logo, m);
    UrlShape(pkg.projectUrl, Field(theme, "secondary"), y');
  }

  /** A link with one leading scheme and no other loses the scheme and
      keeps the rest; a link without a scheme is drawn as it is. */
  lemma CleanUrlDropsScheme(rest: string)
    requires !Contains(rest, "https://") && !Contains(rest, "http://")
    ensures CleanUrl("https://" + rest) == rest
    ensures CleanUrl("http://" + rest) == rest
    ensures CleanUrl(rest) == rest
  {
    ReplaceAbsent(rest, "https://", "");
    ReplaceAbsent(rest, "http://", "");
    ReplaceLeading("https://", rest, "");
    assert "" + rest == rest;
    var s := "http://" + rest;
    assert s[4] == ':';
    assert |s| >= 8 ==> s[..8][4] == ':';
    ReplaceMiss(s, "https://", "");
    assert s[1..] == "ttp://" + rest;
    ReplaceAfterPlain("ttp://", rest, "https://", "");
    assert [s[0]] + ("ttp://" + rest) == s;
    ReplaceLeading("http://", rest, "");
  }

  /** Every scheme in the link is removed, not only a leading one. */
  lemma CleanUrlEveryScheme(a: string, rest: string)
    requires forall i :: 0 <= i < |a| ==> a[i] != 'h'
    requires !Contains(rest, "https://") && !Contains(rest, "http://")
    ensures CleanUrl(a + "https://" + rest) == a + rest
  {
    assert a + "https://" + rest == a + ("https://" + rest);
    ReplaceAfterPlain(a, "https://" + rest, "https://", "");
    ReplaceLeading("https://", rest, "");
    ReplaceAbsent(rest, "https://", "");
    assert "" + rest == rest;
    ReplaceAfterPlain(a, rest, "http://", "");
    ReplaceAbsent(rest, "http://", "");
  }

  // ---------------------------------------------------------------------
  // The background, the logo and the accent bar.

  /** The background painter the theme's type selects, with the theme
      colours it is given; the colours a painter decodes are `#rrggbb`
      pieces that decode. */
  lemma BackgroundDrawn(pkg: Package, theme: Theme, logo: LogoFile, m: Metrics)
    requires GenerateBanner(pkg, theme, logo, m).Ok?
    ensures "type" in theme.fields
    ensures var f := theme.fields; var bg := GenerateBanner(pkg, theme, logo, m).value.background;
      && (IsGradientType(f["type"]) ==>
            && "bg_start" in f && "bg_end" in f && bg == Gradient(f["bg_start"], f["bg_end"])
            && DecodeHex(f["bg_start"]).Some? && DecodeHex(f["bg_end"]).Some?)
      && (f["type"] == "glassmorphism" ==>
            "bg" in f && "accent" in f && bg == Glass(f["bg"], f["accent"]) && DecodeHex(f["accent"]).Some?)
      && (f["type"] == "neon" ==>
            "bg" in f && "primary" in f && bg == Neon(f["bg"], f["primary"]) && DecodeHex(f["primary"]).Some?)
      && (!IsGradientType(f["type"]) && f["type"] != "glassmorphism" && f["type"] != "neon" ==>
            "bg" in f && bg == Solid(f["bg"]))
  {
    GeneratesIffRenders(pkg, theme, logo, m);
  }

  /** The rows a gradient background paints: one per pixel row, the first
      exactly the decoded start colour. */
  lemma GradientPainted(pkg: Package, theme: Theme, logo: LogoFile, m: Metrics)
    requires GenerateBanner(pkg, theme, logo, m).Ok?
    requires GenerateBanner(pkg, theme, logo, m).value.background.Gradient?
    ensures var bg := GenerateBanner(pkg, theme, logo, m).value.background;
      && DecodeHex(bg.start).Some? && DecodeHex(bg.end).Some?
      && var rows := GradientRows(DecodeHex(bg.start).value, DecodeHex(bg.end).value, ImgHeight);
      && |rows| == 630 && rows[0] == DecodeHex(bg.start).value
  {
    BackgroundDrawn(pkg, theme, logo, m);
    var bg := GenerateBanner(pkg, theme, logo, m).value.background;
    GradientBounds(DecodeHex(bg.start).value, DecodeHex(bg.end).value, ImgHeight);
  }

  /** The logo is drawn exactly when its file opens: on a card-coloured
      rounded square in the top-right corner, to the right of the column. */
  lemma LogoPlacement(pkg: Package, theme: Theme, logo: LogoFile, m: Metrics)
    requires GenerateBanner(pkg, theme, logo, m).Ok?
    ensures "card" in theme.fields
    ensures var cs := GenerateBanner(pkg, theme, logo, m).value.logo;
      && (cs != [] <==> logo == ReadableLogo)
      && (logo == ReadableLogo ==>
            && |cs| == 2
            && cs[0] == RoundedRect(Box(1005, 85, 1135, 215), 8, Fill(theme.fields["card"]))
            && cs[1] == Paste(1020, 100, 100)
            && Padding + ContentWidth(logo) < cs[0].box.x1)
  {
    HasColours(pkg, theme, logo, m);
  }

  /** The last drawing call is the accent bar across the top edge. */
  lemma AccentBarLast(pkg: Package, theme: Theme, logo: LogoFile, m: Metrics)
    requires GenerateBanner(pkg, theme, logo, m).Ok?
    ensures "accent" in theme.fields
    ensures var cs := Commands(GenerateBanner(pkg, theme, logo, m).value);
      cs != [] && cs[|cs| - 1] == Rect(Box(0, 0, 1200, 4), Fill(theme.fields["accent"]))
  {
    HasColours(pkg, theme, logo, m);
  }

  // ---------------------------------------------------------------------
  // The order of the errors.

  lemma {:induction false} FirstFailureAppend(theme: Theme, a: seq<Requirement>, b: seq<Requirement>)
    ensures FirstFailure(theme, a + b)
         == if FirstFailure(theme, a).Some? then FirstFailure(theme, a) else FirstFailure(theme, b)
  {
    if a != [] {
      assert (a + b)[0] == a[0];
      assert (a + b)[1..] == a[1..] + b;
      FirstFailureAppend(theme, a[1..], b);
    } else {
      assert a + b == b;
    }
  }

  /** The background is drawn before anything else: when its lookups fail,
      their first failure is the error, whatever else the theme lacks. */
  lemma BackgroundFailsFirst(pkg: Package, theme: Theme, logo: LogoFile, m: Metrics)
    requires "type" in theme.fields
    requires FirstFailure(theme, BackgroundRequirements(theme.fields["type"])).Some?
    ensures GenerateBanner(pkg, theme, logo, m)
         == Err(FirstFailure(theme, BackgroundRequirements(theme.fields["type"])).value)
  {
    var kind := theme.fields["type"];
    FirstFailureAppend(theme, BackgroundRequirements(kind), SectionRequirements(pkg, kind));
  }

  /** A gradient theme without its start colour reports exactly that. */
  lemma GradientWithoutStart(pkg: Package, theme: Theme, logo: LogoFile, m: Metrics)
    requires "type" in theme.fields && IsGradientType(theme.fields["type"])
    requires "bg_start" !in theme.fields
    ensures GenerateBanner(pkg, theme, logo, m) == Err(MissingKey("bg_start"))
  {
    BackgroundFailsFirst(pkg, theme, logo, m);
  }
}

=== FILE: numbers.dfy ===
/** Python's integer conversions as the banner generator uses them:
    `str(i)`, `int(s)` and `int(s, 16)`, and the truncation toward zero of
    `int(x)` applied to a quotient. */
module Numbers {
  import opened Results
  import opened Strings

  /** The value of `c` as a digit, for bases up to 16 (letters in either
      case); 16 for a character that is a digit in none of them. */
  function DigitValue(c: char): (v: nat)
    ensures v <= 16
  {
    if '0' <= c <= '9' then c as int - '0' as int
    else if 'a' <= c <= 'f' then c as int - 'a' as int + 10
    else if 'A' <= c <= 'F' then c as int - 'A' as int + 10
    else 16
  }

  predicate IsDigit(c: char, base: nat) {
    DigitValue(c) < base
  }

  /** Digits of `base` in which single underscores may separate two
      digits, as `int()` accepts them. */
  predicate IsDigitRun(s: string, base: nat) {
    && s != [] && s[0] != '_' && s[|s| - 1] != '_'
    && (forall i :: 0 <= i < |s| ==> s[i] == '_' || IsDigit(s[i], base))
    && (forall i :: 0 <= i < |s| - 1 ==> s[i] == '_' ==> s[i + 1] != '_')
  }

  /** The number a run of digits denotes, underscores ignored. */
  function RunValue(s: string, base: nat): nat {
    if s == [] then 0
    else if s[|s| - 1] == '_' then RunValue(s[..|s| - 1], base)
    else RunValue(s[..|s| - 1], base) * base + DigitValue(s[|s| - 1])
  }

  /** The digits after an optional `0x`/`0X` prefix (base 16 only), which
      one underscore may follow. */
  function AfterPrefix(s: string, base: nat): string {
    if base == 16 && |s| >= 2 && s[0] == '0' && (s[1] == 'x' || s[1] == 'X') then
      if |s| > 2 && s[2] == '_' then s[3..] else s[2..]
    else s
  }

  /** The ASCII information separators U+001C to U+001F. `str.isspace`
      counts them as whitespace, but `int()` skips only the ASCII
      whitespace ` \t\n\v\f\r` and the non-ASCII whitespace, so a
      separator anywhere makes `int()` fail. */
  predicate IsInfoSeparator(c: char) {
    '\U{1C}' <= c <= '\U{1F}'
  }

  predicate HasInfoSeparator(s: string) {
    exists k :: 0 <= k < |s| && IsInfoSeparator(s[k])
  }

  /** The whitespace `int()` skips around a number. */
  predicate IsIntSpace(c: char) {
    IsSpace(c) && !IsInfoSeparator(c)
  }

  predicate AllIntSpace(s: string) {
    forall k :: 0 <= k < |s| ==> IsIntSpace(s[k])
  }

  /** `int(s, base)` for base 10 or 16: surrounding whitespace other than
      the information separators, an optional sign, the optional base
      prefix and a digit run. `None` stands for the `ValueError` Python
      raises for anything else. */
  function ParseInt(s: string, base: nat): (r: Option<int>)
    requires base == 10 || base == 16
    ensures AllSpace(s) ==> r.None?
    ensures HasInfoSeparator(s) ==> r.None?
    ensures r.Some? ==> Strip(s) != [] && IsDigit(Strip(s)[|Strip(s)| - 1], base)
    ensures r.Some? && r.value < 0 ==> Strip(s)[0] == '-'
  {
    ParseBlank(s, base);
    if HasInfoSeparator(s) then None else ParseSigned(Strip(s), base)
  }

  /** Without an information separator, `int()` is the parse of the
      stripped text. */
  lemma ParseIntPlain(s: string, base: nat)
    requires base == 10 || base == 16
    requires !HasInfoSeparator(s)
    ensures ParseInt(s, base) == ParseSigned(Strip(s), base)
  {
  }

  /** A string that parses without stripping is what `int()` parses. */
  lemma {:induction false} ParseIntWhole(t: string, base: nat)
    requires base == 10 || base == 16
    requires ParseSigned(t, base).Some?
    ensures ParseInt(t, base) == ParseSigned(t, base)
  {
    assert !IsSpace(t[0]) && !IsSpace(t[|t| - 1]);
    StripOfTrimmed(t);
    SignedPlain(t, base);
    ParseIntPlain(t, base);
  }

  /** A string that parses as a whole, without stripping, holds no
      information separator. */
  lemma SignedPlain(t: string, base: nat)
    requires base == 10 || base == 16
    requires ParseSigned(t, base).Some?
    ensures !HasInfoSeparator(t)
  {
  }

  lemma ParseBlank(s: string, base: nat)
    requires base == 10 || base == 16
    ensures AllSpace(s) ==> ParseSigned(Strip(s), base).None?
  {
    StripAllSpace(s);
  }

  /** The part of `int()` after the surrounding whitespace is gone. */
  function ParseSigned(t: string, base: nat): (r: Option<int>)
    requires base == 10 || base == 16
    ensures r.Some? ==> t != [] && IsDigit(t[|t| - 1], base)
    ensures r.Some? ==> forall i :: 0 <= i < |t| ==> !IsSpace(t[i])
    ensures r.Some? && r.value < 0 ==> t[0] == '-'
  {
    var negative := t != [] && t[0] == '-';
    var unsigned := if t != [] && (t[0] == '+' || t[0] == '-') then t[1..] else t;
    var digits := AfterPrefix(unsigned, base);
    if IsDigitRun(digits, base) then
      var v: int := RunValue(digits, base);
      Some(if negative then -v else v)
    else None
  }

  function DigitChar(d: nat): (c: char)
    requires d < 10
    ensures IsDigit(c, 10) && DigitValue(c) == d
  {
    "0123456789"[d]
  }

  /** `str(n)` for a natural number: decimal digits without a leading
      zero. */
  function NatToString(n: nat): (s: string)
    ensures s != [] && forall i :: 0 <= i < |s| ==> IsDigit(s[i], 10)
    ensures |s| > 1 ==> s[0] != '0'
  {
    if n < 10 then [DigitChar(n)]
    else
      var s := NatToString(n / 10) + [DigitChar(n % 10)];
      assert NatToString(n / 10)[0] == s[0];
      assert n / 10 > 0;
      s
  }

  /** `str(i)`: a minus sign for negative numbers, then the digits. */
  function IntToString(i: int): (s: string)
    ensures s != [] && !IsSpace(s[0]) && !IsSpace(s[|s| - 1])
  {
    if i < 0 then "-" + NatToString(-i) else NatToString(i)
  }

  lemma {:induction false} RunValueOfNatToString(n: nat)
    ensures RunValue(NatToString(n), 10) == n
  {
    if n >= 10 {
      var s := NatToString(n);
      assert s[..|s| - 1] == NatToString(n / 10);
      RunValueOfNatToString(n / 10);
    }
  }

  lemma NatToStringIsRun(n: nat)
    ensures IsDigitRun(NatToString(n), 10)
    ensures AfterPrefix(NatToString(n), 10) == NatToString(n)
  {
    var s := NatToString(n);
    assert forall i :: 0 <= i < |s| ==> s[i] != '_';
  }

  /** `int(str(i)) == i`. */
  lemma {:induction false} ParseIntToString(i: int)
    ensures ParseInt(IntToString(i), 10) == Some(i)
  {
    ParseSignedToString(i);
    ParseIntWhole(IntToString(i), 10);
  }

  lemma ParseSignedToString(i: int)
    ensures ParseSigned(IntToString(i), 10) == Some(i)
  {
    var n: nat := if i < 0 then -i else i;
    var d := NatToString(n);
    NatToStringIsRun(n);
    RunValueOfNatToString(n);
    assert IsDigit(d[0], 10);
    if i < 0 {
      assert IntToString(i) == "-" + d;
      SignedNegative(d, n);
    } else {
      assert IntToString(i) == d;
      SignedNatural(d, n);
    }
  }

  /** A minus sign before a run of decimal digits negates its value. */
  lemma SignedNegative(d: string, n: nat)
    requires IsDigitRun(d, 10) && AfterPrefix(d, 10) == d && IsDigit(d[0], 10)
    requires RunValue(d, 10) == n
    ensures ParseSigned("-" + d, 10) == Some(-(n as int))
  {
    var t := "-" + d;
    assert t != [] && t[0] == '-';
    assert t[1..] == d;
    assert AfterPrefix(t[1..], 10) == d;
  }

  /** A run of decimal digits that starts with a digit parses to its value. */
  lemma SignedNatural(d: string, n: nat)
    requires IsDigitRun(d, 10) && AfterPrefix(d, 10) == d && IsDigit(d[0], 10)
    requires RunValue(d, 10) == n
    ensures ParseSigned(d, 10) == Some(n)
  {
  }

  /** `int()` ignores whitespace around the number, as around the ends of
      a range typed as "1 - 4". */
  lemma {:induction false} ParseIntPadded(pre: string, i: int, post: string)
    requires AllIntSpace(pre) && AllIntSpace(post)
    ensures ParseInt(pre + IntToString(i) + post, 10) == Some(i)
  {
    var t := IntToString(i);
    ParseSignedToString(i);
    SignedPlain(t, 10);
    IntSpacePlain(pre);
    IntSpacePlain(post);
    NoSeparatorJoin(pre, t, post);
    StripPadded(pre, t, post);
    ParseIntPlain(pre + t + post, 10);
  }

  lemma IntSpacePlain(s: string)
    requires AllIntSpace(s)
    ensures AllSpace(s) && !HasInfoSeparator(s)
  {
  }

  lemma {:induction false} NoSeparatorJoin(a: string, b: string, c: string)
    requires !HasInfoSeparator(a) && !HasInfoSeparator(b) && !HasInfoSeparator(c)
    ensures !HasInfoSeparator(a + b + c)
  {
    var s := a + b + c;
    forall k | 0 <= k < |s| ensures !IsInfoSeparator(s[k]) {
      if k < |a| {
        assert s[k] == a[k];
      } else if k < |a| + |b| {
        assert s[k] == b[k - |a|];
      } else {
        assert s[k] == c[k - |a| - |b|];
      }
    }
  }

  /** An information separator next to the number is not skipped:
      `int("1\x1c")` fails although `"1\x1c".strip() == "1"`. */
  lemma {:induction false} ParseIntSeparator(pre: string, i: int, post: string)
    requires HasInfoSeparator(pre) || HasInfoSeparator(post)
    ensures ParseInt(pre + IntToString(i) + post, 10).None?
  {
    var s := pre + IntToString(i) + post;
    if HasInfoSeparator(pre) {
      var k :| 0 <= k < |pre| && IsInfoSeparator(pre[k]);
      assert s[k] == pre[k];
    } else {
      var k :| 0 <= k < |post| && IsInfoSeparator(post[k]);
      assert s[|pre| + |IntToString(i)| + k] == post[k];
    }
  }

  /** Leading zeros do not change the value: `int("004") == 4`. */
  lemma {:induction false} ParseIntLeadingZeros(z: string, n: nat)
    requires forall k :: 0 <= k < |z| ==> z[k] == '0'
    ensures ParseInt(z + NatToString(n), 10) == Some(n)
  {
    var d := NatToString(n);
    var s := z + d;
    ZerosRun(z, d);
    UnsignedRun(s, 10);
    ParseIntWhole(s, 10);
    RunValueLeadingZeros(z, d, 10);
    RunValueOfNatToString(n);
  }

  lemma {:induction false} ZerosRun(z: string, d: string)
    requires forall k :: 0 <= k < |z| ==> z[k] == '0'
    requires d != [] && forall k :: 0 <= k < |d| ==> IsDigit(d[k], 10)
    ensures IsDigitRun(z + d, 10)
  {
    var s := z + d;
    forall k | 0 <= k < |s| ensures IsDigit(s[k], 10) {
      if k >= |z| { assert s[k] == d[k - |z|]; }
    }
  }

  /** A plus sign is accepted and changes nothing: `int("+4") == 4`. */
  lemma {:induction false} ParseIntPlus(n: nat)
    ensures ParseInt("+" + NatToString(n), 10) == Some(n)
  {
    var d := NatToString(n);
    NatToStringIsRun(n);
    RunValueOfNatToString(n);
    SignedPlus(d, n);
    ParseIntWhole("+" + d, 10);
  }

  lemma SignedPlus(d: string, n: nat)
    requires IsDigitRun(d, 10) && AfterPrefix(d, 10) == d
    requires RunValue(d, 10) == n
    ensures ParseSigned("+" + d, 10) == Some(n)
  {
    var t := "+" + d;
    assert t != [] && t[0] == '+';
    assert t[1..] == d;
  }

  /** One underscore between two digit runs is ignored:
      `int("1_0") == int("10")`, and both parse. */
  lemma {:induction false} ParseIntUnderscore(a: string, b: string, base: nat)
    requires base == 10 || base == 16
    requires IsDigitRun(a, base) && IsDigitRun(b, base)
    ensures ParseInt(a + "_" + b, base) == ParseInt(a + b, base)
    ensures ParseInt(a + b, base).Some?
  {
    var s := a + "_" + b;
    var t := a + b;
    DigitRunJoin(a, b, base);
    UnsignedRun(s, base);
    UnsignedRun(t, base);
    ParseIntWhole(s, base);
    ParseIntWhole(t, base);
    RunValueUnderscore(a, b, base);
  }

  /** A digit run, without sign or prefix, parses to its value. */
  lemma UnsignedRun(s: string, base: nat)
    requires base == 10 || base == 16
    requires IsDigitRun(s, base)
    ensures ParseSigned(s, base) == Some(RunValue(s, base))
  {
    assert IsDigit(s[0], base);
    assert |s| >= 2 ==> s[1] == '_' || IsDigit(s[1], base);
    assert AfterPrefix(s, base) == s;
  }

  lemma {:induction false} DigitRunJoin(a: string, b: string, base: nat)
    requires IsDigitRun(a, base) && IsDigitRun(b, base)
    ensures IsDigitRun(a + "_" + b, base) && IsDigitRun(a + b, base)
  {
    var s := a + "_" + b;
    var t := a + b;
    forall i | 0 <= i < |s| ensures s[i] == '_' || IsDigit(s[i], base) {
      if i < |a| { assert s[i] == a[i]; } else if i > |a| { assert s[i] == b[i - |a| - 1]; }
    }
    forall i | 0 <= i < |s| - 1 ensures s[i] != '_' || s[i + 1] != '_' {
      if i + 1 < |a| { assert s[i] == a[i] && s[i + 1] == a[i + 1]; }
      else if i + 1 == |a| { assert s[i] == a[i]; }
      else if i == |a| { assert s[i + 1] == b[0]; }
      else { assert s[i] == b[i - |a| - 1] && s[i + 1] == b[i - |a|]; }
    }
    forall i | 0 <= i < |t| ensures t[i] == '_' || IsDigit(t[i], base) {
      if i < |a| { assert t[i] == a[i]; } else { assert t[i] == b[i - |a|]; }
    }
    forall i | 0 <= i < |t| - 1 ensures t[i] != '_' || t[i + 1] != '_' {
      if i + 1 < |a| { assert t[i] == a[i] && t[i + 1] == a[i + 1]; }
      else if i + 1 == |a| { assert t[i] == a[i]; }
      else { assert t[i] == b[i - |a|] && t[i + 1] == b[i + 1 - |a|]; }
    }
    assert s[0] == a[0] && t[0] == a[0];
    assert s[|s| - 1] == b[|b| - 1] && t[|t| - 1] == b[|b| - 1];
  }

  /** A run of zeros has the value 0. */
  lemma {:induction false} RunValueZeros(z: string, base: nat)
    requires forall k :: 0 <= k < |z| ==> z[k] == '0'
    ensures RunValue(z, base) == 0
  {
    if z != [] {
      RunValueZeros(z[..|z| - 1], base);
    }
  }

  lemma {:induction false} RunValueLeadingZeros(z: string, d: string, base: nat)
    requires forall k :: 0 <= k < |z| ==> z[k] == '0'
    ensures RunValue(z + d, base) == RunValue(d, base)
  {
    if d == [] {
      assert z + d == z;
      RunValueZeros(z, base);
    } else {
      var s := z + d;
      assert s[..|s| - 1] == z + d[..|d| - 1];
      assert s[|s| - 1] == d[|d| - 1];
      RunValueLeadingZeros(z, d[..|d| - 1], base);
    }
  }

  lemma {:induction false} RunValueUnderscore(a: string, b: string, base: nat)
    ensures RunValue(a + "_" + b, base) == RunValue(a + b, base)
  {
    if b == [] {
      assert a + "_" + b == a + "_";
      assert (a + "_")[..|a|] == a;
      assert a + b == a;
    } else {
      var s := a + "_" + b;
      var t := a + b;
      assert s[..|s| - 1] == a + "_" + b[..|b| - 1];
      assert t[..|t| - 1] == a + b[..|b| - 1];
      assert s[|s| - 1] == t[|t| - 1] == b[|b| - 1];
      RunValueUnderscore(a, b[..|b| - 1], base);
    }
  }

  /** `str` is injective, so a key denotes one number. */
  lemma IntToStringInjective(a: int, b: int)
    requires IntToString(a) == IntToString(b)
    ensures a == b
  {
    ParseIntToString(a);
    ParseIntToString(b);
  }

  /** `int(x)` of a quotient `a / b`: the quotient truncated toward zero. */
  function TruncDiv(a: int, b: int): (q: int)
    requires b > 0
    ensures a >= 0 ==> 0 <= q && q * b <= a < q * b + b
    ensures a < 0 ==> q <= 0 && q * b - b < a <= q * b
  {
    if a >= 0 then
      DivBounds(a, b);
      a / b
    else
      DivBounds(-a, b);
      NegMul((-a) / b, b);
      -((-a) / b)
  }

  lemma DivBounds(n: int, b: int)
    requires n >= 0 && b > 0
    ensures 0 <= n / b && (n / b) * b <= n < (n / b) * b + b
  {
  }

  lemma NegMul(d: int, b: int)
    ensures (-d) * b == -(d * b)
  {
  }
}

=== FILE: results.dfy ===
/** Failure-compatible result types shared by the model. */
module Results {

  /** The conventional Some/None datatype. */
  datatype Option<+T> = None | Some(value: T) {
    predicate IsFailure() { None? }

    function PropagateFailure<U>(): Option<U>
      requires None?
    {
      None
    }

    function Extract(): T
      requires Some?
    {
      value
    }
  }

  /** Either a value or the error that stopped the computation (a raised
      exception in the modelled program). */
  datatype Result<+T, +E> = Ok(value: T) | Err(error: E) {
    predicate IsFailure() { Err? }

    function PropagateFailure<U>(): Result<U, E>
      requires Err?
    {
      Err(error)
    }

    function Extract(): T
      requires Ok?
    {
      value
    }
  }
}

=== FILE: selection.dfy ===
/** The parsing of a multiple-theme selection such as `1-4,7,9-12`: the
    entered line is split at commas; a part with a dash is a range of
    integers, any other part is taken when it is literally a key; the keys
    taken are de-duplicated and sorted by their integer value. */
module Selection {
  import opened Results
  import opened Strings
  import opened Numbers
  import opened Themes

  /** Why a selection is refused and asked for again: a range part that is
      not two integers around one dash (Python's `ValueError`), or nothing
      selected at all. */
  datatype SelectionError = Malformed(part: string) | NothingSelected

  /** The value of a key read as an optional minus sign and decimal
      digits; for a canonical key it is `int(key)` (see `KeyValueIsInt`). */
  function KeyValue(k: string): int {
    if k != [] && k[0] == '-' then 0 - RunValue(k[1..], 10) else RunValue(k, 10)
  }

  /** A key that is the decimal spelling `str(i)` of an integer; sorting
      with `key=int` needs every key to be an integer, and the catalog's
      keys are all spelled this way. */
  predicate Canonical(k: string) {
    IntToString(KeyValue(k)) == k
  }

  /** The sort key of the source, `int(key)`, is `KeyValue` on canonical
      keys. */
  lemma KeyValueIsInt(k: string)
    requires Canonical(k)
    ensures ParseInt(k, 10) == Some(KeyValue(k))
  {
    ParseIntToString(KeyValue(k));
  }

  predicate AllCanonical(keys: set<string>) {
    forall k :: k in keys ==> Canonical(k)
  }

  /** Keys in strictly increasing integer order, hence without repeats. */
  predicate Increasing(ks: seq<string>) {
    forall i, j :: 0 <= i < j < |ks| ==> KeyValue(ks[i]) < KeyValue(ks[j])
  }

  lemma CanonicalOfInt(i: int)
    ensures Canonical(IntToString(i)) && KeyValue(IntToString(i)) == i
  {
    var s := IntToString(i);
    if i < 0 {
      RunValueOfNatToString(-i);
      assert s[0] == '-' && s[1..] == NatToString(-i);
      assert KeyValue(s) == i;
    } else {
      RunValueOfNatToString(i);
      assert s == NatToString(i);
      assert IsDigit(s[0], 10);
      assert KeyValue(s) == RunValue(s, 10) == i;
    }
  }

  /** Two canonical keys with the same value are the same key. */
  lemma CanonicalInjective(a: string, b: string)
    requires Canonical(a) && Canonical(b) && KeyValue(a) == KeyValue(b)
    ensures a == b
  {
  }

  /** The keys `str(i)` for `a <= i <= b`, in increasing order, that are
      keys of the catalog: `range(a, b + 1)` filtered by membership. */
  function RangeKeys(a: int, b: int, keys: set<string>): (r: seq<string>)
    ensures forall k :: k in r ==> k in keys
    decreases b - a
  {
    if a > b then []
    else
      var k := IntToString(a);
      (if k in keys then [k] else []) + RangeKeys(a + 1, b, keys)
  }

  /** A canonical key is in the range's contribution exactly when it is a
      key whose value lies between the two ends. */
  lemma {:induction false} RangeKeysMembers(a: int, b: int, keys: set<string>, k: string)
    requires Canonical(k)
    ensures k in RangeKeys(a, b, keys) <==> k in keys && a <= KeyValue(k) <= b
    decreases b - a
  {
    if a <= b {
      RangeKeysMembers(a + 1, b, keys, k);
      CanonicalOfInt(a);
      if KeyValue(k) == a {
        CanonicalInjective(k, IntToString(a));
      }
    }
  }

  /** The range's contribution is in increasing order. */
  lemma {:induction false} RangeKeysIncreasing(a: int, b: int, keys: set<string>)
    ensures Increasing(RangeKeys(a, b, keys))
    ensures forall k :: k in RangeKeys(a, b, keys) ==> Canonical(k) && a <= KeyValue(k) <= b
    decreases b - a
  {
    if a <= b {
      RangeKeysIncreasing(a + 1, b, keys);
      CanonicalOfInt(a);
      var k := IntToString(a);
      var rest := RangeKeys(a + 1, b, keys);
      if k in keys {
        assert RangeKeys(a, b, keys) == [k] + rest;
        PrependIncreasing(k, rest);
      } else {
        assert RangeKeys(a, b, keys) == rest;
      }
    }
  }

  /** A key below every key of an increasing sequence can go in front. */
  lemma PrependIncreasing(k: string, rest: seq<string>)
    requires Increasing(rest)
    requires forall x :: x in rest ==> KeyValue(k) < KeyValue(x)
    ensures Increasing([k] + rest)
  {
    var r := [k] + rest;
    forall i, j | 0 <= i < j < |r| ensures KeyValue(r[i]) < KeyValue(r[j]) {
      assert r[j] == rest[j - 1] && r[j] in rest;
      if i > 0 {
        assert r[i] == rest[i - 1];
      }
    }
  }

  /** `start, end = p.split('-')` followed by `int(start)` and `int(end)`:
      the two ends, or `None` when there are not exactly two pieces or one
      of them is not an integer. */
  function RangeEnds(p: string): (r: Option<(int, int)>)
    ensures r.Some? ==> |SplitOn(p, '-')| == 2
  {
    var ends := SplitOn(p, '-');
    if |ends| != 2 then None
    else
      match (ParseInt(ends[0], 10), ParseInt(ends[1], 10))
      case (Some(a), Some(b)) => Some((a, b))
      case _ => None
  }

  /** A part with a dash that is not two integers around exactly one dash. */
  predicate MalformedRange(p: string) {
    RangeEnds(p).None?
  }

  /** One comma-separated part, stripped: with a dash it must be a range
      `a-b` of two integers and contributes the keys from `a` to `b`; without
      one it contributes itself if it is a key, and nothing otherwise. */
  function ParsePart(part: string, keys: set<string>): (r: Result<seq<string>, SelectionError>)
    ensures r.Err? <==> '-' in Strip(part) && MalformedRange(Strip(part))
    ensures r.Err? ==> r.error == Malformed(Strip(part))
    ensures r.Ok? ==> forall k :: k in r.value ==> k in keys
    ensures r.Ok? && '-' !in Strip(part) ==> r.value == (if Strip(part) in keys then [Strip(part)] else [])
  {
    var p := Strip(part);
    if '-' in p then
      match RangeEnds(p)
      case Some((a, b)) => Ok(RangeKeys(a, b, keys))
      case None => Err(Malformed(p))
    else if p in keys then Ok([p])
    else Ok([])
  }

  /** Each part's outcome, in order. */
  function PartResults(parts: seq<string>, keys: set<string>): (rs: seq<Result<seq<string>, SelectionError>>)
    ensures |rs| == |parts| && forall i :: 0 <= i < |parts| ==> rs[i] == ParsePart(parts[i], keys)
  {
    seq(|parts|, (i: int) requires 0 <= i < |parts| => ParsePart(parts[i], keys))
  }

  /** The loop over the parts' outcomes: the first failure aborts the whole
      selection, as the exception does; otherwise the contributions are
      appended in order. */
  function Gather<T(==), E(==)>(rs: seq<Result<seq<T>, E>>): (r: Result<seq<T>, E>)
    ensures r.Err? ==> exists i :: 0 <= i < |rs| && rs[i] == Err(r.error) && forall j :: 0 <= j < i ==> rs[j].Ok?
  {
    if rs == [] then Ok([])
    else if rs[0].Err? then Err(rs[0].error)
    else
      var rest := Gather(rs[1..]);
      if rest.Err? then
        var i :| 0 <= i < |rs[1..]| && rs[1..][i] == Err(rest.error) && forall j :: 0 <= j < i ==> rs[1..][j].Ok?;
        assert rs[i + 1] == Err(rest.error);
        Err(rest.error)
      else Ok(rs[0].value + rest.value)
  }

  /** The keys the parts contribute, or the first malformed part. */
  function ParseParts(parts: seq<string>, keys: set<string>): (r: Result<seq<string>, SelectionError>)
    ensures r.Ok? ==> forall k :: k in r.value ==> k in keys
    ensures r.Err? ==> r.error.Malformed?
  {
    var rs := PartResults(parts, keys);
    GatherMembers(rs);
    PartsFailMalformed(parts, keys);
    Gather(rs)
  }

  /** The only way a part fails is as a malformed range. */
  lemma PartsFailMalformed(parts: seq<string>, keys: set<string>)
    ensures var g := Gather(PartResults(parts, keys)); g.Err? ==> g.error.Malformed?
  {
    var rs := PartResults(parts, keys);
    var g := Gather(rs);
    if g.Err? {
      var i :| 0 <= i < |rs| && rs[i] == Err(g.error) && forall j :: 0 <= j < i ==> rs[j].Ok?;
      assert ParsePart(parts[i], keys).Err?;
    }
  }

  predicate StrictlyIncreasing(xs: seq<int>) {
    forall i, j :: 0 <= i < j < |xs| ==> xs[i] < xs[j]
  }

  /** Inserts `x` into a strictly increasing sequence unless it is there. */
  function InsertValue(xs: seq<int>, x: int): (r: seq<int>)
    requires StrictlyIncreasing(xs)
    ensures StrictlyIncreasing(r)
    ensures forall y :: y in r <==> y in xs || y == x
  {
    if xs == [] then [x]
    else if x < xs[0] then [x] + xs
    else if x == xs[0] then xs
    else
      var rest := InsertValue(xs[1..], x);
      assert xs == [xs[0]] + xs[1..];
      KeepsFront(xs[0], xs[1..], rest);
      [xs[0]] + rest
  }

  /** A value below everything of an increasing sequence stays in front of
      the sequence's insertion. */
  lemma KeepsFront(v: int, tail: seq<int>, rest: seq<int>)
    requires StrictlyIncreasing([v] + tail) && StrictlyIncreasing(rest)
    requires forall y :: y in rest ==> y in tail || v < y
    ensures StrictlyIncreasing([v] + rest)
  {
    var r := [v] + rest;
    forall i, j | 0 <= i < j < |r| ensures r[i] < r[j] {
      assert r[j] == rest[j - 1] && r[j] in rest;
      if r[j] in tail {
        var k :| 0 <= k < |tail| && tail[k] == r[j];
        assert ([v] + tail)[k + 1] == r[j] && ([v] + tail)[0] == v;
      }
      if i > 0 {
        assert r[i] == rest[i - 1];
      }
    }
  }

  /** The distinct values of `xs` in increasing order. */
  function SortValues(xs: seq<int>): (r: seq<int>)
    ensures StrictlyIncreasing(r)
    ensures forall y :: y in r <==> y in xs
  {
    if xs == [] then []
    else
      var init := xs[..|xs| - 1];
      assert xs == init + [xs[|xs| - 1]];
      assert forall y :: y in xs <==> y in init || y == xs[|xs| - 1];
      InsertValue(SortValues(init), xs[|xs| - 1])
  }

  function KeyValues(ks: seq<string>): (vs: seq<int>)
    ensures |vs| == |ks| && forall i :: 0 <= i < |ks| ==> vs[i] == KeyValue(ks[i])
  {
    seq(|ks|, (i: int) requires 0 <= i < |ks| => KeyValue(ks[i]))
  }

  function Spell(vs: seq<int>): (ks: seq<string>)
    ensures |ks| == |vs| && forall i :: 0 <= i < |vs| ==> ks[i] == IntToString(vs[i])
  {
    seq(|vs|, (i: int) requires 0 <= i < |vs| => IntToString(vs[i]))
  }

  /** `list(set(ks))` sorted with `key=int`: the distinct keys in
      increasing order of value. */
  function SortKeys(ks: seq<string>): (r: seq<string>)
    requires forall i :: 0 <= i < |ks| ==> Canonical(ks[i])
    ensures Increasing(r)
    ensures forall x :: x in r <==> x in ks
  {
    var vs := SortValues(KeyValues(ks));
    SpellIncreasing(vs);
    forall x ensures x in Spell(vs) <==> x in ks {
      SpellMember(ks, vs, x);
    }
    Spell(vs)
  }

  /** Spelling the values of canonical keys gives back those keys. */
  lemma SpellMember(ks: seq<string>, vs: seq<int>, x: string)
    requires forall i :: 0 <= i < |ks| ==> Canonical(ks[i])
    requires forall v :: v in vs <==> v in KeyValues(ks)
    ensures x in Spell(vs) <==> x in ks
  {
    var r := Spell(vs);
    var kv := KeyValues(ks);
    if x in r {
      var i :| 0 <= i < |r| && r[i] == x;
      assert vs[i] in kv;
      var j :| 0 <= j < |kv| && kv[j] == vs[i];
      assert Canonical(ks[j]);
      assert x == ks[j];
    }
    if x in ks {
      var j :| 0 <= j < |ks| && ks[j] == x;
      assert kv[j] in vs;
      var i :| 0 <= i < |vs| && vs[i] == kv[j];
      assert r[i] == IntToString(KeyValue(x));
    }
  }

  /** Spelling strictly increasing values gives increasing keys. */
  lemma SpellIncreasing(vs: seq<int>)
    requires StrictlyIncreasing(vs)
    ensures Increasing(Spell(vs))
  {
    var r := Spell(vs);
    forall i | 0 <= i < |r| ensures KeyValue(r[i]) == vs[i] {
      CanonicalOfInt(vs[i]);
    }
  }

  /** The body of the multiple-theme prompt for one entered line: a sorted
      list of distinct keys, or the reason the prompt asks again. */
  function ParseSelection(selection: string, keys: set<string>): (r: Result<seq<string>, SelectionError>)
    requires AllCanonical(keys)
    ensures r.Ok? ==> r.value != [] && Increasing(r.value) && forall k :: k in r.value ==> k in keys
  {
    var pp := ParseParts(Parts(selection), keys);
    if pp.Err? then Err(pp.error) else Finish(pp.value, keys)
  }

  /** After the loop: nothing chosen asks again; otherwise the chosen keys
      without repeats, in increasing order. */
  function Finish(chosen: seq<string>, keys: set<string>): (r: Result<seq<string>, SelectionError>)
    requires AllCanonical(keys) && forall k :: k in chosen ==> k in keys
    ensures r.Err? <==> chosen == []
    ensures r.Err? ==> r.error == NothingSelected
    ensures r.Ok? ==> r.value != [] && Increasing(r.value)
    ensures r.Ok? ==> forall k :: k in r.value <==> k in chosen
  {
    if chosen == [] then Err(NothingSelected)
    else
      var r := SortKeys(chosen);
      assert chosen[0] in r;
      Ok(r)
  }

  /** The parts of an entered line. */
  function Parts(selection: string): seq<string> {
    SplitOn(Strip(selection), ',')
  }

  /** A part's contribution, for a part that is well formed. */
  function Contribution(part: string, keys: set<string>): seq<string> {
    var r := ParsePart(part, keys);
    if r.Ok? then r.value else []
  }

  /** The parts fail together: the whole list is refused exactly when one
      part is malformed, and otherwise it is the parts' contributions in
      order. */
  lemma ParsePartsAllOrNothing(parts: seq<string>, keys: set<string>)
    ensures ParseParts(parts, keys).Err? <==> exists i :: 0 <= i < |parts| && ParsePart(parts[i], keys).Err?
    ensures ParseParts(parts, keys).Ok? ==>
      forall k :: k in ParseParts(parts, keys).value <==>
        exists i :: 0 <= i < |parts| && k in Contribution(parts[i], keys)
  {
    var rs := PartResults(parts, keys);
    GatherFails(rs);
    GatherMembers(rs);
  }

  /** The loop fails exactly when some outcome is a failure. */
  lemma {:induction false} GatherFails<T, E>(rs: seq<Result<seq<T>, E>>)
    ensures Gather(rs).Err? <==> exists i :: 0 <= i < |rs| && rs[i].Err?
  {
    if rs != [] && rs[0].Ok? {
      GatherFails(rs[1..]);
      if Gather(rs[1..]).Ok? {
        forall i | 0 < i < |rs| ensures rs[i].Ok? {
          assert rs[i] == rs[1..][i - 1];
        }
      }
    }
  }

  /** When the loop succeeds it holds exactly the elements of the
      outcomes. */
  lemma {:induction false} GatherMembers<T, E>(rs: seq<Result<seq<T>, E>>)
    ensures Gather(rs).Ok? ==>
      forall x :: x in Gather(rs).value <==> exists i :: 0 <= i < |rs| && rs[i].Ok? && x in rs[i].value
  {
    if rs != [] && rs[0].Ok? {
      var tail := rs[1..];
      GatherMembers(tail);
      if Gather(tail).Ok? {
        forall x ensures x in Gather(tail).value <==> exists i :: 1 <= i < |rs| && rs[i].Ok? && x in rs[i].value {
          if x in Gather(tail).value {
            var i :| 0 <= i < |tail| && tail[i].Ok? && x in tail[i].value;
            assert rs[i + 1] == tail[i];
          }
          if exists i :: 1 <= i < |rs| && rs[i].Ok? && x in rs[i].value {
            var i :| 1 <= i < |rs| && rs[i].Ok? && x in rs[i].value;
            assert rs[i] == tail[i - 1];
          }
        }
      }
    }
  }

  /** A successful selection holds exactly the keys the parts contribute,
      each once, in increasing order. */
  lemma SelectionContents(selection: string, keys: set<string>, k: string)
    requires AllCanonical(keys)
    requires ParseSelection(selection, keys).Ok?
    ensures k in ParseSelection(selection, keys).value <==>
      exists i :: 0 <= i < |Parts(selection)| && k in Contribution(Parts(selection)[i], keys)
  {
    var parts := Parts(selection);
    ParsePartsAllOrNothing(parts, keys);
  }

  /** The entered line is refused as malformed exactly when one of its
      parts is. */
  lemma SelectionMalformed(selection: string, keys: set<string>)
    requires AllCanonical(keys)
    ensures var r := ParseSelection(selection, keys);
      r.Err? && r.error.Malformed? <==>
        exists i :: 0 <= i < |Parts(selection)| && '-' in Strip(Parts(selection)[i]) && MalformedRange(Strip(Parts(selection)[i]))
  {
    SelectionStages(selection, keys);
    PartsMalformed(Parts(selection), keys);
  }

  /** The parts are refused exactly when one of them is a malformed range. */
  lemma PartsMalformed(parts: seq<string>, keys: set<string>)
    ensures ParseParts(parts, keys).Err? <==>
      exists i :: 0 <= i < |parts| && '-' in Strip(parts[i]) && MalformedRange(Strip(parts[i]))
  {
    ParsePartsAllOrNothing(parts, keys);
    if ParseParts(parts, keys).Err? {
      var i :| 0 <= i < |parts| && ParsePart(parts[i], keys).Err?;
      assert '-' in Strip(parts[i]) && MalformedRange(Strip(parts[i]));
    }
  }

  /** The entered line is refused as empty exactly when every part is well
      formed but none contributes a key. */
  lemma SelectionNothing(selection: string, keys: set<string>)
    requires AllCanonical(keys)
    ensures var r := ParseSelection(selection, keys);
      r.Err? && r.error.NothingSelected? <==>
        ParseParts(Parts(selection), keys).Ok? &&
        forall i :: 0 <= i < |Parts(selection)| ==> Contribution(Parts(selection)[i], keys) == []
  {
    SelectionStages(selection, keys);
    PartsEmpty(Parts(selection), keys);
  }

  /** Well-formed parts contribute nothing together exactly when each
      contributes nothing. */
  lemma PartsEmpty(parts: seq<string>, keys: set<string>)
    ensures ParseParts(parts, keys).Ok? ==>
      (ParseParts(parts, keys).value == [] <==> forall i :: 0 <= i < |parts| ==> Contribution(parts[i], keys) == [])
  {
    var rs := PartResults(parts, keys);
    if Gather(rs).Ok? {
      GatherFails(rs);
      GatherEmpty(rs);
      forall i | 0 <= i < |parts| ensures rs[i] == Ok([]) <==> Contribution(parts[i], keys) == [] {
        assert rs[i].Ok?;
      }
    }
  }

  /** The loop succeeds with nothing exactly when every outcome succeeds
      with nothing. */
  lemma {:induction false} GatherEmpty<T, E>(rs: seq<Result<seq<T>, E>>)
    ensures Gather(rs) == Ok([]) <==> forall i :: 0 <= i < |rs| ==> rs[i] == Ok([])
  {
    if rs != [] && rs[0].Ok? {
      var tail := rs[1..];
      var g := Gather(tail);
      GatherEmpty(tail);
      AllEmptySplit(rs);
      if g.Ok? {
        assert Gather(rs) == Ok(rs[0].value + g.value);
        assert |rs[0].value + g.value| == |rs[0].value| + |g.value|;
      } else {
        assert Gather(rs).Err?;
      }
    }
  }

  /** Every outcome is empty exactly when the first one and all the rest
      are. */
  lemma AllEmptySplit<T, E>(rs: seq<Result<seq<T>, E>>)
    requires rs != []
    ensures (forall i :: 0 <= i < |rs| ==> rs[i] == Ok([])) <==>
      rs[0] == Ok([]) && forall i :: 0 <= i < |rs[1..]| ==> rs[1..][i] == Ok([])
  {
    if rs[0] == Ok([]) && forall i :: 0 <= i < |rs[1..]| ==> rs[1..][i] == Ok([]) {
      forall i | 0 < i < |rs| ensures rs[i] == Ok([]) {
        assert rs[i] == rs[1..][i - 1];
      }
    }
  }

  /** The two stages of the prompt: the parts are parsed, and a successful
      parse is finished by sorting. */
  lemma SelectionStages(selection: string, keys: set<string>)
    requires AllCanonical(keys)
    ensures var pp := ParseParts(Parts(selection), keys);
      && (pp.Err? ==> ParseSelection(selection, keys) == Err(pp.error))
      && (pp.Ok? ==> ParseSelection(selection, keys) == Finish(pp.value, keys))
  {
  }

  /** A range part `a-b` contributes exactly the keys whose value lies from
      `a` to `b`, so nothing when `a > b`. */
  lemma RangePart(part: string, keys: set<string>, a: int, b: int, k: string)
    requires AllCanonical(keys)
    requires '-' in Strip(part) && RangeEnds(Strip(part)) == Some((a, b))
    ensures ParsePart(part, keys) == Ok(RangeKeys(a, b, keys))
    ensures k in Contribution(part, keys) <==> k in keys && a <= KeyValue(k) <= b
  {
    if k in keys {
      RangeKeysMembers(a, b, keys, k);
    }
  }

  /** The catalog's keys are canonical, so the parser applies to them. */
  lemma CatalogKeysCanonical()
    ensures AllCanonical(AllThemes.Keys)
  {
    CategoriesPartitionCatalog();
    forall k | k in AllThemes ensures Canonical(k) {
      assert k in ThemeOrder;
      var n :| 0 <= n < |ThemeOrder| && ThemeOrder[n] == k;
      OrderKeySpelling(n);
      CanonicalOfInt(n + 1);
    }
  }

  /** The `n`-th catalog key is the spelling of `n + 1`. */
  lemma OrderKeySpelling(n: nat)
    requires n < |ThemeOrder|
    ensures ThemeOrder[n] == IntToString(n + 1)
  {
    if n >= 9 {
      assert NatToString(n + 1) == NatToString(1) + [DigitChar(n - 9)];
    }
  }

  /** The all-themes mode selects the catalog keys in their numeric
      order, "1" to "12". */
  lemma SelectAllInOrder()
    ensures |SelectAll()| == 12
    ensures forall i :: 0 <= i < |SelectAll()| ==> SelectAll()[i] == IntToString(i + 1)
  {
    forall i | 0 <= i < |SelectAll()| ensures SelectAll()[i] == IntToString(i + 1) {
      OrderKeySpelling(i);
    }
  }
}

=== FILE: shapes.dfy ===
/** The rounded-rectangle primitive: a box with rounded corners drawn as
    two overlapping rectangles plus a quarter-disc pie slice at each
    corner. */
module Shapes {
  import opened Results

  /** `[x1, y1, x2, y2]`, both corners inclusive as the drawing library
      treats them; y grows downwards. */
  datatype Box = Box(x1: int, y1: int, x2: int, y2: int)

  /** Fill and outline colours; either may be absent. */
  datatype Paint = Paint(fill: Option<string>, outline: Option<string>)

  /** The drawing calls a rounded rectangle turns into. Pie-slice angles
      are degrees measured clockwise from the positive x axis. */
  datatype Primitive =
    | Rectangle(box: Box, paint: Paint)
    | PieSlice(box: Box, startAngle: int, endAngle: int, paint: Paint)

  predicate InBox(x: int, y: int, b: Box) {
    b.x1 <= x <= b.x2 && b.y1 <= y <= b.y2
  }

  predicate BoxWithin(inner: Box, outer: Box) {
    outer.x1 <= inner.x1 && inner.x2 <= outer.x2 && outer.y1 <= inner.y1 && inner.y2 <= outer.y2
  }

  /** The point lies in one of the four `radius`-sized corner squares of `b`
      that the straight rectangles leave out. */
  predicate InCorner(x: int, y: int, b: Box, radius: int) {
    (x < b.x1 + radius || x > b.x2 - radius) && (y < b.y1 + radius || y > b.y2 - radius)
  }

  /** The box is wide and tall enough for two corners of the radius. */
  predicate FitsRadius(b: Box, radius: int) {
    2 * radius <= b.x2 - b.x1 && 2 * radius <= b.y2 - b.y1
  }

  /** A radius of zero or less draws the plain rectangle; otherwise two
      rectangles and four pie slices, all with the caller's paint. */
  function RoundedRectParts(b: Box, radius: int, paint: Paint): (parts: seq<Primitive>)
    ensures radius <= 0 ==> parts == [Rectangle(b, paint)]
    ensures radius > 0 ==> |parts| == 6 && parts[0].Rectangle? && parts[1].Rectangle?
    ensures radius > 0 ==> forall i :: 2 <= i < |parts| ==> parts[i].PieSlice?
    ensures radius > 0 ==>
      [parts[2].startAngle, parts[3].startAngle, parts[4].startAngle, parts[5].startAngle]
      == [180, 270, 90, 0]
    ensures forall i :: 0 <= i < |parts| ==> parts[i].paint == paint
  {
    if radius <= 0 then [Rectangle(b, paint)]
    else
      var d := 2 * radius;
      [ Rectangle(Box(b.x1 + radius, b.y1, b.x2 - radius, b.y2), paint),
        Rectangle(Box(b.x1, b.y1 + radius, b.x2, b.y2 - radius), paint),
        PieSlice(Box(b.x1, b.y1, b.x1 + d, b.y1 + d), 180, 270, paint),
        PieSlice(Box(b.x2 - d, b.y1, b.x2, b.y1 + d), 270, 360, paint),
        PieSlice(Box(b.x1, b.y2 - d, b.x1 + d, b.y2), 90, 180, paint),
        PieSlice(Box(b.x2 - d, b.y2 - d, b.x2, b.y2), 0, 90, paint) ]
  }

  /** The two rectangles cover exactly the points of the box outside the
      four corner squares. */
  lemma RoundedRectCoverage(b: Box, radius: int, x: int, y: int)
    requires radius > 0 && FitsRadius(b, radius)
    ensures var parts := RoundedRectParts(b, radius, Paint(None, None));
      InBox(x, y, parts[0].box) || InBox(x, y, parts[1].box)
      <==> InBox(x, y, b) && !InCorner(x, y, b, radius)
  {
  }

  /** Every part stays inside the box, and every point of the box is
      covered by some part's box. */
  lemma RoundedRectWithinBox(b: Box, radius: int, paint: Paint)
    requires FitsRadius(b, radius)
    ensures forall i :: 0 <= i < |RoundedRectParts(b, radius, paint)| ==>
      BoxWithin(RoundedRectParts(b, radius, paint)[i].box, b)
    ensures forall x, y :: InBox(x, y, b) ==>
      exists i :: 0 <= i < |RoundedRectParts(b, radius, paint)| &&
        InBox(x, y, RoundedRectParts(b, radius, paint)[i].box)
  {
    var parts := RoundedRectParts(b, radius, paint);
    forall x, y | InBox(x, y, b)
      ensures exists i :: 0 <= i < |parts| && InBox(x, y, parts[i].box)
    {
      if radius <= 0 {
        assert InBox(x, y, parts[0].box);
      } else if !InCorner(x, y, b, radius) {
        RoundedRectCoverage(b, radius, x, y);
        assert InBox(x, y, parts[0].box) || InBox(x, y, parts[1].box);
      } else if x < b.x1 + radius && y < b.y1 + radius {
        assert InBox(x, y, parts[2].box);
      } else if y < b.y1 + radius {
        assert InBox(x, y, parts[3].box);
      } else if x < b.x1 + radius {
        assert InBox(x, y, parts[4].box);
      } else {
        assert InBox(x, y, parts[5].box);
      }
    }
  }

  /** The direction, as signs of (dx, dy), of the quarter of the circle a
      90-degree slice starting at `angle` covers (clockwise from the
      positive x axis, y downwards). */
  function QuarterDirection(angle: int): (int, int) {
    if angle == 0 then (1, 1)
    else if angle == 90 then (-1, 1)
    else if angle == 180 then (-1, -1)
    else if angle == 270 then (1, -1)
    else (0, 0)
  }

  /** The square of side twice the radius sitting in the corner of `b` that
      the quarter starting at `angle` points towards: the left edge for a
      leftward quarter, the right edge otherwise, and likewise top and
      bottom. */
  function FacingSquare(b: Box, radius: int, angle: int): Box {
    var (dx, dy) := QuarterDirection(angle);
    var d := 2 * radius;
    var x1 := if dx < 0 then b.x1 else b.x2 - d;
    var y1 := if dy < 0 then b.y1 else b.y2 - d;
    Box(x1, y1, x1 + d, y1 + d)
  }

  /** Each of the four pie slices is the 90-degree quarter of the circle
      inscribed in a corner square of side twice the radius, the quarter
      that faces that corner, and the four slices take one corner each. */
  lemma RoundedRectCornersFaceOutward(b: Box, radius: int, paint: Paint)
    requires radius > 0
    ensures var parts := RoundedRectParts(b, radius, paint);
      && (forall i :: 2 <= i < 6 ==>
            && parts[i].PieSlice?
            && parts[i].endAngle == parts[i].startAngle + 90
            && parts[i].box == FacingSquare(b, radius, parts[i].startAngle))
      && {parts[2].startAngle, parts[3].startAngle, parts[4].startAngle, parts[5].startAngle}
         == {0, 90, 180, 270}
  {
  }
}

=== FILE: strings.dfy ===
/** The Python string operations the banner generator relies on: whitespace
    `split()`, `strip()`, `split(c)` on one separator character, `join` and
    `replace`. Strings are sequences of characters. */
module Strings {

  /** Python's notion of whitespace (`str.isspace`), which both `split()` and
      `strip()` with no argument use. */
  predicate IsSpace(c: char) {
    || c == ' '
    || ('\t' <= c <= '\r')
    || ('\U{1C}' <= c <= '\U{1F}')
    || c == '\U{85}' || c == '\U{A0}' || c == '\U{1680}'
    || ('\U{2000}' <= c <= '\U{200A}')
    || c == '\U{2028}' || c == '\U{2029}' || c == '\U{202F}'
    || c == '\U{205F}' || c == '\U{3000}'
  }

  predicate AllSpace(s: string) {
    forall i :: 0 <= i < |s| ==> IsSpace(s[i])
  }

  /** A word as `split()` produces it: non-empty and free of whitespace. */
  predicate IsWord(w: string) {
    w != [] && forall i :: 0 <= i < |w| ==> !IsSpace(w[i])
  }

  /** `s.lstrip()`: drops the leading whitespace. */
  function TrimStart(s: string): (r: string)
    ensures |r| <= |s| && r == s[|s| - |r|..]
    ensures r == [] || !IsSpace(r[0])
    ensures AllSpace(s[..|s| - |r|])
  {
    if s != [] && IsSpace(s[0]) then
      var r := TrimStart(s[1..]);
      assert s[1..][..|s| - 1 - |r|] == s[1..|s| - |r|];
      r
    else s
  }

  /** `s.rstrip()`: drops the trailing whitespace. */
  function TrimEnd(s: string): (r: string)
    ensures |r| <= |s| && r == s[..|r|]
    ensures r == [] || !IsSpace(r[|r| - 1])
    ensures AllSpace(s[|r|..])
  {
    if s != [] && IsSpace(s[|s| - 1]) then
      var r := TrimEnd(s[..|s| - 1]);
      assert s[|r|..] == s[..|s| - 1][|r|..] + [s[|s| - 1]];
      r
    else s
  }

  /** `s.strip()`: removes whitespace at both ends; the result starts and
      ends with a non-space character unless it is empty. */
  function Strip(s: string): (r: string)
    ensures r == [] || (!IsSpace(r[0]) && !IsSpace(r[|r| - 1]))
  {
    TrimEnd(TrimStart(s))
  }

  /** What `Strip` removes is whitespace, and what it keeps is a contiguous
      piece of the input. */
  lemma {:induction false} StripIsSlice(s: string)
    ensures exists i :: SliceAt(s, i, Strip(s)) && AllSpace(s[..i]) && AllSpace(s[i + |Strip(s)|..])
  {
    var i := |s| - |TrimStart(s)|;
    StripSlice(s);
    StripBefore(s);
    StripAfter(s);
    assert SliceAt(s, i, Strip(s)) && AllSpace(s[..i]) && AllSpace(s[i + |Strip(s)|..]);
  }

  /** `Strip` keeps the piece starting where the leading whitespace ends. */
  lemma {:induction false} StripSlice(s: string)
    ensures SliceAt(s, |s| - |TrimStart(s)|, Strip(s))
  {
    var t := TrimStart(s);
    var r := TrimEnd(t);
    assert Strip(s) == r;
    TrimmedSlice(s, t, r);
  }

  /** Only whitespace comes before what `Strip` keeps. */
  lemma {:induction false} StripBefore(s: string)
    ensures AllSpace(s[..|s| - |TrimStart(s)|])
  {
  }

  /** Only whitespace comes after what `Strip` keeps. */
  lemma {:induction false} StripAfter(s: string)
    ensures AllSpace(s[|s| - |TrimStart(s)| + |Strip(s)|..])
  {
    var t := TrimStart(s);
    var r := TrimEnd(t);
    assert Strip(s) == r;
    TrimmedSlice(s, t, r);
  }

  /** A prefix `r` of a suffix `t` of `s`, with only whitespace cut off on
      either side, is a slice of `s` with only whitespace around it. */
  lemma {:induction false} TrimmedSlice(s: string, t: string, r: string)
    requires |t| <= |s| && t == s[|s| - |t|..] && AllSpace(s[..|s| - |t|])
    requires |r| <= |t| && r == t[..|r|] && AllSpace(t[|r|..])
    ensures var i := |s| - |t|; SliceAt(s, i, r) && AllSpace(s[..i]) && AllSpace(s[i + |r|..])
  {
    assert s[|s| - |t| + |r|..] == t[|r|..];
  }

  /** `r` is the piece of `s` starting at index `i`. */
  predicate SliceAt(s: string, i: int, r: string) {
    0 <= i <= |s| - |r| && s[i..i + |r|] == r
  }

  lemma StripOfTrimmed(s: string)
    requires s == [] || (!IsSpace(s[0]) && !IsSpace(s[|s| - 1]))
    ensures Strip(s) == s
  {
  }

  /** Whitespace-only text strips to nothing. */
  lemma StripAllSpace(s: string)
    ensures AllSpace(s) ==> Strip(s) == []
  {
  }

  /** `strip()` removes exactly the whitespace around a piece that starts
      and ends with a non-space character. */
  lemma {:induction false} StripPadded(pre: string, t: string, post: string)
    requires AllSpace(pre) && AllSpace(post)
    requires t != [] && !IsSpace(t[0]) && !IsSpace(t[|t| - 1])
    ensures Strip(pre + t + post) == t
  {
    assert pre + t + post == pre + (t + post);
    TrimStartPadded(pre, t + post);
    TrimEndPadded(t, post);
  }

  lemma {:induction false} TrimStartPadded(pre: string, s: string)
    requires AllSpace(pre) && s != [] && !IsSpace(s[0])
    ensures TrimStart(pre + s) == s
  {
    if pre == [] {
      assert pre + s == s;
    } else {
      assert (pre + s)[1..] == pre[1..] + s;
      TrimStartPadded(pre[1..], s);
    }
  }

  lemma {:induction false} TrimEndPadded(s: string, post: string)
    requires AllSpace(post) && s != [] && !IsSpace(s[|s| - 1])
    ensures TrimEnd(s + post) == s
  {
    if post == [] {
      assert s + post == s;
    } else {
      assert (s + post)[..|s + post| - 1] == s + post[..|post| - 1];
      TrimEndPadded(s, post[..|post| - 1]);
    }
  }

  /** Length of the maximal whitespace-free prefix of `s`. */
  function WordEnd(s: string): (n: nat)
    requires s != [] && !IsSpace(s[0])
    ensures 1 <= n <= |s|
    ensures IsWord(s[..n])
    ensures n == |s| || IsSpace(s[n])
  {
    if |s| == 1 || IsSpace(s[1]) then 1
    else
      var n := 1 + WordEnd(s[1..]);
      assert s[..n] == [s[0]] + s[1..][..n - 1];
      n
  }

  /** `s.split()`: the maximal runs of non-whitespace characters, in order. */
  function Words(s: string): (ws: seq<string>)
    ensures forall i :: 0 <= i < |ws| ==> IsWord(ws[i])
    decreases |s|
  {
    if s == [] then []
    else if IsSpace(s[0]) then Words(s[1..])
    else
      var n := WordEnd(s);
      [s[..n]] + Words(s[n..])
  }

  /** `sep.join(parts)`. */
  function Join(parts: seq<string>, sep: string): string {
    if parts == [] then ""
    else if |parts| == 1 then parts[0]
    else parts[0] + sep + Join(parts[1..], sep)
  }

  lemma JoinSnoc(parts: seq<string>, w: string, sep: string)
    requires parts != []
    ensures Join(parts + [w], sep) == Join(parts, sep) + sep + w
  {
    if |parts| > 1 {
      assert (parts + [w])[1..] == parts[1..] + [w];
      JoinSnoc(parts[1..], w, sep);
    } else {
      assert parts + [w] == [parts[0], w];
    }
  }

  /** Whitespace-only text (including the empty text) has no words, and
      any other text has at least one. */
  lemma {:induction false} WordsEmptyIff(s: string)
    ensures Words(s) == [] <==> AllSpace(s)
    decreases |s|
  {
    if s != [] && IsSpace(s[0]) {
      WordsEmptyIff(s[1..]);
      if AllSpace(s[1..]) {
        forall i | 0 <= i < |s| ensures IsSpace(s[i]) {
          if i > 0 { assert s[i] == s[1..][i - 1]; }
        }
      }
    }
  }

  lemma WordEndOfWord(w: string, t: string)
    requires IsWord(w)
    requires t == [] || IsSpace(t[0])
    ensures WordEnd(w + t) == |w|
  {
    var s := w + t;
    var n := WordEnd(s);
    forall i | 0 <= i < n ensures !IsSpace(s[i]) {
      assert s[..n][i] == s[i];
    }
    forall i | 0 <= i < |w| ensures !IsSpace(s[i]) {
      assert s[i] == w[i];
    }
    if t != [] {
      assert s[|w|] == t[0];
    }
  }

  /** Splitting words joined by single spaces gives the words back. */
  lemma {:induction false} WordsOfJoin(ws: seq<string>)
    requires forall i :: 0 <= i < |ws| ==> IsWord(ws[i])
    ensures Words(Join(ws, " ")) == ws
  {
    if ws == [] {
    } else if |ws| == 1 {
      var w := ws[0];
      WordEndOfWord(w, "");
      assert w + "" == w;
      assert w[|w|..] == [];
    } else {
      var w := ws[0];
      var rest := Join(ws[1..], " ");
      var s := w + " " + rest;
      assert s == w + (" " + rest);
      WordEndOfWord(w, " " + rest);
      assert s[..|w|] == w;
      assert s[|w|..] == " " + rest;
      assert (" " + rest)[1..] == rest;
      WordsOfJoin(ws[1..]);
      assert ws == [w] + ws[1..];
    }
  }

  /** Words laid out between whitespace gaps:
      `gaps[0] + ws[0] + gaps[1] + ... + ws[n - 1] + gaps[n]`. */
  function Interleave(gaps: seq<string>, ws: seq<string>): string
    requires |gaps| == |ws| + 1
  {
    if ws == [] then gaps[0] else gaps[0] + ws[0] + Interleave(gaps[1..], ws[1..])
  }

  /** Every gap is whitespace (possibly none at either end), the gaps
      between two words are not empty, and the words are words. */
  predicate WordLayout(gaps: seq<string>, ws: seq<string>) {
    && |gaps| == |ws| + 1
    && (forall i :: 0 <= i < |ws| ==> IsWord(ws[i]))
    && (forall i :: 0 <= i < |gaps| ==> AllSpace(gaps[i]))
    && (forall i :: 0 < i < |ws| ==> gaps[i] != [])
  }

  /** `split()` returns `ws` exactly when the text is `ws` laid out between
      whitespace gaps: the words are all the text's maximal runs of
      non-whitespace, in order, and nothing else. */
  lemma WordsCharacterised(s: string, ws: seq<string>)
    ensures Words(s) == ws <==> exists gaps :: WordLayout(gaps, ws) && Interleave(gaps, ws) == s
  {
    WordsLayout(s);
    if gaps :| WordLayout(gaps, ws) && Interleave(gaps, ws) == s {
      WordsOfLayout(gaps, ws);
    }
  }

  /** The whitespace between the words of `s`, and before and after them. */
  function Gaps(s: string): (gaps: seq<string>)
    ensures |gaps| == |Words(s)| + 1
    decreases |s|
  {
    if s == [] then [""]
    else if IsSpace(s[0]) then
      var g := Gaps(s[1..]);
      [[s[0]] + g[0]] + g[1..]
    else [""] + Gaps(s[WordEnd(s)..])
  }

  /** The words of `s` and its gaps lay `s` out. */
  lemma {:induction false} WordsLayout(s: string)
    ensures WordLayout(Gaps(s), Words(s)) && Interleave(Gaps(s), Words(s)) == s
    decreases |s|
  {
    if s == [] {
    } else if IsSpace(s[0]) {
      WordsLayout(s[1..]);
      GapsSpaceStep(s);
    } else {
      WordsLayout(s[WordEnd(s)..]);
      GapsWordStep(s);
      GapsWordText(s);
    }
  }

  lemma {:induction false} GapsSpaceStep(s: string)
    requires s != [] && IsSpace(s[0])
    requires WordLayout(Gaps(s[1..]), Words(s[1..])) && Interleave(Gaps(s[1..]), Words(s[1..])) == s[1..]
    ensures WordLayout(Gaps(s), Words(s)) && Interleave(Gaps(s), Words(s)) == s
  {
    LayoutSpace(s[0], Gaps(s[1..]), Words(s[1..]), s[1..]);
    assert s == [s[0]] + s[1..];
  }

  lemma {:induction false} GapsWordStep(s: string)
    requires s != [] && !IsSpace(s[0])
    requires var t := s[WordEnd(s)..];
      WordLayout(Gaps(t), Words(t)) && Interleave(Gaps(t), Words(t)) == t
    ensures WordLayout(Gaps(s), Words(s))
  {
    var n := WordEnd(s);
    var w, t := s[..n], s[n..];
    GapsOfWord(s);
    LayoutWord(w, Gaps(t), Words(t), t);
  }

  lemma {:induction false} GapsWordText(s: string)
    requires s != [] && !IsSpace(s[0])
    requires var t := s[WordEnd(s)..]; Interleave(Gaps(t), Words(t)) == t
    ensures Interleave(Gaps(s), Words(s)) == s
  {
    var n := WordEnd(s);
    var w, t := s[..n], s[n..];
    GapsOfWord(s);
    InterleaveCons(Gaps(t), Words(t), w);
    assert w + t == s;
  }

  /** A word with no gap before it goes in front of a layout. */
  lemma {:induction false} InterleaveCons(gaps: seq<string>, ws: seq<string>, w: string)
    requires |gaps| == |ws| + 1
    ensures Interleave([""] + gaps, [w] + ws) == w + Interleave(gaps, ws)
  {
    assert ([""] + gaps)[1..] == gaps && ([w] + ws)[1..] == ws;
  }

  /** A text starting with a word has an empty first gap, and that word
      first. */
  lemma {:induction false} GapsOfWord(s: string)
    requires s != [] && !IsSpace(s[0])
    ensures Gaps(s) == [""] + Gaps(s[WordEnd(s)..])
    ensures Words(s) == [s[..WordEnd(s)]] + Words(s[WordEnd(s)..])
  {
  }

  /** A whitespace character in front of a layout joins its first gap. */
  lemma {:induction false} LayoutSpace(c: char, g: seq<string>, ws: seq<string>, t: string)
    requires IsSpace(c) && WordLayout(g, ws) && Interleave(g, ws) == t
    ensures var gaps := [[c] + g[0]] + g[1..]; WordLayout(gaps, ws) && Interleave(gaps, ws) == [c] + t
  {
    var gaps := [[c] + g[0]] + g[1..];
    assert gaps[1..] == g[1..];
    assert AllSpace(gaps[0]) by {
      forall i | 0 <= i < |gaps[0]| ensures IsSpace(gaps[0][i]) {
        if i > 0 { assert gaps[0][i] == g[0][i - 1]; }
      }
    }
    assert forall i :: 0 < i < |gaps| ==> gaps[i] == g[i];
    if ws != [] {
      assert Interleave(gaps, ws) == [c] + (g[0] + ws[0] + Interleave(g[1..], ws[1..]));
    }
  }

  /** A word in front of a layout that starts with whitespace, or is
      empty, becomes its first word, with no gap before it. */
  lemma {:induction false} LayoutWord(w: string, g: seq<string>, ws: seq<string>, t: string)
    requires IsWord(w) && WordLayout(g, ws) && Interleave(g, ws) == t
    requires t == [] || IsSpace(t[0])
    ensures WordLayout([""] + g, [w] + ws) && Interleave([""] + g, [w] + ws) == w + t
  {
    var gaps, ws' := [""] + g, [w] + ws;
    assert gaps[1..] == g && ws'[1..] == ws;
    assert forall i :: 0 < i < |gaps| ==> gaps[i] == g[i - 1];
    assert forall i :: 0 < i < |ws'| ==> ws'[i] == ws[i - 1];
    if ws != [] {
      assert t == g[0] + ws[0] + Interleave(g[1..], ws[1..]);
      assert g[0] != [];
    }
  }

  /** Whitespace in front of a text does not change its words. */
  lemma {:induction false} WordsAfterSpace(g: string, t: string)
    requires AllSpace(g)
    ensures Words(g + t) == Words(t)
    decreases |g|
  {
    if g != [] {
      assert (g + t)[1..] == g[1..] + t;
      WordsAfterSpace(g[1..], t);
    } else {
      assert g + t == t;
    }
  }

  /** A word followed by whitespace or nothing is the first word. */
  lemma WordsOfWordThen(w: string, t: string)
    requires IsWord(w)
    requires t == [] || IsSpace(t[0])
    ensures Words(w + t) == [w] + Words(t)
  {
    WordEndOfWord(w, t);
    var s := w + t;
    assert s[..|w|] == w && s[|w|..] == t;
  }

  /** Splitting words laid out between whitespace gives the words back. */
  lemma {:induction false} WordsOfLayout(gaps: seq<string>, ws: seq<string>)
    requires WordLayout(gaps, ws)
    ensures Words(Interleave(gaps, ws)) == ws
  {
    if ws == [] {
      WordsEmptyIff(gaps[0]);
    } else {
      LayoutTail(gaps, ws);
      WordsOfLayout(gaps[1..], ws[1..]);
      WordsOfLayoutStep(gaps, ws);
    }
  }

  /** Dropping the first gap and word of a layout leaves a layout, which is
      empty or starts with whitespace. */
  lemma {:induction false} LayoutTail(gaps: seq<string>, ws: seq<string>)
    requires WordLayout(gaps, ws) && ws != []
    ensures WordLayout(gaps[1..], ws[1..])
    ensures var rest := Interleave(gaps[1..], ws[1..]); rest == [] || IsSpace(rest[0])
  {
    assert forall i :: 0 <= i < |gaps| - 1 ==> gaps[1..][i] == gaps[i + 1];
    assert forall i :: 0 <= i < |ws| - 1 ==> ws[1..][i] == ws[i + 1];
    var rest := Interleave(gaps[1..], ws[1..]);
    if |ws| > 1 {
      assert rest == gaps[1] + (ws[1] + Interleave(gaps[2..], ws[2..]));
      assert rest[0] == gaps[1][0];
    } else {
      assert rest == gaps[1];
    }
  }

  lemma {:induction false} WordsOfLayoutStep(gaps: seq<string>, ws: seq<string>)
    requires WordLayout(gaps, ws) && ws != []
    requires var rest := Interleave(gaps[1..], ws[1..]);
      (rest == [] || IsSpace(rest[0])) && Words(rest) == ws[1..]
    ensures Words(Interleave(gaps, ws)) == ws
  {
    var rest := Interleave(gaps[1..], ws[1..]);
    WordsOfWordThen(ws[0], rest);
    assert Interleave(gaps, ws) == gaps[0] + (ws[0] + rest);
    WordsAfterSpace(gaps[0], ws[0] + rest);
    assert ws == [ws[0]] + ws[1..];
  }

  /** `s.split(c)`: the pieces between occurrences of `c`; there is always
      at least one piece, and none contains `c`. */
  function SplitOn(s: string, c: char): (parts: seq<string>)
    ensures |parts| >= 1
    ensures forall i :: 0 <= i < |parts| ==> c !in parts[i]
  {
    if s == [] then [""]
    else
      var rest := SplitOn(s[1..], c);
      if s[0] == c then [""] + rest
      else [[s[0]] + rest[0]] + rest[1..]
  }

  /** `s.split(c)` has one more piece than `s` has occurrences of `c`. */
  lemma {:induction false} SplitOnCount(s: string, c: char)
    ensures |SplitOn(s, c)| == multiset(s)[c] + 1
  {
    if s != [] {
      SplitOnCount(s[1..], c);
      assert s == [s[0]] + s[1..];
    }
  }

  /** Joining the pieces of `s.split(c)` with `c` restores `s`. */
  lemma {:induction false} JoinSplitOn(s: string, c: char)
    ensures Join(SplitOn(s, c), [c]) == s
  {
    if s != [] {
      var rest := SplitOn(s[1..], c);
      JoinSplitOn(s[1..], c);
      if s[0] == c {
        if |rest| > 1 {
          assert ([""] + rest)[1..] == rest;
        }
      } else {
        var parts := [[s[0]] + rest[0]] + rest[1..];
        if |rest| > 1 {
          assert parts[1..] == rest[1..];
          assert Join(rest, [c]) == rest[0] + [c] + Join(rest[1..], [c]);
        }
      }
    }
  }

  /** Splitting pieces that do not contain `c`, joined with `c`, gives the
      pieces back. */
  lemma {:induction false} SplitOnJoin(parts: seq<string>, c: char)
    requires parts != []
    requires forall i :: 0 <= i < |parts| ==> c !in parts[i]
    ensures SplitOn(Join(parts, [c]), c) == parts
  {
    var a := parts[0];
    if |parts| == 1 {
      SplitOnPiece(a, "", c);
      assert a + "" == a;
    } else {
      var rest := parts[1..];
      forall i | 0 <= i < |rest| ensures c !in rest[i] {
        assert rest[i] == parts[i + 1];
      }
      SplitOnJoin(rest, c);
      var t := [c] + Join(rest, [c]);
      assert Join(parts, [c]) == a + t;
      SplitOnPiece(a, t, c);
      assert t[1..] == Join(rest, [c]);
      var st := SplitOn(t, c);
      assert st == [""] + rest;
      assert st[0] == "" && st[1..] == rest;
      assert a + "" == a;
      assert parts == [a] + rest;
    }
  }

  lemma {:induction false} SplitOnPiece(a: string, t: string, c: char)
    requires c !in a
    ensures SplitOn(a + t, c) == [a + SplitOn(t, c)[0]] + SplitOn(t, c)[1..]
  {
    if a != [] {
      assert (a + t)[1..] == a[1..] + t;
      SplitOnPiece(a[1..], t, c);
      assert [a[0]] + (a[1..] + SplitOn(t, c)[0]) == a + SplitOn(t, c)[0];
    } else {
      assert a + t == t;
      assert a + SplitOn(t, c)[0] == SplitOn(t, c)[0];
    }
  }

  /** Whether `pat` occurs somewhere in `s`. */
  predicate Contains(s: string, pat: string)
    decreases |s|
  {
    |pat| <= |s| && (s[..|pat|] == pat || (s != [] && Contains(s[1..], pat)))
  }

  /** `s.replace(pat, rep)`: every non-overlapping occurrence of `pat`,
      scanning left to right, is replaced by `rep`. */
  function ReplaceAll(s: string, pat: string, rep: string): (r: string)
    requires pat != []
    ensures |rep| == |pat| ==> |r| == |s|
    ensures |rep| < |pat| ==> |r| <= |s|
    ensures |rep| > |pat| ==> |r| >= |s|
    ensures rep == pat ==> r == s
    decreases |s|
  {
    if |s| < |pat| then s
    else if s[..|pat|] == pat then rep + ReplaceAll(s[|pat|..], pat, rep)
    else [s[0]] + ReplaceAll(s[1..], pat, rep)
  }

  /** Replacing a pattern that does not occur changes nothing. */
  lemma {:induction false} ReplaceAbsent(s: string, pat: string, rep: string)
    requires pat != []
    requires !Contains(s, pat)
    ensures ReplaceAll(s, pat, rep) == s
    decreases |s|
  {
    if |s| >= |pat| {
      ReplaceAbsent(s[1..], pat, rep);
      assert s == [s[0]] + s[1..];
    }
  }

  /** A leading occurrence is replaced and scanning resumes after it. */
  lemma ReplaceLeading(pat: string, t: string, rep: string)
    requires pat != []
    ensures ReplaceAll(pat + t, pat, rep) == rep + ReplaceAll(t, pat, rep)
  {
    assert (pat + t)[..|pat|] == pat;
    assert (pat + t)[|pat|..] == t;
  }

  /** Where `pat` does not start, the first character is kept as it is. */
  lemma ReplaceMiss(s: string, pat: string, rep: string)
    requires pat != [] && s != []
    requires |s| < |pat| || s[..|pat|] != pat
    ensures ReplaceAll(s, pat, rep) == [s[0]] + ReplaceAll(s[1..], pat, rep)
  {
    if |s| < |pat| {
      assert s == [s[0]] + s[1..];
    }
  }

  /** A piece without the first character of `pat` passes through
      unchanged, and the scan carries on after it. */
  lemma {:induction false} ReplaceAfterPlain(a: string, t: string, pat: string, rep: string)
    requires pat != []
    requires forall i :: 0 <= i < |a| ==> a[i] != pat[0]
    ensures ReplaceAll(a + t, pat, rep) == a + ReplaceAll(t, pat, rep)
    decreases |a|
  {
    if a != [] {
      var s := a + t;
      assert s[0] == a[0] != pat[0];
      ReplaceMiss(s, pat, rep);
      assert s[1..] == a[1..] + t;
      ReplaceAfterPlain(a[1..], t, pat, rep);
      assert s == [a[0]] + (a[1..] + t);
      assert a == [a[0]] + a[1..];
    } else {
      assert a + t == t;
    }
  }
}

=== FILE: themes.dfy ===
/** The theme catalog (`ALL_THEMES`) and the category tables the menus and
    the command line show. A theme is a dictionary from field names to
    strings, because the renderer looks fields up by name and fails on a
    missing one. */
module Themes {
  import opened Results
  import opened Colour

  /** A theme: field name to value, as the catalog's inner dictionaries. */
  datatype Theme = Theme(fields: map<string, string>)

  /** Why rendering a banner stops: `theme[key]` on a missing key (Python's
      `KeyError`), or a colour whose hex pieces are not base-16 integers
      (`ValueError`). */
  datatype BannerError = MissingKey(key: string) | BadColour(colour: string)

  /** `theme[key]`. */
  function Lookup(t: Theme, key: string): (r: Result<string, BannerError>)
    ensures r.Ok? <==> key in t.fields
    ensures r.Ok? ==> r.value == t.fields[key]
    ensures r.Err? ==> r.error == MissingKey(key)
  {
    if key in t.fields then Ok(t.fields[key]) else Err(MissingKey(key))
  }

  /** The background types that draw a vertical gradient instead of a
      solid colour, and that skip the install card's outline. */
  predicate IsGradientType(kind: string) {
    kind == "gradient" || kind == "synthwave"
  }

  /** The fields the renderer looks up, besides the background ones. */
  const ColourFields: seq<string> := ["card", "primary", "secondary", "accent", "border"]

  /** A theme the renderer can draw: a type; `bg_start` and `bg_end` for
      the gradient types and `bg` for all others; and every colour it
      decodes or paints, as `#` and six hex digits. */
  predicate RenderableTheme(t: Theme) {
    && "type" in t.fields
    && (IsGradientType(t.fields["type"]) ==>
          && "bg_start" in t.fields && WellFormedHex(t.fields["bg_start"])
          && "bg_end" in t.fields && WellFormedHex(t.fields["bg_end"]))
    && (!IsGradientType(t.fields["type"]) ==> "bg" in t.fields && WellFormedHex(t.fields["bg"]))
    && (forall f :: f in ColourFields ==> f in t.fields && WellFormedHex(t.fields[f]))
  }

  /** The menus also print each theme's name and description. */
  predicate Described(t: Theme) {
    "name" in t.fields && "description" in t.fields
  }

  function SolidTheme(name: string, description: string, kind: string, bg: string,
                      card: string, primary: string, secondary: string, accent: string, border: string): Theme
  {
    Theme(map["name" := name, "description" := description, "type" := kind, "bg" := bg,
              "card" := card, "primary" := primary, "secondary" := secondary,
              "accent" := accent, "border" := border])
  }

  function GradientTheme(name: string, description: string, kind: string, bgStart: string, bgEnd: string,
                         card: string, primary: string, secondary: string, accent: string, border: string): Theme
  {
    Theme(map["name" := name, "description" := description, "type" := kind,
              "bg_start" := bgStart, "bg_end" := bgEnd,
              "card" := card, "primary" := primary, "secondary" := secondary,
              "accent" := accent, "border" := border])
  }

  /** `ALL_THEMES`. */
  const AllThemes: map<string, Theme> := map[
    "1" := ProfessionalLight,
    "2" := ProfessionalDark,
    "3" := MinimalClean,
    "4" := MinimalDark,
    "5" := GradientBlue,
    "6" := GradientPurple,
    "7" := GradientSunset,
    "8" := GradientOcean,
    "9" := ModernGlassmorphism,
    "10" := NeonCyber,
    "11" := MaterialDesign,
    "12" := RetroSynthwave
  ]

  const ProfessionalLight: Theme := SolidTheme("professional_light", "Clean white background - Corporate style", "professional",
      "#ffffff", "#f8fafc", "#1e293b", "#64748b", "#3b82f6", "#e2e8f0")
  const ProfessionalDark: Theme := SolidTheme("professional_dark", "Dark slate background - Modern tech style", "professional",
      "#0f172a", "#1e293b", "#f1f5f9", "#cbd5e1", "#60a5fa", "#334155")
  const MinimalClean: Theme := SolidTheme("minimal_clean", "Ultra-minimal white - Very clean", "minimal",
      "#ffffff", "#f9fafb", "#1f2937", "#6b7280", "#10b981", "#e5e7eb")
  const MinimalDark: Theme := SolidTheme("minimal_dark", "Ultra-minimal dark - Sophisticated", "minimal",
      "#111827", "#1f2937", "#f9fafb", "#d1d5db", "#60a5fa", "#374151")
  const GradientBlue: Theme := GradientTheme("gradient_blue", "Blue gradient background - Dynamic", "gradient",
      "#667eea", "#764ba2", "#1e293b", "#ffffff", "#f1f5f9", "#60a5fa", "#334155")
  const GradientPurple: Theme := GradientTheme("gradient_purple", "Purple gradient background - Creative", "gradient",
      "#a8edea", "#fed6e3", "#f3f4f6", "#1f2937", "#374151", "#8b5cf6", "#d1d5db")
  const GradientSunset: Theme := GradientTheme("gradient_sunset", "Sunset gradient background - Warm", "gradient",
      "#fa709a", "#fee140", "#1f2937", "#ffffff", "#fef7ff", "#f59e0b", "#374151")
  const GradientOcean: Theme := GradientTheme("gradient_ocean", "Ocean gradient background - Cool", "gradient",
      "#4facfe", "#00f2fe", "#134e4a", "#ffffff", "#f0fdfa", "#06b6d4", "#0f766e")
  const ModernGlassmorphism: Theme := SolidTheme("modern_glassmorphism", "Glassmorphism effect with blur - Trendy", "glassmorphism",
      "#0f172a", "#1e293b", "#ffffff", "#cbd5e1", "#06d6a0", "#334155")
  const NeonCyber: Theme := SolidTheme("neon_cyber", "Neon cyberpunk style - Electric", "neon",
      "#0a0a0a", "#1a1a1a", "#00ff41", "#39ff14", "#ff0080", "#00ff41")
  const MaterialDesign: Theme := SolidTheme("material_design", "Material Design inspired - Google style", "material",
      "#fafafa", "#ffffff", "#212121", "#757575", "#2196f3", "#e0e0e0")
  const RetroSynthwave: Theme := GradientTheme("retro_synthwave", "Retro synthwave aesthetic - 80s vibes", "synthwave",
      "#ff006e", "#8338ec", "#3a0ca3", "#ffffff", "#ffeedd", "#ffbe0b", "#7209b7")

  /** The catalog's keys in definition order, which is also the order of
      "all themes" and of the command line's `--theme` choices. */
  const ThemeOrder: seq<string> := ["1", "2", "3", "4", "5", "6", "7", "8", "9", "10", "11", "12"]

  /** The `--theme` choices of the command line. */
  const ThemeChoices: seq<string> := ["1", "2", "3", "4", "5", "6", "7", "8", "9", "10", "11", "12"]

  /** The category table of the single-theme menu. */
  const SingleMenuCategories: seq<(string, seq<string>)> := [
    ("Professional", ["1", "2"]),
    ("Minimal", ["3", "4"]),
    ("Gradient", ["5", "6", "7", "8"]),
    ("Modern", ["9", "10", "11", "12"])
  ]

  /** An entry of the category menu. */
  datatype Category = Category(name: string, themes: seq<string>, description: string)

  /** The category menu: choice to category. */
  const CategoryMenu: seq<(string, Category)> := [
    ("1", Category("Professional", ["1", "2"], "Corporate and business styles")),
    ("2", Category("Minimal", ["3", "4"], "Clean and simple designs")),
    ("3", Category("Gradient", ["5", "6", "7", "8"], "Colorful gradient backgrounds")),
    ("4", Category("Modern", ["9", "10", "11", "12"], "Trendy and experimental styles"))
  ]

  /** The category table of the command line's theme listing. */
  const ListingCategories: seq<(string, seq<string>)> := [
    ("Professional", ["1", "2"]),
    ("Minimal", ["3", "4"]),
    ("Gradient", ["5", "6", "7", "8"]),
    ("Modern", ["9", "10", "11", "12"])
  ]

  /** The keys of a category table, category after category. */
  function TableKeys(table: seq<(string, seq<string>)>): (ks: seq<string>)
    ensures forall k :: k in ks <==> exists i :: 0 <= i < |table| && k in table[i].1
  {
    if table == [] then []
    else
      var rest := TableKeys(table[1..]);
      assert forall i :: 0 < i < |table| ==> table[i] == table[1..][i - 1];
      assert forall i :: 0 <= i < |table| - 1 ==> table[1..][i] == table[i + 1];
      table[0].1 + rest
  }

  /** The category menu seen as a table of names and keys. */
  function MenuTable(menu: seq<(string, Category)>): (table: seq<(string, seq<string>)>)
    ensures |table| == |menu|
    ensures forall i :: 0 <= i < |menu| ==> table[i] == (menu[i].1.name, menu[i].1.themes)
  {
    seq(|menu|, (i: int) requires 0 <= i < |menu| => (menu[i].1.name, menu[i].1.themes))
  }

  /** The mode that generates every theme: the catalog's keys in order. */
  function SelectAll(): (ks: seq<string>)
    ensures forall k :: k in ks <==> k in AllThemes
    ensures forall i, j :: 0 <= i < j < |ks| ==> ks[i] != ks[j]
  {
    ThemeOrder
  }

  /** The single-theme menu: a choice (already stripped) that is a catalog
      key selects that theme; anything else is refused and asked again. */
  function SelectSingle(choice: string): (r: Option<seq<string>>)
    ensures r.Some? <==> choice in AllThemes
    ensures r.Some? ==> r.value == [choice]
  {
    if choice in AllThemes then Some([choice]) else None
  }

  /** The category menu: a choice that names a category selects its
      themes; anything else is refused and asked again. */
  function SelectCategory(choice: string): (r: Option<seq<string>>)
    ensures r.Some? <==> exists i :: 0 <= i < |CategoryMenu| && CategoryMenu[i].0 == choice
    ensures r.Some? ==> r.value != [] && forall k :: k in r.value ==> k in AllThemes
    ensures forall i :: 0 <= i < |CategoryMenu| && CategoryMenu[i].0 == choice ==>
      r == Some(CategoryMenu[i].1.themes)
  {
    assert CategoryMenu[0].0 == "1" && CategoryMenu[1].0 == "2";
    assert CategoryMenu[2].0 == "3" && CategoryMenu[3].0 == "4" && |CategoryMenu| == 4;
    if choice == "1" then Some(CategoryMenu[0].1.themes)
    else if choice == "2" then Some(CategoryMenu[1].1.themes)
    else if choice == "3" then Some(CategoryMenu[2].1.themes)
    else if choice == "4" then Some(CategoryMenu[3].1.themes)
    else None
  }

  /** The three category tables list the same categories with the same
      keys in the same order, and the category menu is keyed "1" to "4". */
  lemma CategoryTablesAgree()
    ensures SingleMenuCategories == ListingCategories == MenuTable(CategoryMenu)
    ensures forall i :: 0 <= i < |CategoryMenu| ==> CategoryMenu[i].0 == ThemeOrder[i]
  {
  }

  /** The catalog's keys are the keys in definition order. */
  lemma CatalogKeys()
    ensures forall k :: k in AllThemes <==> k in ThemeOrder
  {
  }

  /** The categories partition the catalog: read in order, their keys are
      the catalog's keys in order, each exactly once. */
  lemma CategoriesPartitionCatalog()
    ensures TableKeys(SingleMenuCategories) == ThemeOrder == ThemeChoices
    ensures forall k :: k in ThemeOrder <==> k in AllThemes
    ensures forall i, j :: 0 <= i < j < |ThemeOrder| ==> ThemeOrder[i] != ThemeOrder[j]
  {
    var t := SingleMenuCategories;
    assert TableKeys(t[3..]) == t[3].1;
    assert TableKeys(t[2..]) == t[2].1 + t[3].1;
    assert TableKeys(t[1..]) == t[1].1 + t[2].1 + t[3].1;
    CatalogKeys();
  }

  /** Every catalog key lies in one of the four categories. */
  lemma KeyInCategories(k: string)
    requires k in AllThemes
    ensures var t := SingleMenuCategories; k in t[0].1 || k in t[1].1 || k in t[2].1 || k in t[3].1
  {
    var t := SingleMenuCategories;
    CatalogKeys();
    assert ThemeOrder == t[0].1 + t[1].1 + t[2].1 + t[3].1;
  }

  /** Each theme lies in exactly one category. */
  lemma CategoryOfTheme(k: string)
    requires k in AllThemes
    ensures exists i :: 0 <= i < |SingleMenuCategories| && k in SingleMenuCategories[i].1
    ensures forall i, j :: 0 <= i < j < |SingleMenuCategories| ==>
      !(k in SingleMenuCategories[i].1 && k in SingleMenuCategories[j].1)
  {
    KeyInCategories(k);
    CategoriesDisjoint();
  }

  /** No key is in two categories. */
  lemma CategoriesDisjoint()
    ensures forall k, i, j :: 0 <= i < j < |SingleMenuCategories| && k in SingleMenuCategories[i].1 ==>
      k !in SingleMenuCategories[j].1
  {
  }

  /** Every catalog theme is renderable and described. */
  lemma CatalogRenderable(k: string)
    requires k in AllThemes
    ensures RenderableTheme(AllThemes[k]) && Described(AllThemes[k])
  {
    var cats := SingleMenuCategories;
    if k in cats[0].1 {
      ProfessionalThemes(k);
    } else if k in cats[1].1 {
      MinimalThemes(k);
    } else if k in cats[2].1 {
      GradientThemes(k);
    } else {
      KeyInCategories(k);
      ModernThemes(k);
    }
  }

  /** The "Gradient" category holds exactly the themes of type gradient;
      the synthwave theme, also drawn as a gradient, is filed under
      "Modern". */
  lemma GradientCategory(k: string)
    requires k in AllThemes
    ensures "type" in AllThemes[k].fields
    ensures k in SingleMenuCategories[2].1 <==> AllThemes[k].fields["type"] == "gradient"
  {
    var cats := SingleMenuCategories;
    if k in cats[2].1 {
      GradientThemes(k);
    } else {
      KeyInCategories(k);
      if k in cats[0].1 {
        ProfessionalThemes(k);
      } else if k in cats[1].1 {
        MinimalThemes(k);
      } else {
        ModernThemes(k);
      }
    }
  }

  /** The "Professional" themes are renderable and described, and none is of type gradient. */
  lemma ProfessionalThemes(k: string)
    requires k in SingleMenuCategories[0].1
    ensures k in AllThemes && RenderableTheme(AllThemes[k]) && Described(AllThemes[k])
    ensures AllThemes[k].fields["type"] != "gradient"
  {
    if k == "1" {
      CatalogEntry1();
    } else {
      CatalogEntry2();
    }
  }

  /** The "Minimal" themes are renderable and described, and none is of type gradient. */
  lemma MinimalThemes(k: string)
    requires k in SingleMenuCategories[1].1
    ensures k in AllThemes && RenderableTheme(AllThemes[k]) && Described(AllThemes[k])
    ensures AllThemes[k].fields["type"] != "gradient"
  {
    if k == "3" {
      CatalogEntry3();
    } else {
      CatalogEntry4();
    }
  }

  /** The "Gradient" themes are renderable and described, and of type gradient. */
  lemma GradientThemes(k: string)
    requires k in SingleMenuCategories[2].1
    ensures k in AllThemes && RenderableTheme(AllThemes[k]) && Described(AllThemes[k])
    ensures AllThemes[k].fields["type"] == "gradient"
  {
    if k == "5" {
      CatalogEntry5();
    } else if k == "6" {
      CatalogEntry6();
    } else if k == "7" {
      CatalogEntry7();
    } else {
      CatalogEntry8();
    }
  }

  /** The "Modern" themes are renderable and described, and none is of type gradient. */
  lemma ModernThemes(k: string)
    requires k in SingleMenuCategories[3].1
    ensures k in AllThemes && RenderableTheme(AllThemes[k]) && Described(AllThemes[k])
    ensures AllThemes[k].fields["type"] != "gradient"
  {
    if k == "9" {
      CatalogEntry9();
    } else if k == "10" {
      CatalogEntry10();
    } else if k == "11" {
      CatalogEntry11();
    } else {
      CatalogEntry12();
    }
  }

  lemma CatalogEntry1()
    ensures "1" in AllThemes
    ensures var t := AllThemes["1"]; RenderableTheme(t) && Described(t) && t.fields["type"] == "professional"
  {
    assert AllThemes["1"] == ProfessionalLight;
    ProfessionalLightRenderable();
  }

  lemma CatalogEntry2()
    ensures "2" in AllThemes
    ensures var t := AllThemes["2"]; RenderableTheme(t) && Described(t) && t.fields["type"] == "professional"
  {
    assert AllThemes["2"] == ProfessionalDark;
    ProfessionalDarkRenderable();
  }

  lemma CatalogEntry3()
    ensures "3" in AllThemes
    ensures var t := AllThemes["3"]; RenderableTheme(t) && Described(t) && t.fields["type"] == "minimal"
  {
    assert AllThemes["3"] == MinimalClean;
    MinimalCleanRenderable();
  }

  lemma CatalogEntry4()
    ensures "4" in AllThemes
    ensures var t := AllThemes["4"]; RenderableTheme(t) && Described(t) && t.fields["type"] == "minimal"
  {
    assert AllThemes["4"] == MinimalDark;
    MinimalDarkRenderable();
  }

  lemma CatalogEntry5()
    ensures "5" in AllThemes
    ensures var t := AllThemes["5"]; RenderableTheme(t) && Described(t) && t.fields["type"] == "gradient"
  {
    assert AllThemes["5"] == GradientBlue;
    GradientBlueRenderable();
  }

  lemma CatalogEntry6()
    ensures "6" in AllThemes
    ensures var t := AllThemes["6"]; RenderableTheme(t) && Described(t) && t.fields["type"] == "gradient"
  {
    assert AllThemes["6"] == GradientPurple;
    GradientPurpleRenderable();
  }

  lemma CatalogEntry7()
    ensures "7" in AllThemes
    ensures var t := AllThemes["7"]; RenderableTheme(t) && Described(t) && t.fields["type"] == "gradient"
  {
    assert AllThemes["7"] == GradientSunset;
    GradientSunsetRenderable();
  }

  lemma CatalogEntry8()
    ensures "8" in AllThemes
    ensures var t := AllThemes["8"]; RenderableTheme(t) && Described(t) && t.fields["type"] == "gradient"
  {
    assert AllThemes["8"] == GradientOcean;
    GradientOceanRenderable();
  }

  lemma CatalogEntry9()
    ensures "9" in AllThemes
    ensures var t := AllThemes["9"]; RenderableTheme(t) && Described(t) && t.fields["type"] == "glassmorphism"
  {
    assert AllThemes["9"] == ModernGlassmorphism;
    ModernGlassmorphismRenderable();
  }

  lemma CatalogEntry10()
    ensures "10" in AllThemes
    ensures var t := AllThemes["10"]; RenderableTheme(t) && Described(t) && t.fields["type"] == "neon"
  {
    assert AllThemes["10"] == NeonCyber;
    NeonCyberRenderable();
  }

  lemma CatalogEntry11()
    ensures "11" in AllThemes
    ensures var t := AllThemes["11"]; RenderableTheme(t) && Described(t) && t.fields["type"] == "material"
  {
    assert AllThemes["11"] == MaterialDesign;
    MaterialDesignRenderable();
  }

  lemma CatalogEntry12()
    ensures "12" in AllThemes
    ensures var t := AllThemes["12"]; RenderableTheme(t) && Described(t) && t.fields["type"] == "synthwave"
  {
    assert AllThemes["12"] == RetroSynthwave;
    RetroSynthwaveRenderable();
  }

  lemma ProfessionalLightRenderable()
    ensures RenderableTheme(ProfessionalLight) && Described(ProfessionalLight) && ProfessionalLight.fields["type"] == "professional"
  {
    SolidRenderable("professional_light", "Clean white background - Corporate style", "professional", "#ffffff", "#f8fafc", "#1e293b", "#64748b", "#3b82f6", "#e2e8f0");
  }

  lemma ProfessionalDarkRenderable()
    ensures RenderableTheme(ProfessionalDark) && Described(ProfessionalDark) && ProfessionalDark.fields["type"] == "professional"
  {
    SolidRenderable("professional_dark", "Dark slate background - Modern tech style", "professional", "#0f172a", "#1e293b", "#f1f5f9", "#cbd5e1", "#60a5fa", "#334155");
  }

  lemma MinimalCleanRenderable()
    ensures RenderableTheme(MinimalClean) && Described(MinimalClean) && MinimalClean.fields["type"] == "minimal"
  {
    SolidRenderable("minimal_clean", "Ultra-minimal white - Very clean", "minimal", "#ffffff", "#f9fafb", "#1f2937", "#6b7280", "#10b981", "#e5e7eb");
  }

  lemma MinimalDarkRenderable()
    ensures RenderableTheme(MinimalDark) && Described(MinimalDark) && MinimalDark.fields["type"] == "minimal"
  {
    SolidRenderable("minimal_dark", "Ultra-minimal dark - Sophisticated", "minimal", "#111827", "#1f2937", "#f9fafb", "#d1d5db", "#60a5fa", "#374151");
  }

  lemma GradientBlueRenderable()
    ensures RenderableTheme(GradientBlue) && Described(GradientBlue) && GradientBlue.fields["type"] == "gradient"
  {
    GradientRenderable("gradient_blue", "Blue gradient background - Dynamic", "gradient", "#667eea", "#764ba2", "#1e293b", "#ffffff", "#f1f5f9", "#60a5fa", "#334155");
  }

  lemma GradientPurpleRenderable()
    ensures RenderableTheme(GradientPurple) && Described(GradientPurple) && GradientPurple.fields["type"] == "gradient"
  {
    GradientRenderable("gradient_purple", "Purple gradient background - Creative", "gradient", "#a8edea", "#fed6e3", "#f3f4f6", "#1f2937", "#374151", "#8b5cf6", "#d1d5db");
  }

  lemma GradientSunsetRenderable()
    ensures RenderableTheme(GradientSunset) && Described(GradientSunset) && GradientSunset.fields["type"] == "gradient"
  {
    GradientRenderable("gradient_sunset", "Sunset gradient background - Warm", "gradient", "#fa709a", "#fee140", "#1f2937", "#ffffff", "#fef7ff", "#f59e0b", "#374151");
  }

  lemma GradientOceanRenderable()
    ensures RenderableTheme(GradientOcean) && Described(GradientOcean) && GradientOcean.fields["type"] == "gradient"
  {
    GradientRenderable("gradient_ocean", "Ocean gradient background - Cool", "gradient", "#4facfe", "#00f2fe", "#134e4a", "#ffffff", "#f0fdfa", "#06b6d4", "#0f766e");
  }

  lemma ModernGlassmorphismRenderable()
    ensures RenderableTheme(ModernGlassmorphism) && Described(ModernGlassmorphism) && ModernGlassmorphism.fields["type"] == "glassmorphism"
  {
    SolidRenderable("modern_glassmorphism", "Glassmorphism effect with blur - Trendy", "glassmorphism", "#0f172a", "#1e293b", "#ffffff", "#cbd5e1", "#06d6a0", "#334155");
  }

  lemma NeonCyberRenderable()
    ensures RenderableTheme(NeonCyber) && Described(NeonCyber) && NeonCyber.fields["type"] == "neon"
  {
    SolidRenderable("neon_cyber", "Neon cyberpunk style - Electric", "neon", "#0a0a0a", "#1a1a1a", "#00ff41", "#39ff14", "#ff0080", "#00ff41");
  }

  lemma MaterialDesignRenderable()
    ensures RenderableTheme(MaterialDesign) && Described(MaterialDesign) && MaterialDesign.fields["type"] == "material"
  {
    SolidRenderable("material_design", "Material Design inspired - Google style", "material", "#fafafa", "#ffffff", "#212121", "#757575", "#2196f3", "#e0e0e0");
  }

  lemma RetroSynthwaveRenderable()
    ensures RenderableTheme(RetroSynthwave) && Described(RetroSynthwave) && RetroSynthwave.fields["type"] == "synthwave"
  {
    GradientRenderable("retro_synthwave", "Retro synthwave aesthetic - 80s vibes", "synthwave", "#ff006e", "#8338ec", "#3a0ca3", "#ffffff", "#ffeedd", "#ffbe0b", "#7209b7");
  }

  lemma SolidRenderable(name: string, description: string, kind: string, bg: string,
                        card: string, primary: string, secondary: string, accent: string, border: string)
    requires !IsGradientType(kind)
    requires WellFormedHex(bg) && WellFormedHex(card) && WellFormedHex(primary) && WellFormedHex(secondary)
    requires WellFormedHex(accent) && WellFormedHex(border)
    ensures var t := SolidTheme(name, description, kind, bg, card, primary, secondary, accent, border);
      RenderableTheme(t) && Described(t) && t.fields["type"] == kind
  {
    var t := SolidTheme(name, description, kind, bg, card, primary, secondary, accent, border);
    assert t.fields["type"] == kind && t.fields["bg"] == bg;
    forall f | f in ColourFields ensures f in t.fields && WellFormedHex(t.fields[f]) {
    }
  }

  lemma GradientRenderable(name: string, description: string, kind: string, bgStart: string, bgEnd: string,
                           card: string, primary: string, secondary: string, accent: string, border: string)
    requires IsGradientType(kind)
    requires WellFormedHex(bgStart) && WellFormedHex(bgEnd)
    requires WellFormedHex(card) && WellFormedHex(primary) && WellFormedHex(secondary)
    requires WellFormedHex(accent) && WellFormedHex(border)
    ensures var t := GradientTheme(name, description, kind, bgStart, bgEnd, card, primary, secondary, accent, border);
      RenderableTheme(t) && Described(t) && t.fields["type"] == kind
  {
    var t := GradientTheme(name, description, kind, bgStart, bgEnd, card, primary, secondary, accent, border);
    assert t.fields["type"] == kind && t.fields["bg_start"] == bgStart && t.fields["bg_end"] == bgEnd;
    forall f | f in ColourFields ensures f in t.fields && WellFormedHex(t.fields[f]) {
    }
  }
}

=== FILE: wrap.dfy ===
/** Greedy word wrapping of the package summary (`_wrap_text`). The
    rendered width of a string is an abstract function `measure`, standing
    for the drawing library's text measurement under the description font. */
module Wrap {
  import opened Strings

  /** The loop state: the lines committed so far, and the pending line text,
      which is empty or holds the pending words each followed by a space. */
  datatype WrapState = WrapState(lines: seq<string>, current: string)

  /** The rendered width of `s`. Every use of `measure` goes through this
      one function. */
  function Width(measure: string -> int, s: string): int {
    measure(s)
  }

  /** One iteration of the loop for `word`: the candidate line is the
      pending text plus the word, stripped; if it fits, the word joins the
      pending line, otherwise a non-empty pending line is committed and the
      word starts a new one. */
  function WrapStep(st: WrapState, word: string, measure: string -> int, maxWidth: int): (r: WrapState)
    ensures |st.lines| <= |r.lines| <= |st.lines| + 1 && r.lines[..|st.lines|] == st.lines
    ensures |r.lines| > |st.lines| ==>
      st.current != "" && r.lines[|st.lines|] == Strip(st.current) && r.current == word + " "
    ensures EndsWith(r.current, word + " ")
  {
    var candidate := Strip(st.current + word + " ");
    if Width(measure, candidate) <= maxWidth then WrapState(st.lines, st.current + word + " ")
    else WrapState(if st.current != "" then st.lines + [Strip(st.current)] else st.lines, word + " ")
  }

  /** The loop over `words`, in order. */
  function WrapLoop(words: seq<string>, measure: string -> int, maxWidth: int): (r: WrapState)
    ensures r.current == "" <==> words == []
    ensures words == [] ==> r.lines == []
  {
    if words == [] then WrapState([], "")
    else WrapStep(WrapLoop(words[..|words| - 1], measure, maxWidth), words[|words| - 1], measure, maxWidth)
  }

  /** Once the loop has seen a word, fewer lines are committed than words
      were read: the last word is always still pending. */
  lemma {:induction false} WrapLoopLines(words: seq<string>, measure: string -> int, maxWidth: int)
    requires words != []
    ensures |WrapLoop(words, measure, maxWidth).lines| < |words|
  {
    var prefix := words[..|words| - 1];
    var st := WrapLoop(prefix, measure, maxWidth);
    if prefix != [] {
      WrapLoopLines(prefix, measure, maxWidth);
    }
    WrapLoopLast(words, measure, maxWidth);
    var r := WrapStep(st, words[|words| - 1], measure, maxWidth);
    assert |r.lines| <= |st.lines| + 1;
    assert |r.lines| > |st.lines| ==> st.current != "";
  }

  /** The pending text after the loop ends with the last word read and a
      space. */
  lemma {:induction false} WrapLoopPending(words: seq<string>, measure: string -> int, maxWidth: int)
    requires words != []
    ensures EndsWith(WrapLoop(words, measure, maxWidth).current, words[|words| - 1] + " ")
  {
    WrapLoopLast(words, measure, maxWidth);
  }

  lemma {:induction false} WrapLoopLast(words: seq<string>, measure: string -> int, maxWidth: int)
    requires words != []
    ensures WrapLoop(words, measure, maxWidth)
         == WrapStep(WrapLoop(words[..|words| - 1], measure, maxWidth), words[|words| - 1], measure, maxWidth)
  {
  }

  /** `s` ends with `t`. */
  predicate EndsWith(s: string, t: string) {
    |t| <= |s| && s[|s| - |t|..] == t
  }

  /** The words of each line. */
  function LineWords(lines: seq<string>): (ws: seq<seq<string>>)
    ensures |ws| == |lines|
    ensures forall i :: 0 <= i < |lines| ==> ws[i] == Words(lines[i])
  {
    seq(|lines|, (i: int) requires 0 <= i < |lines| => Words(lines[i]))
  }

  /** `_wrap_text(text, font, max_width, draw)`: the loop over the words
      of `text`, then the pending line, stripped, if there is one. */
  function WrapText(text: string, measure: string -> int, maxWidth: int): (lines: seq<string>)
    ensures lines == [] <==> AllSpace(text)
  {
    var st := WrapLoop(Words(text), measure, maxWidth);
    WrapTextIsGrouping(text, measure, maxWidth, st);
    WordsEmptyIff(text);
    if st.current != "" then st.lines + [Strip(st.current)] else st.lines
  }

  /** The string loop computes the lines of the word-group loop. */
  lemma WrapTextIsGrouping(text: string, measure: string -> int, maxWidth: int, st: WrapState)
    requires st == WrapLoop(Words(text), measure, maxWidth)
    ensures var g := GroupLoop(Words(text), measure, maxWidth);
      && (if st.current != "" then st.lines + [Strip(st.current)] else st.lines) == JoinAll(Close(g))
      && (g.pending == [] <==> Words(text) == [])
      && (Words(text) == [] ==> g.done == [])
  {
    var words := Words(text);
    WrapLoopSimulates(words, measure, maxWidth);
    GroupLoopValid(words, measure, maxWidth);
    CloseLines(GroupLoop(words, measure, maxWidth));
  }

  /** Whitespace-only text gives no lines. Otherwise every line is its
      words separated by single spaces, and the lines' words, read in order,
      are exactly the words of the text; the lines form a valid grouping
      (see `ValidGrouping`), which `GreedyGroupingUnique` shows to be the
      only one. In particular a line wider than `maxWidth` holds a single
      word. */
  lemma WrapTextLines(text: string, measure: string -> int, maxWidth: int)
    ensures var lines := WrapText(text, measure, maxWidth);
      && (forall i :: 0 <= i < |lines| ==> lines[i] != "" && lines[i] == Join(Words(lines[i]), " "))
      && ValidGrouping(LineWords(lines), Words(text), measure, maxWidth)
      && (forall i :: 0 <= i < |lines| && Width(measure, lines[i]) > maxWidth ==> |Words(lines[i])| == 1)
  {
    var words := Words(text);
    WrapTextIsGrouping(text, measure, maxWidth, WrapLoop(words, measure, maxWidth));
    GroupLoopValid(words, measure, maxWidth);
    var gs := Close(GroupLoop(words, measure, maxWidth));
    assert WrapText(text, measure, maxWidth) == JoinAll(gs);
    GroupingLines(gs, words, measure, maxWidth);
  }

  /** The lines of a valid grouping of words: each is its words
      single-spaced, reading them back gives the grouping, and a line too
      wide holds one word. */
  lemma GroupingLines(gs: seq<seq<string>>, words: seq<string>, measure: string -> int, maxWidth: int)
    requires ValidGrouping(gs, words, measure, maxWidth)
    requires forall i :: 0 <= i < |gs| ==> AllWords(gs[i])
    ensures var lines := JoinAll(gs);
      && (forall i :: 0 <= i < |lines| ==> lines[i] != "" && lines[i] == Join(Words(lines[i]), " "))
      && ValidGrouping(LineWords(lines), words, measure, maxWidth)
      && (forall i :: 0 <= i < |lines| && Width(measure, lines[i]) > maxWidth ==> |Words(lines[i])| == 1)
  {
    var lines := JoinAll(gs);
    JoinAllWords(gs);
    forall i | 0 <= i < |lines| && Width(measure, lines[i]) > maxWidth
      ensures |Words(lines[i])| == 1
    {
      WideGroupSingle(gs[i], measure, maxWidth);
    }
  }

  /** A group that measured too wide as a whole has only one word, since
      every longer group was measured and fit. */
  lemma WideGroupSingle(g: seq<string>, measure: string -> int, maxWidth: int)
    requires g != [] && PrefixesFit(g, measure, maxWidth)
    requires Width(measure, Join(g, " ")) > maxWidth
    ensures |g| == 1
  {
    if |g| >= 2 {
      FullPrefix(g);
      assert false;
    }
  }

  lemma FullPrefix(g: seq<string>)
    ensures PrefixLine(g, |g|) == Join(g, " ")
  {
    assert g[..|g|] == g;
  }

  // ----- the abstract view: groups of words -----

  /** The words in order, group after group. */
  function Flatten(gs: seq<seq<string>>): seq<string> {
    if gs == [] then [] else gs[0] + Flatten(gs[1..])
  }

  /** Non-empty groups flatten to nothing only when there are none. */
  lemma FlattenEmpty(gs: seq<seq<string>>)
    requires forall i :: 0 <= i < |gs| ==> gs[i] != []
    ensures Flatten(gs) == [] <==> gs == []
  {
    if gs != [] {
      assert |Flatten(gs)| >= |gs[0]|;
    }
  }

  lemma FlattenSnoc(gs: seq<seq<string>>, g: seq<string>)
    ensures Flatten(gs + [g]) == Flatten(gs) + g
  {
    if gs != [] {
      assert (gs + [g])[1..] == gs[1..] + [g];
      FlattenSnoc(gs[1..], g);
    }
  }

  /** Every prefix of two or more words of the group was measured and fit. */
  ghost predicate PrefixesFit(g: seq<string>, measure: string -> int, maxWidth: int) {
    forall j :: 2 <= j <= |g| ==> Width(measure, PrefixLine(g, j)) <= maxWidth
  }

  /** The first `j` words of a group, single-spaced. */
  function PrefixLine(g: seq<string>, j: int): string
    requires 0 <= j <= |g|
  {
    Join(g[..j], " ")
  }

  /** Adding `next` to the group was measured and did not fit. */
  predicate Overflows(g: seq<string>, next: string, measure: string -> int, maxWidth: int) {
    Width(measure, Join(g + [next], " ")) > maxWidth
  }

  /** A grouping of `words` into lines the greedy rule allows: no word is
      lost, duplicated or split; no group is empty; each group grew only
      while its measured width stayed within `maxWidth`; and each group
      ended because its next word would not fit. */
  ghost predicate ValidGrouping(gs: seq<seq<string>>, words: seq<string>, measure: string -> int, maxWidth: int) {
    && Flatten(gs) == words
    && (forall i :: 0 <= i < |gs| ==> gs[i] != [] && PrefixesFit(gs[i], measure, maxWidth))
    && (forall i :: 0 <= i < |gs| - 1 ==> BreaksAt(gs, i, measure, maxWidth))
  }

  /** Group `i` ended because the first word of group `i + 1` would not
      fit after it. */
  predicate BreaksAt(gs: seq<seq<string>>, i: int, measure: string -> int, maxWidth: int)
    requires 0 <= i < |gs| - 1
  {
    gs[i + 1] != [] && Overflows(gs[i], gs[i + 1][0], measure, maxWidth)
  }

  /** The loop on word groups instead of strings. */
  datatype Grouping = Grouping(done: seq<seq<string>>, pending: seq<string>)

  function GroupStep(g: Grouping, word: string, measure: string -> int, maxWidth: int): Grouping {
    if Width(measure, Join(g.pending + [word], " ")) <= maxWidth then Grouping(g.done, g.pending + [word])
    else Grouping(if g.pending != [] then g.done + [g.pending] else g.done, [word])
  }

  function GroupLoop(words: seq<string>, measure: string -> int, maxWidth: int): Grouping {
    if words == [] then Grouping([], [])
    else GroupStep(GroupLoop(words[..|words| - 1], measure, maxWidth), words[|words| - 1], measure, maxWidth)
  }

  function Close(g: Grouping): seq<seq<string>> {
    if g.pending != [] then g.done + [g.pending] else g.done
  }

  /** The text of a pending line: each word followed by one space. */
  function Spaced(ws: seq<string>): string {
    if ws == [] then "" else Join(ws, " ") + " "
  }

  function JoinAll(gs: seq<seq<string>>): (lines: seq<string>)
    ensures |lines| == |gs|
    ensures forall i :: 0 <= i < |gs| ==> lines[i] == Join(gs[i], " ")
  {
    seq(|gs|, (i: int) requires 0 <= i < |gs| => Join(gs[i], " "))
  }

  predicate AllWords(ws: seq<string>) {
    forall i :: 0 <= i < |ws| ==> IsWord(ws[i])
  }

  /** Single-spaced words start and end with a non-space character. */
  lemma JoinEnds(ws: seq<string>)
    requires ws != [] && AllWords(ws)
    ensures var t := Join(ws, " "); t != [] && !IsSpace(t[0]) && !IsSpace(t[|t| - 1])
  {
    if |ws| > 1 {
      JoinEnds(ws[1..]);
      assert IsWord(ws[0]);
      var t := Join(ws, " ");
      assert t == ws[0] + (" " + Join(ws[1..], " "));
    } else {
      assert IsWord(ws[0]);
    }
  }

  lemma StripSpaced(t: string)
    requires t != [] && !IsSpace(t[0]) && !IsSpace(t[|t| - 1])
    ensures Strip(t + " ") == t
  {
    var s := t + " ";
    assert TrimStart(s) == s;
    assert s[..|s| - 1] == t;
    assert TrimEnd(t) == t;
  }

  lemma SpacedSnoc(ws: seq<string>, w: string)
    ensures Spaced(ws) + w + " " == Spaced(ws + [w])
  {
    if ws == [] {
      assert [] + [w] == [w];
    } else {
      JoinSnoc(ws, w, " ");
    }
  }

  /** The string loop and the word-group loop run in lock step. */
  lemma {:induction false} WrapLoopSimulates(words: seq<string>, measure: string -> int, maxWidth: int)
    requires AllWords(words)
    ensures var g := GroupLoop(words, measure, maxWidth);
      WrapLoop(words, measure, maxWidth) == WrapState(JoinAll(g.done), Spaced(g.pending))
    ensures AllWords(GroupLoop(words, measure, maxWidth).pending)
  {
    if words != [] {
      var init := words[..|words| - 1];
      var w := words[|words| - 1];
      assert IsWord(w);
      assert AllWords(init) by {
        forall i | 0 <= i < |init| ensures IsWord(init[i]) {
          assert init[i] == words[i];
        }
      }
      WrapLoopSimulates(init, measure, maxWidth);
      WrapStepSimulates(WrapLoop(init, measure, maxWidth), GroupLoop(init, measure, maxWidth), w, measure, maxWidth);
    }
  }

  /** One step of each loop keeps them in lock step. */
  lemma WrapStepSimulates(st: WrapState, g: Grouping, w: string, measure: string -> int, maxWidth: int)
    requires st == WrapState(JoinAll(g.done), Spaced(g.pending))
    requires AllWords(g.pending) && IsWord(w)
    ensures var g' := GroupStep(g, w, measure, maxWidth);
      WrapStep(st, w, measure, maxWidth) == WrapState(JoinAll(g'.done), Spaced(g'.pending)) && AllWords(g'.pending)
  {
    var p' := g.pending + [w];
    StepCandidate(g.pending, w);
    if Width(measure, Join(p', " ")) > maxWidth {
      OverflowStep(st, g, w, measure, maxWidth);
    } else {
      FitStep(st, g, w, measure, maxWidth);
    }
  }

  /** The candidate line of a step is the pending words and the new word,
      single-spaced. */
  lemma StepCandidate(pending: seq<string>, w: string)
    requires AllWords(pending) && IsWord(w)
    ensures AllWords(pending + [w])
    ensures Spaced(pending) + w + " " == Spaced(pending + [w])
    ensures Strip(Spaced(pending) + w + " ") == Join(pending + [w], " ")
  {
    var p' := pending + [w];
    SpacedSnoc(pending, w);
    assert AllWords(p') by {
      forall i | 0 <= i < |p'| ensures IsWord(p'[i]) {
        if i < |pending| { assert p'[i] == pending[i]; }
      }
    }
    StripOfSpaced(p');
  }

  /** The word that fits joins the pending line. */
  lemma {:induction false} FitStep(st: WrapState, g: Grouping, w: string, measure: string -> int, maxWidth: int)
    requires st == WrapState(JoinAll(g.done), Spaced(g.pending))
    requires st.current + w + " " == Spaced(g.pending + [w])
    requires Strip(st.current + w + " ") == Join(g.pending + [w], " ")
    requires Width(measure, Join(g.pending + [w], " ")) <= maxWidth
    requires AllWords(g.pending + [w])
    ensures var g' := GroupStep(g, w, measure, maxWidth);
      WrapStep(st, w, measure, maxWidth) == WrapState(JoinAll(g'.done), Spaced(g'.pending)) && AllWords(g'.pending)
  {
    assert GroupStep(g, w, measure, maxWidth) == Grouping(g.done, g.pending + [w]);
    assert WrapStep(st, w, measure, maxWidth) == WrapState(st.lines, st.current + w + " ");
  }

  /** The word that does not fit starts the pending line afresh. */
  lemma {:induction false} OverflowStep(st: WrapState, g: Grouping, w: string, measure: string -> int, maxWidth: int)
    requires st == WrapState(JoinAll(g.done), Spaced(g.pending))
    requires AllWords(g.pending) && IsWord(w)
    requires Strip(st.current + w + " ") == Join(g.pending + [w], " ")
    requires Width(measure, Join(g.pending + [w], " ")) > maxWidth
    ensures var g' := GroupStep(g, w, measure, maxWidth);
      WrapStep(st, w, measure, maxWidth) == WrapState(JoinAll(g'.done), Spaced(g'.pending)) && AllWords(g'.pending)
  {
    assert Spaced([w]) == w + " ";
    assert AllWords([w]);
    if g.pending != [] {
      StripOfSpaced(g.pending);
      JoinAllSnoc(g.done, g.pending);
      assert |st.current| > 0 by { assert st.current == Join(g.pending, " ") + " "; }
      CommitLine(st, w, measure, maxWidth);
      CommitGroup(g, w, measure, maxWidth);
    } else {
      FreshLine(st, w, measure, maxWidth);
      FreshGroup(g, w, measure, maxWidth);
    }
  }

  /** The first word of the text always starts the pending line. */
  lemma FreshLine(st: WrapState, w: string, measure: string -> int, maxWidth: int)
    requires st.current == ""
    ensures WrapStep(st, w, measure, maxWidth) == WrapState(st.lines, w + " ")
  {
    assert st.current + w + " " == w + " ";
  }

  lemma FreshGroup(g: Grouping, w: string, measure: string -> int, maxWidth: int)
    requires g.pending == []
    ensures GroupStep(g, w, measure, maxWidth) == Grouping(g.done, [w])
  {
  }

  /** A non-empty pending line is committed, stripped, when the next word
      does not fit. */
  lemma CommitLine(st: WrapState, w: string, measure: string -> int, maxWidth: int)
    requires st.current != "" && Width(measure, Strip(st.current + w + " ")) > maxWidth
    ensures WrapStep(st, w, measure, maxWidth) == WrapState(st.lines + [Strip(st.current)], w + " ")
  {
  }

  lemma CommitGroup(g: Grouping, w: string, measure: string -> int, maxWidth: int)
    requires g.pending != [] && Width(measure, Join(g.pending + [w], " ")) > maxWidth
    ensures GroupStep(g, w, measure, maxWidth) == Grouping(g.done + [g.pending], [w])
  {
  }

  /** Stripping a pending line gives its words single-spaced. */
  lemma StripOfSpaced(ws: seq<string>)
    requires ws != [] && AllWords(ws)
    ensures Strip(Spaced(ws)) == Join(ws, " ")
  {
    JoinEnds(ws);
    StripSpaced(Join(ws, " "));
  }

  lemma JoinAllSnoc(gs: seq<seq<string>>, g: seq<string>)
    ensures JoinAll(gs + [g]) == JoinAll(gs) + [Join(g, " ")]
  {
  }

  lemma CloseLines(g: Grouping)
    requires AllWords(g.pending)
    ensures (if Spaced(g.pending) != "" then JoinAll(g.done) + [Strip(Spaced(g.pending))] else JoinAll(g.done))
            == JoinAll(Close(g))
  {
    if g.pending != [] {
      StripOfSpaced(g.pending);
      JoinAllSnoc(g.done, g.pending);
    }
  }

  /** The lines of a grouping of words give the groups back. */
  lemma JoinAllWords(gs: seq<seq<string>>)
    requires forall i :: 0 <= i < |gs| ==> gs[i] != [] && AllWords(gs[i])
    ensures LineWords(JoinAll(gs)) == gs
    ensures forall i :: 0 <= i < |gs| ==> JoinAll(gs)[i] != ""
  {
    forall i | 0 <= i < |gs| ensures Words(Join(gs[i], " ")) == gs[i] && Join(gs[i], " ") != "" {
      WordsOfJoin(gs[i]);
      JoinEnds(gs[i]);
    }
  }

  /** The grouping loop yields a valid grouping whose groups are words. */
  lemma {:induction false} GroupLoopValid(words: seq<string>, measure: string -> int, maxWidth: int)
    requires AllWords(words)
    ensures GroupInvariant(GroupLoop(words, measure, maxWidth), words, measure, maxWidth)
  {
    if words != [] {
      var init := words[..|words| - 1];
      var w := words[|words| - 1];
      assert AllWords(init) by {
        forall i | 0 <= i < |init| ensures IsWord(init[i]) {
          assert init[i] == words[i];
        }
      }
      assert words == init + [w];
      GroupLoopValid(init, measure, maxWidth);
      GroupStepValid(GroupLoop(init, measure, maxWidth), init, w, measure, maxWidth);
    }
  }

  /** What the grouping loop keeps: its closed groups are a valid grouping
      of the words read so far, each group made of words, and the pending
      group is empty only before the first word. */
  ghost predicate GroupInvariant(g: Grouping, words: seq<string>, measure: string -> int, maxWidth: int) {
    && ValidGrouping(Close(g), words, measure, maxWidth)
    && (g.pending == [] <==> words == [])
    && (words == [] ==> g.done == [])
    && (forall i :: 0 <= i < |Close(g)| ==> AllWords(Close(g)[i]))
  }

  /** One step of the grouping loop keeps its invariant. */
  lemma {:induction false} GroupStepValid(g: Grouping, words: seq<string>, w: string, measure: string -> int, maxWidth: int)
    requires GroupInvariant(g, words, measure, maxWidth) && IsWord(w)
    ensures GroupInvariant(GroupStep(g, w, measure, maxWidth), words + [w], measure, maxWidth)
  {
    if g.pending == [] {
      GroupStartValid(g, words, w, measure, maxWidth);
    } else if Width(measure, Join(g.pending + [w], " ")) <= maxWidth {
      GroupExtendValid(g, words, w, measure, maxWidth);
    } else {
      GroupBreakValid(g, words, w, measure, maxWidth);
    }
  }

  /** The first word opens the first group. */
  lemma {:induction false} GroupStartValid(g: Grouping, words: seq<string>, w: string, measure: string -> int, maxWidth: int)
    requires GroupInvariant(g, words, measure, maxWidth) && IsWord(w) && g.pending == []
    ensures GroupInvariant(GroupStep(g, w, measure, maxWidth), words + [w], measure, maxWidth)
  {
    var g' := GroupStep(g, w, measure, maxWidth);
    assert g' == Grouping([], [w]);
    assert Close(g') == [[w]];
    assert Flatten([[w]]) == [w];
  }

  /** A word that fits joins the pending group. */
  lemma {:induction false} GroupExtendValid(g: Grouping, words: seq<string>, w: string, measure: string -> int, maxWidth: int)
    requires GroupInvariant(g, words, measure, maxWidth) && IsWord(w) && g.pending != []
    requires Width(measure, Join(g.pending + [w], " ")) <= maxWidth
    ensures GroupInvariant(GroupStep(g, w, measure, maxWidth), words + [w], measure, maxWidth)
  {
    var gs := Close(g);
    var g' := GroupStep(g, w, measure, maxWidth);
    assert g' == Grouping(g.done, g.pending + [w]);
    ValidExtend(g.done, g.pending, w, words, measure, maxWidth);
    assert Close(g') == g.done + [g.pending + [w]];
    forall i | 0 <= i < |Close(g')| ensures AllWords(Close(g')[i]) {
      if i < |g.done| { assert Close(g')[i] == gs[i]; }
      else { assert gs[i] == g.pending; }
    }
  }

  /** A word that does not fit closes the pending group and opens a new one. */
  lemma {:induction false} GroupBreakValid(g: Grouping, words: seq<string>, w: string, measure: string -> int, maxWidth: int)
    requires GroupInvariant(g, words, measure, maxWidth) && IsWord(w) && g.pending != []
    requires Width(measure, Join(g.pending + [w], " ")) > maxWidth
    ensures GroupInvariant(GroupStep(g, w, measure, maxWidth), words + [w], measure, maxWidth)
  {
    var gs := Close(g);
    var g' := GroupStep(g, w, measure, maxWidth);
    assert g' == Grouping(g.done + [g.pending], [w]);
    assert Close(g') == gs + [[w]];
    ValidBreak(gs, w, words, measure, maxWidth);
    forall i | 0 <= i < |Close(g')| ensures AllWords(Close(g')[i]) {
      if i < |gs| { assert Close(g')[i] == gs[i]; }
    }
  }

  /** The pending group is empty exactly before the first word. */
  lemma GroupLoopPending(words: seq<string>, measure: string -> int, maxWidth: int)
    ensures var g := GroupLoop(words, measure, maxWidth);
      (g.pending == [] <==> words == []) && (words == [] ==> g.done == [])
  {
  }

  /** A word that fits extends the last group of a valid grouping. */
  lemma ValidExtend(done: seq<seq<string>>, pending: seq<string>, w: string, words: seq<string>,
                    measure: string -> int, maxWidth: int)
    requires pending != [] && ValidGrouping(done + [pending], words, measure, maxWidth)
    requires Width(measure, Join(pending + [w], " ")) <= maxWidth
    ensures ValidGrouping(done + [pending + [w]], words + [w], measure, maxWidth)
  {
    var gs := done + [pending];
    var p' := pending + [w];
    var gs' := done + [p'];
    FlattenSnoc(done, pending);
    FlattenSnoc(done, p');
    assert PrefixesFit(p', measure, maxWidth) by {
      assert gs[|gs| - 1] == pending;
      forall j | 2 <= j <= |p'| ensures Width(measure, PrefixLine(p', j)) <= maxWidth {
        if j <= |pending| {
          assert p'[..j] == pending[..j];
          assert PrefixLine(p', j) == PrefixLine(pending, j);
        } else {
          assert p'[..j] == p';
        }
      }
    }
    forall i | 0 <= i < |gs'| ensures gs'[i] != [] && PrefixesFit(gs'[i], measure, maxWidth) {
      if i < |done| { assert gs'[i] == gs[i]; }
    }
    forall i | 0 <= i < |gs'| - 1 ensures BreaksAt(gs', i, measure, maxWidth) {
      assert BreaksAt(gs, i, measure, maxWidth);
      assert gs'[i] == gs[i];
      if i + 1 < |done| {
        assert gs'[i + 1] == gs[i + 1];
      } else {
        assert gs'[i + 1][0] == gs[i + 1][0];
      }
    }
  }

  /** A word that does not fit after the last group starts a new group. */
  lemma ValidBreak(gs: seq<seq<string>>, w: string, words: seq<string>, measure: string -> int, maxWidth: int)
    requires gs != [] && ValidGrouping(gs, words, measure, maxWidth)
    requires Overflows(gs[|gs| - 1], w, measure, maxWidth)
    ensures ValidGrouping(gs + [[w]], words + [w], measure, maxWidth)
  {
    var gs' := gs + [[w]];
    FlattenSnoc(gs, [w]);
    assert PrefixesFit([w], measure, maxWidth);
    forall i | 0 <= i < |gs'| ensures gs'[i] != [] && PrefixesFit(gs'[i], measure, maxWidth) {
      if i < |gs| { assert gs'[i] == gs[i]; }
    }
    forall i | 0 <= i < |gs'| - 1 ensures BreaksAt(gs', i, measure, maxWidth) {
      assert gs'[i] == gs[i];
      if i + 1 < |gs| {
        assert BreaksAt(gs, i, measure, maxWidth);
        assert gs'[i + 1] == gs[i + 1];
      }
    }
  }

  /** The grouping the loop builds is the only valid one: greedy wrapping
      is fully determined by the measured widths. */
  lemma {:induction false} GreedyGroupingUnique(gs: seq<seq<string>>, words: seq<string>, measure: string -> int, maxWidth: int)
    requires ValidGrouping(gs, words, measure, maxWidth)
    ensures gs == Close(GroupLoop(words, measure, maxWidth))
    decreases |words|
  {
    FlattenEmpty(gs);
    if words != [] {
      var n := |gs|;
      var last := gs[n - 1];
      var init := words[..|words| - 1];
      if |last| == 1 {
        DropLastGroup(gs, words, measure, maxWidth);
        GreedyGroupingUnique(gs[..n - 1], init, measure, maxWidth);
        UniqueAfterGroup(gs, words, measure, maxWidth);
      } else {
        DropLastWord(gs, words, measure, maxWidth);
        GreedyGroupingUnique(gs[..n - 1] + [last[..|last| - 1]], init, measure, maxWidth);
        UniqueAfterWord(gs, words, measure, maxWidth);
      }
    }
  }

  /** The last word of a valid grouping as the last word of its last
      group. */
  lemma LastWordOfLastGroup(gs: seq<seq<string>>, words: seq<string>, measure: string -> int, maxWidth: int)
    requires ValidGrouping(gs, words, measure, maxWidth) && gs != []
    ensures var last := gs[|gs| - 1];
      && words == Flatten(gs[..|gs| - 1]) + last
      && words != [] && words[|words| - 1] == last[|last| - 1]
      && words[..|words| - 1] == Flatten(gs[..|gs| - 1]) + last[..|last| - 1]
  {
    var n := |gs|;
    var last := gs[n - 1];
    FlattenSnoc(gs[..n - 1], last);
    assert gs == gs[..n - 1] + [last];
    assert last != [];
  }

  /** A grouping with a pending group closes to its done groups and
      that group last. */
  lemma CloseSplit(g: Grouping)
    requires g.pending != []
    ensures var gs := Close(g); gs != [] && gs[|gs| - 1] == g.pending && gs[..|gs| - 1] == g.done
  {
    assert Close(g) == g.done + [g.pending];
  }

  /** Inductive step when the last group is one word: the loop over the
      earlier words built the earlier groups, and the word overflowed the
      group before it, or there was none. */
  lemma UniqueAfterGroup(gs: seq<seq<string>>, words: seq<string>, measure: string -> int, maxWidth: int)
    requires ValidGrouping(gs, words, measure, maxWidth)
    requires gs != [] && |gs[|gs| - 1]| == 1 && words != []
    requires gs[..|gs| - 1] == Close(GroupLoop(words[..|words| - 1], measure, maxWidth))
    ensures gs == Close(GroupLoop(words, measure, maxWidth))
  {
    var n := |gs|;
    var last := gs[n - 1];
    var init := words[..|words| - 1];
    var w := words[|words| - 1];
    LastWordOfLastGroup(gs, words, measure, maxWidth);
    assert last == [w];
    var g := GroupLoop(init, measure, maxWidth);
    GroupLoopPending(init, measure, maxWidth);
    assert GroupLoop(words, measure, maxWidth) == GroupStep(g, w, measure, maxWidth);
    if n > 1 {
      FlattenEmpty(gs[..n - 1]);
      assert init != [];
      CloseSplit(g);
      assert BreaksAt(gs, n - 2, measure, maxWidth);
      assert GroupStep(g, w, measure, maxWidth) == Grouping(g.done + [g.pending], [w]);
    } else {
      assert gs[..n - 1] == [];
      assert init == [];
    }
    assert gs == gs[..n - 1] + [last];
  }

  /** Inductive step when the last group has two words or more: the loop
      over the earlier words left all but its last word pending, and the
      whole group fit. */
  lemma UniqueAfterWord(gs: seq<seq<string>>, words: seq<string>, measure: string -> int, maxWidth: int)
    requires ValidGrouping(gs, words, measure, maxWidth)
    requires gs != [] && |gs[|gs| - 1]| >= 2 && words != []
    requires var last := gs[|gs| - 1];
      gs[..|gs| - 1] + [last[..|last| - 1]] == Close(GroupLoop(words[..|words| - 1], measure, maxWidth))
    ensures gs == Close(GroupLoop(words, measure, maxWidth))
  {
    var n := |gs|;
    var last := gs[n - 1];
    var short := last[..|last| - 1];
    var init := words[..|words| - 1];
    var w := words[|words| - 1];
    LastWordOfLastGroup(gs, words, measure, maxWidth);
    var g := GroupLoop(init, measure, maxWidth);
    GroupLoopPending(init, measure, maxWidth);
    assert init != [];
    CloseSplit(g);
    assert last == short + [w];
    assert last[..|last|] == last;
    assert PrefixesFit(gs[n - 1], measure, maxWidth);
    assert Width(measure, PrefixLine(last, |last|)) <= maxWidth;
    assert GroupLoop(words, measure, maxWidth) == Grouping(g.done, last);
    assert gs == gs[..n - 1] + [last];
  }

  /** Removing a last group of one word leaves a valid grouping of the
      words before it. */
  lemma DropLastGroup(gs: seq<seq<string>>, words: seq<string>, measure: string -> int, maxWidth: int)
    requires ValidGrouping(gs, words, measure, maxWidth)
    requires gs != [] && |gs[|gs| - 1]| == 1
    ensures words != [] && ValidGrouping(gs[..|gs| - 1], words[..|words| - 1], measure, maxWidth)
  {
    var n := |gs|;
    var gs' := gs[..n - 1];
    FlattenSnoc(gs', gs[n - 1]);
    assert gs == gs' + [gs[n - 1]];
    forall i | 0 <= i < |gs'| - 1
      ensures BreaksAt(gs', i, measure, maxWidth)
    {
      assert BreaksAt(gs, i, measure, maxWidth);
      assert gs'[i] == gs[i] && gs'[i + 1] == gs[i + 1];
    }
  }

  /** Removing the last word of a last group of two or more words leaves a
      valid grouping of the words before it. */
  lemma DropLastWord(gs: seq<seq<string>>, words: seq<string>, measure: string -> int, maxWidth: int)
    requires ValidGrouping(gs, words, measure, maxWidth)
    requires gs != [] && |gs[|gs| - 1]| >= 2
    ensures var last := gs[|gs| - 1];
      && words != []
      && ValidGrouping(gs[..|gs| - 1] + [last[..|last| - 1]], words[..|words| - 1], measure, maxWidth)
  {
    var n := |gs|;
    var last := gs[n - 1];
    var short := last[..|last| - 1];
    var gs' := gs[..n - 1] + [short];
    LastWordOfLastGroup(gs, words, measure, maxWidth);
    FlattenSnoc(gs[..n - 1], short);
    ShortenedFits(last, measure, maxWidth);
    forall i | 0 <= i < |gs'|
      ensures gs'[i] != [] && PrefixesFit(gs'[i], measure, maxWidth)
    {
      if i < n - 1 {
        assert gs'[i] == gs[i];
      }
    }
    forall i | 0 <= i < |gs'| - 1
      ensures BreaksAt(gs', i, measure, maxWidth)
    {
      assert BreaksAt(gs, i, measure, maxWidth);
      assert gs'[i] == gs[i];
      if i + 1 == n - 1 {
        assert gs'[i + 1][0] == last[0];
      } else {
        assert gs'[i + 1] == gs[i + 1];
      }
    }
  }

  /** Dropping the last word of a group keeps its prefixes fitting. */
  lemma ShortenedFits(g: seq<string>, measure: string -> int, maxWidth: int)
    requires |g| >= 2 && PrefixesFit(g, measure, maxWidth)
    ensures g[..|g| - 1] != [] && PrefixesFit(g[..|g| - 1], measure, maxWidth)
  {
    var short := g[..|g| - 1];
    forall j | 2 <= j <= |short| ensures Width(measure, PrefixLine(short, j)) <= maxWidth {
      assert short[..j] == g[..j];
      assert PrefixLine(short, j) == PrefixLine(g, j);
    }
  }

  /** When no two words fit on a line together, every word gets its own
      line, in order. */
  lemma OneWordPerLine(text: string, measure: string -> int, maxWidth: int)
    requires forall s :: ' ' in s ==> Width(measure, s) > maxWidth
    ensures WrapText(text, measure, maxWidth) == Words(text)
  {
    var lines := WrapText(text, measure, maxWidth);
    WrapTextLines(text, measure, maxWidth);
    var gs := LineWords(lines);
    forall i | 0 <= i < |gs| ensures |gs[i]| == 1 {
      SingleWordGroup(gs[i], measure, maxWidth);
    }
    OneWordGroups(gs, Words(text));
    forall i | 0 <= i < |lines| ensures lines[i] == Words(text)[i] {
      assert gs[i] == [Words(text)[i]];
      assert Join(gs[i], " ") == Words(text)[i];
    }
  }

  /** A non-empty group whose two-word prefix, which contains a space, fit
      holds one word when everything with a space is too wide. */
  lemma SingleWordGroup(g: seq<string>, measure: string -> int, maxWidth: int)
    requires g != [] && PrefixesFit(g, measure, maxWidth)
    requires forall s :: ' ' in s ==> Width(measure, s) > maxWidth
    ensures |g| == 1
  {
    if |g| >= 2 {
      PairHasSpace(g);
      assert false;
    }
  }

  lemma PairHasSpace(g: seq<string>)
    requires |g| >= 2
    ensures ' ' in PrefixLine(g, 2)
  {
    assert g[..2][1..] == [g[1]];
    assert Join([g[1]], " ") == g[1];
    var pair := PrefixLine(g, 2);
    assert pair == g[0] + " " + g[1];
    assert pair[|g[0]|] == ' ';
  }

  lemma {:induction false} OneWordGroups(gs: seq<seq<string>>, words: seq<string>)
    requires Flatten(gs) == words
    requires forall i :: 0 <= i < |gs| ==> |gs[i]| == 1
    ensures |gs| == |words|
    ensures forall k :: 0 <= k < |gs| ==> gs[k] == [words[k]]
  {
    if gs != [] {
      OneWordGroups(gs[1..], words[1..]);
      forall k | 0 <= k < |gs| ensures gs[k] == [words[k]] {
        if k > 0 { assert gs[k] == gs[1..][k - 1]; }
      }
    }
  }
}
